=== FILE: README.md ===
# wave-cli in Dafny

A model of the client-side rules of the Wave command-line tools: the wave cli
(`io.seqera.wave.cli`) and its lighter sibling wavelit (`io.seqera.wavelit`).
Both tools take command-line options, check them, pack a build context and
container layers within fixed size budgets, assemble a container
configuration, submit a container request to the Wave service over a retried
HTTP call, optionally wait for the build, and print the result.

The model covers:

- the option checks of both tools;
- the build-context and layer budgets (5 MiB per context, 1 MiB per layer,
  under 10 MiB in aggregate);
- the container configuration assembly;
- the conda channel list;
- the await decision and the rendering of the answer;
- the endpoint and registry-manifest URI handling of both clients;
- the Failsafe retry policy (which failures are retried, and the bound of 5
  attempts);
- the response handling of `submit`/`inspect`/`serviceInfo`;
- the `awaitCompletion` polling loop (wave cli) and `awaitImage` (wavelit);
- the small validators and codecs: `Checkers`, `KeyValueValidator`,
  `DurationConverter`, the nanosecond `Duration` codec of the
  `DateTimeAdapter`s, and the Base64 `ByteArrayAdapter` (section 4 of RFC 4648);
- the response reshaping in `ContainerSpecEx`, `LayerRefAdapter`,
  `SubmitContainerTokenResponseEx` and `GptHelper`.

Java `null` is `Option.None`, and an exception is the `Failure` (or `Fail`) of a
`Result` (or `Outcome`) carrying one constructor per exception the source
raises. These are parameters of the functions that use them:

- the filesystem (`Files.exists`, `Files.isDirectory`);
- the archive packer;
- the config-file reader;
- `String.getBytes`;
- the JSON decoder, which says whether a body decodes, is not JSON, or is JSON of the wrong shape;
- whether `URI.create` parses a text (`uriAccepts`);
- the clock;
- the outcome of each HTTP exchange.

Modules, one per file:

| module | file | models |
|---|---|---|
| `Wrappers` | wrappers.dfy | `Option`, `Result`, `Outcome` |
| `Strings` | strings.dfy | `String.trim`, `startsWith`, `indexOf`, `replace`, `split`/join, `StringUtils.stripEnd`, `StringUtils.isEmpty`, ASCII case mapping |
| `Decimal` | decimal.dfy | `Long.toString`, `Long.parseLong` |
| `Durations` | durations.dfy | `java.time.Duration` as a nanosecond count |
| `Checkers` | checkers.dfy | `Checkers` |
| `KeyValueValidator` | key_value_validator.dfy | wavelit `KeyValueValidator` |
| `DurationConverter` | duration_converter.dfy | `DurationConverter` with `Duration.parse` on "PT…" |
| `DateTimeAdapter` | date_time_adapter.dfy | the `Duration` half of both `DateTimeAdapter`s |
| `ByteArrayAdapter` | byte_array_adapter.dfy | wavelit `ByteArrayAdapter` |
| `JsonDecoding` | json_decoding.dfy | the three outcomes of Moshi's `fromJson` |
| `Retry` | retry.dfy | `RetryOpts`, `httpSend`/`safeApply` of both clients |
| `Endpoints` | endpoints.dfy | `withEndpoint`, the manifest URI, the protocol `new URL` reads |
| `WaveClient` | wave_client.dfy | wave cli `Client` |
| `LitClient` | lit_client.dfy | wavelit `Client` |
| `ContainerSpecEx` | container_spec.dfy | `ContainerSpecEx` |
| `LayerRefAdapter` | layer_ref_adapter.dfy | `LayerRefAdapter` |
| `SubmitResponses` | submit_response.dfy | `SubmitContainerTokenResponseEx` |
| `GptHelper` | gpt_helper.dfy | `GptHelper` |
| `ContainerConfigs` | container_config.dfy | the layer loop and size budgets shared by both `App`s |
| `App` | app.dfy | wave cli `App` |
| `LitApp` | lit_app.dfy | wavelit `App` |
| `ToolDifferences` | tool_differences.dfy | where the two `App`s disagree on the same input |

Source differences worth knowing, where the model follows the code:

- `awaitCompletion` stops on COMPLETED only. A FAILED build is polled again
  until the timeout.
- The timeout ends the loop silently, without an error.
- The timeout test is `elapsed > timeout`, strictly.
- `ReadyTimeoutException` is never thrown.
- `App.java:459` uses a value returned by `awaitCompletion`, which is `void`
  in `Client.java:200`. The model keeps the loop as `Client.java` writes it.
  `App.RunOutcome` takes the awaited status answer as a parameter, and
  `SubmitResponses.Merge` builds the merged answer from it.
- Only `IOException` is retried, and a failed transport surfaces as a
  `FailsafeException`, not as a dedicated retry-exhausted error. Any code
  outside 249, 502, 503 and 504 is returned on the first attempt; no 4xx
  class is singled out.

## Model

| member | source | states |
|---|---|---|
| Strings.TrimStart | app/src/main/java/io/seqera/wave/cli/util/Checkers.java:25 | the leading characters `trim()` removes are dropped, and the first one left is not removable |
| Strings.TrimEnd | app/src/main/java/io/seqera/wave/cli/util/Checkers.java:25 | the trailing characters `trim()` removes are dropped, and the last one left is not removable |
| Strings.TrimEmptyIff | app/src/main/java/io/seqera/wave/cli/util/Checkers.java:25 | `trim()` gives "" exactly when every character is at most U+0020 |
| Strings.TrimIdempotent | app/src/main/java/io/seqera/wave/cli/App.java:698 | trimming a trimmed string changes nothing |
| Strings.TrimUnchanged | app/src/main/java/io/seqera/wave/cli/App.java:698 | a string with no removable character at either end is its own trim |
| Strings.StripTrailingSlashes | app/src/main/java/io/seqera/wave/cli/Client.java:143 | `stripEnd(s, "/")` is a prefix of `s`, only '/' was removed, and no '/' is left at the end |
| Strings.StripTrailingSlashesUnchanged | app/src/main/java/io/seqera/wave/cli/Client.java:143 | a text not ending in '/' is kept as it is |
| Strings.StripAppendedSlashes | app/src/main/java/io/seqera/wave/cli/Client.java:143 | any number of appended '/' are all stripped |
| Strings.IndexOf | app/src/main/java/io/seqera/wave/cli/Client.java:194 | `indexOf` is the first position of the character, or none when it does not occur |
| Strings.ReplaceCharConcat | app/src/main/java/io/seqera/wave/cli/Client.java:196 | `replace` distributes over concatenation |
| Strings.ReplaceCharRemoves | app/src/main/java/io/seqera/wave/cli/Client.java:196 | after replacing ':' by a text without ':', no ':' remains |
| Strings.ReplaceCharAbsent | app/src/main/java/io/seqera/wave/cli/Client.java:196 | a text without the character is unchanged |
| Strings.SplitAt | app/src/main/java/io/seqera/wave/cli/App.java:697 | the pieces cut at every separator, empty ones included, contain no separator |
| Strings.SplitAtNone | app/src/main/java/io/seqera/wave/cli/App.java:697 | a text without separators is one piece, itself |
| Strings.SplitAtSeparator | app/src/main/java/io/seqera/wave/cli/App.java:697 | the pieces cut from `a`, a separator and `b` are the pieces of `a` followed by those of `b` |
| Strings.SplitJoin | app/src/main/java/io/seqera/wave/cli/App.java:697 | cutting pieces joined by a separator at every separator gives the pieces back, empty ones included |
| Strings.DropTrailingEmpty | app/src/main/java/io/seqera/wave/cli/App.java:697 | the result is a prefix of the pieces that is empty or ends in a non-empty piece, and only empty pieces were dropped |
| Strings.JavaSplitSpec | app/src/main/java/io/seqera/wave/cli/App.java:697 | `split("[, ]")`: a text without a separator is returned whole, "" included; otherwise the cut pieces with exactly their trailing empty ones dropped |
| Strings.JavaSplitDropsTrailing | app/src/main/java/io/seqera/wave/cli/App.java:697 | a piece and one separator split to that piece alone, and a separator alone splits to nothing ("a," gives "a", "," gives no piece) |
| Strings.JavaSplitJoin | app/src/main/java/io/seqera/wave/cli/App.java:697 | splitting a join whose last piece is not empty gives the pieces back |
| Strings.ToUpper | app/src/main/java/io/seqera/wave/cli/util/DurationConverter.java:35 | upper-casing keeps the length, leaves no lower-case letter, keeps every other character, and moves each letter a-z to the letter at the same place in A-Z |
| Strings.ToLower | app/src/main/java/io/seqera/wave/cli/Client.java:187 | lower-casing keeps the length, leaves no upper-case letter, keeps every other character, and moves each letter A-Z to the letter at the same place in a-z |
| Strings.ToUpperIdempotent | app/src/main/java/io/seqera/wave/cli/util/DurationConverter.java:35 | upper-casing twice is upper-casing once |
| Strings.CaseFoldAgrees | app/src/main/java/io/seqera/wave/cli/Client.java:187 | lower-casing an upper-cased text is lower-casing the text, and the other way round |
| Decimal.Digits | app/src/main/java/io/seqera/wave/cli/json/DateTimeAdapter.java:45 | `Long.toString` of a natural number is all digits without a leading zero |
| Decimal.ValueOfDigits | app/src/main/java/io/seqera/wave/cli/json/DateTimeAdapter.java:45 | the written digits denote the number |
| Decimal.ParseLong | app/src/main/java/io/seqera/wave/cli/json/DateTimeAdapter.java:54 | `Long.parseLong` accepts exactly an optional '+' or '-' followed by at least one digit whose signed value fits a `long`, and gives that value |
| Decimal.ValueLeadingZeros | app/src/main/java/io/seqera/wave/cli/json/DateTimeAdapter.java:54 | leading zeros do not change the value of a digit string |
| Decimal.ParsePadded | app/src/main/java/io/seqera/wave/cli/json/DateTimeAdapter.java:54 | a '+' or '-' sign and any number of leading zeros before the canonical digits parse to the signed number when it fits a `long` |
| Decimal.ParseExamples | app/src/main/java/io/seqera/wave/cli/json/DateTimeAdapter.java:54 | "+5" is 5 and "-007" is -7; "-", "" and "5s" are rejected |
| Decimal.ParseFormatLong | app/src/main/java/io/seqera/wave/cli/json/DateTimeAdapter.java:45-55 | every `long` written by `Long.toString` is parsed back to itself |
| Decimal.DigitsOfValue | app/src/main/java/io/seqera/wave/cli/json/DateTimeAdapter.java:45 | the digits without leading zeros are the only canonical text of a number |
| Durations.TruncDiv | app/src/main/java/io/seqera/wave/cli/Client.java:204 | the remainder Java's `/` leaves has the sign of the dividend and is smaller than the divisor, which makes the quotient the one truncated toward zero |
| Durations.TruncDivNegate | app/src/main/java/io/seqera/wave/cli/Client.java:204 | negating the dividend negates the quotient; -7 / 2 is -3, where Euclidean division gives -4 |
| Checkers.IsEmptyIffTrimmedEmpty | app/src/main/java/io/seqera/wave/cli/util/Checkers.java:24-26 | `isEmpty(String)` holds exactly for null and for strings that trim to "" |
| Checkers.IsEmptyList | app/src/main/java/io/seqera/wave/cli/util/Checkers.java:28-30 | `isEmpty(List)` holds exactly for null and for lists with no element |
| Checkers.MatchNameRestSpec | app/src/main/java/io/seqera/wave/cli/util/Checkers.java:22 | the matcher after the first character accepts exactly name characters, '=', then a value without line terminators |
| Checkers.IsEnvVarSpec | app/src/main/java/io/seqera/wave/cli/util/Checkers.java:22-34 | `isEnvVar` accepts exactly `NAME=VALUE` with a name of [A-Za-z_][A-Za-z0-9_]* and a value without line terminators |
| Checkers.NoEqualsRejected | app/src/main/java/io/seqera/wave/cli/util/Checkers.java:22 | a text without '=' is never an environment entry |
| Checkers.EntryAccepted | app/src/main/java/io/seqera/wave/cli/util/Checkers.java:22 | any valid name, '=', and a value free of line terminators is accepted, further '=' included |
| KeyValueValidator.ConsumeParameters | app/src/main/java/io/seqera/wavelit/util/KeyValueValidator.java:9-15 | the top of the stack is taken; it is stored unchanged iff it contains '='; an empty stack fails |
| KeyValueValidator.ConsumeTakesOne | app/src/main/java/io/seqera/wavelit/util/KeyValueValidator.java:10 | exactly one element is taken from the top of the stack |
| KeyValueValidator.EmptyKeyAccepted | app/src/main/java/io/seqera/wavelit/util/KeyValueValidator.java:11 | "=x" is accepted although its key is empty |
| DurationConverter.SpanDigits | app/src/main/java/io/seqera/wave/cli/util/DurationConverter.java:35 | the digit run at the start is all digits and stops at the first non-digit |
| DurationConverter.Convert | app/src/main/java/io/seqera/wave/cli/util/DurationConverter.java:31-36 | a null value gives 15 minutes |
| DurationConverter.ConvertDefault | app/src/main/java/io/seqera/wave/cli/util/DurationConverter.java:32-35 | null and blank values give 15 minutes, and any other value is parsed as "PT" + its upper-case form |
| DurationConverter.ConvertCaseInsensitive | app/src/main/java/io/seqera/wave/cli/util/DurationConverter.java:35 | a value and its upper-cased form convert alike |
| DurationConverter.ConvertRender | app/src/main/java/io/seqera/wave/cli/util/DurationConverter.java:35 | every `<n>h<n>m<n>s` text (each part optional) converts to the duration it spells out, e.g. "10m" to 10 minutes |
| DateTimeAdapter.SerializeDuration | app/src/main/java/io/seqera/wave/cli/json/DateTimeAdapter.java:44-46 | null stays null; otherwise the nanoseconds as a decimal that parses back to them, failing only when they do not fit a `long` |
| DateTimeAdapter.DeserializeDuration | app/src/main/java/io/seqera/wave/cli/json/DateTimeAdapter.java:49-56 | null stays null; a text without '.' is that many nanoseconds, or a `NumberFormatException` |
| DateTimeAdapter.DurationRoundTrip | app/src/main/java/io/seqera/wavelit/json/DateTimeAdapter.java:38-50 | every duration whose nanoseconds fit a `long`, and null, reads back as written |
| ByteArrayAdapter.Serialize | app/src/main/java/io/seqera/wavelit/app/json/ByteArrayAdapter.java:26-28 | the encoding has length 4·⌈n/3⌉ and uses only the Base64 alphabet and '=' |
| ByteArrayAdapter.SerializeRoundTrip | app/src/main/java/io/seqera/wavelit/app/json/ByteArrayAdapter.java:27-32 | decoding the encoding of any byte array gives it back |
| ByteArrayAdapter.UnpaddedAccepted | app/src/main/java/io/seqera/wavelit/app/json/ByteArrayAdapter.java:32 | the decoder also accepts the encoding without its padding |
| ByteArrayAdapter.ForeignCharRejected | app/src/main/java/io/seqera/wavelit/app/json/ByteArrayAdapter.java:32 | a character outside the alphabet before the padding makes decoding fail |
| Retry.DefaultRetryOpts | app/src/main/java/io/seqera/wave/cli/config/RetryOpts.java:23-27 | 150 ms first delay, 90 s largest delay, 5 attempts, and the first delay is within the largest |
| Retry.SendFrom | app/src/main/java/io/seqera/wave/cli/Client.java:166-181 | at most 5 attempts; an attempt short of the bound that is not retryable is the last one, and the last one settles the outcome |
| Retry.RetriedBeforeLast | app/src/main/java/io/seqera/wave/cli/Client.java:166-181 | every attempt before the last one failed retryably |
| Retry.HttpSend | app/src/main/java/io/seqera/wave/cli/Client.java:172-181 | between 1 and 5 attempts; a server-error code is never delivered; the call is exhausted iff all 5 attempts fail retryably |
| Retry.FirstResponseDelivered | app/src/main/java/io/seqera/wave/cli/Client.java:174-179 | a first answer with any other code is returned at once |
| Retry.AllRetryableExhausts | app/src/main/java/io/seqera/wave/cli/Client.java:159-169 | five retryable failures exhaust the call after exactly five attempts |
| Retry.FirstSettledAttempt | app/src/main/java/io/seqera/wavelit/Client.java:123-138 | the attempt count is one past the first non-retryable attempt, which settles the outcome |
| Retry.SendDependsOnAttemptsMade | app/src/main/java/io/seqera/wave/cli/Client.java:166-170 | attempts after the last one made cannot change the outcome |
| Endpoints.WithEndpoint | app/src/main/java/io/seqera/wave/cli/Client.java:141-146 | null or "" keeps the endpoint; otherwise the argument without trailing '/' is stored |
| Endpoints.StoredEndpointStable | app/src/main/java/io/seqera/wavelit/Client.java:98-103 | giving the stored endpoint again stores it unchanged |
| Endpoints.TrailingSlashesIgnored | app/src/main/java/io/seqera/wavelit/Client.java:98-103 | an endpoint with any number of trailing '/' stores as the endpoint without them |
| Endpoints.ManifestUri | app/src/main/java/io/seqera/wave/cli/Client.java:193-198 | no URI without '/' in the name; otherwise it starts with the protocol |
| Endpoints.ManifestOfTaggedName | app/src/main/java/io/seqera/wave/cli/Client.java:196 | `registry/repository:tag` maps to `registry/v2/repository/manifests/tag` after the protocol |
| Endpoints.ManifestOfUntaggedName | app/src/main/java/io/seqera/wave/cli/Client.java:196 | a name without a tag keeps its repository path |
| Endpoints.ManifestOfSplit | app/src/main/java/io/seqera/wave/cli/Client.java:194-196 | the registry is the text before the first '/', the rest has every ':' replaced |
| Endpoints.ManifestHasNoColonAfterRegistry | app/src/main/java/io/seqera/wavelit/Client.java:144 | no ':' survives after the registry |
| Endpoints.SchemeEnd | app/src/main/java/io/seqera/wave/cli/Client.java:187 | the protocol ends at the first ':' that comes before any '/' |
| Endpoints.UrlScheme | app/src/main/java/io/seqera/wave/cli/Client.java:187 | a protocol found by `new URL` is a valid protocol name in lower case |
| Endpoints.UrlSchemeOf | app/src/main/java/io/seqera/wave/cli/Client.java:187 | an endpoint `scheme:rest` has the lower-cased scheme as its protocol |
| WaveClient.Protocol | app/src/main/java/io/seqera/wave/cli/Client.java:183-191 | "https://" for an empty endpoint; otherwise success iff `new URL` finds a protocol whose handler accepts the endpoint, giving that protocol and "://"; every error is the invalid-endpoint error |
| WaveClient.ProtocolOfScheme | app/src/main/java/io/seqera/wave/cli/Client.java:183-191 | a `scheme:rest` endpoint gives back its lower-cased scheme |
| WaveClient.ImageToManifestUri | app/src/main/java/io/seqera/wave/cli/Client.java:193-198 | a name without '/' is rejected first, then the endpoint's protocol error; success iff the protocol is found and `URI.create` accepts the manifest URI after it, which is the result; otherwise the `URI.create` error names that URI |
| WaveClient.ManifestUnderEndpoint | app/src/main/java/io/seqera/wave/cli/Client.java:193-198 | `registry/repository:tag` resolves to `scheme://registry/v2/repository/manifests/tag` when `URI.create` accepts that text |
| WaveClient.Call | app/src/main/java/io/seqera/wave/cli/Client.java:126-138 | success iff a 200 is delivered and its body decodes, to that value; a bad response iff another code is delivered, carrying code and body; a 200 with JSON of the wrong shape escapes as a decoding error; everything else is a connection error |
| WaveClient.ServerErrorsNeverReported | app/src/main/java/io/seqera/wave/cli/Client.java:175-179 | codes 249, 502, 503 and 504 never reach the caller as a bad response |
| WaveClient.RetriesExhaustedIsConnectionError | app/src/main/java/io/seqera/wave/cli/Client.java:136-137 | retries run out into a `ClientConnectionException` |
| WaveClient.FirstOkDecoded | app/src/main/java/io/seqera/wave/cli/Client.java:104-105 | a 200 answered first is decoded without retrying |
| WaveClient.MismatchedBodyEscapes | app/src/main/java/io/seqera/wave/cli/Client.java:129-137 | a 200 whose JSON has the wrong shape is not reported as a connection error |
| WaveClient.IsComplete | app/src/main/java/io/seqera/wave/cli/Client.java:210-236 | complete iff the decoded status is COMPLETED; an interrupted sleep or a failed call is an error |
| WaveClient.FailedIsNotComplete | app/src/main/java/io/seqera/wave/cli/Client.java:226 | a FAILED build is not complete |
| WaveClient.AwaitCompletion | app/src/main/java/io/seqera/wave/cli/Client.java:200-208 | at least one check and at most timeout/10 s + 1; every earlier check was pending within the timeout; it stops on completion, on an error, or once the time elapsed exceeds the timeout; a timeout whose milliseconds overflow a `long` fails with an arithmetic error after the first pending check |
| LitClient.ImageToManifestUri | app/src/main/java/io/seqera/wavelit/Client.java:141-146 | rejected as a name iff it has no '/'; otherwise success iff `URI.create` accepts the manifest URI after "https://", which is the result, and else an error naming that URI |
| LitClient.SubmitAsWritten | app/src/main/java/io/seqera/wavelit/Client.java:73-96 | success iff a 200 is delivered and decodes; an undelivered call escapes as the retry library's exception; a 200 body that is not JSON is "Unable to connect"; JSON of the wrong shape escapes as a decoding error |
| LitClient.SubmitLeaksRetryFailure | app/src/main/java/io/seqera/wavelit/Client.java:93-95 | a service that never answers yields the retry failure, not "Unable to connect" |
| LitClient.Submit | app/src/main/java/io/seqera/wavelit/Client.java:73-96 | success iff a 200 is delivered and decodes; an invalid response iff another code is delivered; an undelivered call is "Unable to connect"; the only other error is a body of the wrong shape |
| LitClient.SubmitAgreesWhenDelivered | app/src/main/java/io/seqera/wavelit/Client.java:83-95 | the corrected and the written `submit` agree exactly when the call is delivered |
| LitClient.AwaitImage | app/src/main/java/io/seqera/wavelit/Client.java:148-167 | the manifest-URI error first; otherwise success iff a code in [200, 400) is delivered, giving that code; an undelivered call escapes |
| LitClient.RedirectCountsAsAvailable | app/src/main/java/io/seqera/wavelit/Client.java:159 | a 3xx answer counts as available |
| ContainerSpecEx.WithLayerUris | app/src/main/java/io/seqera/wave/cli/model/ContainerSpecEx.java:32-43 | fields outside the layers are kept; a null manifest or layer list changes nothing; layer count, order and descriptors are kept and each gains `host/v2/image/blobs/digest` |
| ContainerSpecEx.WithLayerUrisIdempotent | app/src/main/java/io/seqera/wave/cli/model/ContainerInspectResponseEx.java:32-33 | wrapping twice gives the same spec as wrapping once |
| ContainerSpecEx.BlobUriOfNames | app/src/main/java/io/seqera/wave/cli/model/ContainerSpecEx.java:39 | the URI is host, "/v2/", image, "/blobs/" and digest |
| LayerRefAdapter.ToJson | app/src/main/java/io/seqera/wave/cli/json/LayerRefAdapter.java:31-37 | the output is always a `LayerRef` with the same descriptor; a `LayerRef` is returned unchanged; a plain ref gets a null uri |
| LayerRefAdapter.ToJsonIdempotent | app/src/main/java/io/seqera/wave/cli/json/LayerRefAdapter.java:32-35 | applying the adapter twice equals applying it once |
| LayerRefAdapter.ToJsonKeepsRewrittenLayers | app/src/main/java/io/seqera/wave/cli/json/LayerRefAdapter.java:32-33 | the layers of a `ContainerSpecEx` are written with their URIs |
| SubmitResponses.Merge | app/src/main/java/io/seqera/wave/cli/model/SubmitContainerTokenResponseEx.java:59-67 | status, duration, vulnerabilities, succeeded, reason and details link from the status answer; everything else from the submit answer |
| SubmitResponses.MergeReadsOnlyOutcome | app/src/main/java/io/seqera/wave/cli/model/SubmitContainerTokenResponseEx.java:60-66 | no other field of the status answer, and not the submit answer's own `succeeded`, affects the result |
| GptHelper.ListField | app/src/main/java/io/seqera/wave/cli/util/GptHelper.java:115-118 | a missing or null key gives null, a list is kept, any other value fails the cast |
| GptHelper.JsonToPackageSpec | app/src/main/java/io/seqera/wave/cli/util/GptHelper.java:112-129 | unparsable or null documents fail; a result is conda with the non-empty "packages" list and either the "channels" list or the defaults |
| GptHelper.PackageSpecOfObject | app/src/main/java/io/seqera/wave/cli/util/GptHelper.java:115-124 | with non-empty packages: accepted iff channels are not a non-list; channels are the given non-empty list, else bioconda, conda-forge, defaults |
| GptHelper.NoPackagesRejected | app/src/main/java/io/seqera/wave/cli/util/GptHelper.java:116-117 | missing, null or empty packages are rejected naming the text |
| GptHelper.GrabPackages | app/src/main/java/io/seqera/wave/cli/util/GptHelper.java:46-89 | every failure is a bad client response; an empty API key fails first; success iff the first tool request decodes, and then it is that spec |
| GptHelper.OnlyFirstRequestUsed | app/src/main/java/io/seqera/wave/cli/util/GptHelper.java:84 | requests after the first never matter |
| GptHelper.NoToolRequestRejected | app/src/main/java/io/seqera/wave/cli/util/GptHelper.java:82-83 | a null or empty tool-request list is rejected naming the prompt |
| ContainerConfigs.AddLayers | app/src/main/java/io/seqera/wave/cli/App.java:561-576 | succeeds iff every directory is a directory that packs within 1 MiB; the layers are appended in order; the first failing directory's error is reported |
| ContainerConfigs.AddedLayersWithinBudget | app/src/main/java/io/seqera/wavelit/App.java:265-277 | every layer added is within 1 MiB |
| ContainerConfigs.InlineLayers | app/src/main/java/io/seqera/wave/cli/App.java:580-583 | the counted layers are layers of the list and inline |
| ContainerConfigs.InlineSizeIsTotalOfInline | app/src/main/java/io/seqera/wave/cli/App.java:579-583 | the aggregate counted is the total size of the "data:" layers alone |
| ContainerConfigs.TotalSizeAppend | app/src/main/java/io/seqera/wavelit/App.java:279-282 | the total of a concatenation is the sum of the totals |
| ContainerConfigs.InlineSizeAppend | app/src/main/java/io/seqera/wave/cli/App.java:579-583 | the inline aggregate of a concatenation is the sum of the aggregates |
| ContainerConfigs.InlineSizeAtMostTotal | app/src/main/java/io/seqera/wave/cli/App.java:579-583 | with no negative size the inline aggregate lies between 0 and the total |
| ContainerConfigs.UniformLayersSize | app/src/main/java/io/seqera/wave/cli/App.java:579-583 | n equal inline layers add up to n times their size |
| ContainerConfigs.TenFullLayersExceedBudget | app/src/main/java/io/seqera/wave/cli/App.java:574-585 | ten inline layers of exactly 1 MiB each pass the per-layer check but reach the 10 MiB aggregate, which rejects them |
| App.ValidateArgs | app/src/main/java/io/seqera/wave/cli/App.java:315-392 | a failure names a check whose condition holds and before which no check holds; it passes iff no check holds |
| App.ValidateArgsAcceptsValid | app/src/main/java/io/seqera/wave/cli/App.java:315-392 | accepted iff at most one build source with something to provision, a token for a build repository, a known output format, an existing conda file, a context directory with a container file, singularity only with freeze, mirror only alone with a build repository, no dry run with await, and a known platform |
| App.SecondContextCheckUnreachable | app/src/main/java/io/seqera/wave/cli/App.java:349-358 | the second "context needs a container file" error is never raised |
| App.MirrorContextCheckUnreachable | app/src/main/java/io/seqera/wave/cli/App.java:349-378 | the "mirror and context" error is never raised |
| App.EmptyCondaPackagesCountAsSource | app/src/main/java/io/seqera/wave/cli/App.java:319-374 | an empty package list is a build source, yet does not conflict with mirror |
| App.PrepareContext | app/src/main/java/io/seqera/wave/cli/App.java:501-525 | no context iff the directory is blank; a pack failure and a size above 5 MiB are the only errors; otherwise the packed layer |
| App.ContextBudgetBoundary | app/src/main/java/io/seqera/wave/cli/App.java:522-523 | exactly 5 MiB passes, one byte more fails |
| App.FirstInvalidEnv | app/src/main/java/io/seqera/wave/cli/App.java:547-550 | none iff every entry is an environment entry; otherwise the first entry that is not |
| App.BaseConfig | app/src/main/java/io/seqera/wave/cli/App.java:527-558 | the config file's error first, then a blank command, then the first entry that is not NAME=VALUE, then a blank working directory, each exactly when the earlier checks pass; on success each given field is set as given and every other field, the layers included, is the config file's |
| App.BaseConfigOfFileAlone | app/src/main/java/io/seqera/wave/cli/App.java:527-534 | with no field given on the command line the result is the config file's, errors included |
| App.PrepareConfig | app/src/main/java/io/seqera/wave/cli/App.java:527-589 | base errors come first, then the first bad layer; fails with the aggregate error iff the inline size reaches 10 MiB; succeeds iff the base succeeds, every layer packs and the inline size stays under 10 MiB; no other error; a blank result is null |
| App.PrepareConfigWithoutLayers | app/src/main/java/io/seqera/wave/cli/App.java:527-589 | without `--layer` the result is the base configuration, or null when blank, unless its own layers reach the aggregate budget; directories and packer are never consulted |
| App.ExternalLayerNotCounted | app/src/main/java/io/seqera/wave/cli/App.java:581-582 | a layer stored outside the request does not change the aggregate |
| App.DropBlank | app/src/main/java/io/seqera/wave/cli/App.java:699 | no more pieces are kept than given, and none is blank |
| App.DropBlankMembers | app/src/main/java/io/seqera/wave/cli/App.java:699 | a piece is kept iff it is one of the input and not blank |
| App.DropBlankAppend | app/src/main/java/io/seqera/wave/cli/App.java:699 | filtering a concatenation filters each part, so the kept pieces keep their order |
| App.CondaChannels | app/src/main/java/io/seqera/wave/cli/App.java:693-701 | null iff the option is null; every channel is non-blank and free of separators; the channels are those of every cut piece, so the pieces `split` drops make no difference; App.ChannelsOfPiece and App.ChannelsAtSeparator below then fix the list of every text |
| App.TrimEachIdempotent | app/src/main/java/io/seqera/wave/cli/App.java:698 | trimming every piece of a list that is already trimmed changes nothing |
| App.SplitTrailingIgnored | app/src/main/java/io/seqera/wave/cli/App.java:697-699 | the trailing empty pieces `split` drops would be filtered out as blank anyway |
| App.ChannelsOfPiece | app/src/main/java/io/seqera/wave/cli/App.java:693-701 | a text without separators gives no channel if blank, else the one channel it trims to |
| App.ChannelsAtSeparator | app/src/main/java/io/seqera/wave/cli/App.java:693-701 | the channels of `a`, a separator and `b` are those of `a` followed by those of `b` |
| App.ChannelsAroundRun | app/src/main/java/io/seqera/wave/cli/App.java:693-701 | any run of commas and spaces between two texts separates them like a single separator |
| App.ChannelsOfSeparated | app/src/main/java/io/seqera/wave/cli/App.java:693-701 | channel names joined by any non-empty runs of commas and spaces parse to the trimmed names, in order |
| App.CommaSpaceSeparated | app/src/main/java/io/seqera/wave/cli/App.java:693-701 | "a, b" gives the two channels a and b, e.g. "conda-forge, bioconda" |
| App.CondaChannelsOfJoin | app/src/main/java/io/seqera/wave/cli/App.java:693-701 | clean channel names joined with ',' parse back to the same list |
| App.DefaultChannelsParse | app/src/main/java/io/seqera/wave/cli/App.java:693-701 | the default option gives conda-forge, then bioconda |
| App.DryRunNeverAwaits | app/src/main/java/io/seqera/wave/cli/App.java:386-387 | an accepted dry run never waits |
| App.DumpOutput | app/src/main/java/io/seqera/wave/cli/App.java:650-661 | no format prints the target image; "json" and "yaml" render; any other format is an error naming it |
| App.FailureMessageShape | app/src/main/java/io/seqera/wave/cli/App.java:640-644 | the message starts with the header, is the header alone iff both fields are empty, and the reason line comes right after it |
| App.DumpOutputEx | app/src/main/java/io/seqera/wave/cli/App.java:638-648 | without a format a failed build raises the failure message and an unknown outcome fails on unboxing; otherwise as the plain response |
| App.DumpInspect | app/src/main/java/io/seqera/wave/cli/App.java:663-671 | succeeds iff the format is null, "json" or "yaml"; YAML only for "yaml" |
| App.RunOutcome | app/src/main/java/io/seqera/wave/cli/App.java:456-466 | the merged answer is printed iff the build is awaited; otherwise the submit answer as it came |
| App.ImmediateFailurePrinted | app/src/main/java/io/seqera/wave/cli/App.java:458-465 | a submit answer that already failed prints its target image without an error |
| App.AwaitedFailureReported | app/src/main/java/io/seqera/wave/cli/App.java:639-645 | an awaited failure is raised with the status answer's reason and link |
| App.BlankOutputFormatFailsLate | app/src/main/java/io/seqera/wave/cli/App.java:657-658 | a blank output format passes validation and then fails in printing |
| LitApp.ValidateArgs | app/src/main/java/io/seqera/wavelit/App.java:133-158 | a failure names a check whose condition holds and before which no check holds; it passes iff no check holds |
| LitApp.ValidateArgsAcceptsValid | app/src/main/java/io/seqera/wavelit/App.java:133-158 | accepted iff exactly one of image and container file, freeze with a build repository, a token for a build repository, and a context directory that exists, is a directory and comes with a container file |
| LitApp.FreezeCarriesToken | app/src/main/java/io/seqera/wavelit/App.java:140-144 | an accepted freeze request has a build repository and a token |
| LitApp.EncodeBase64 | app/src/main/java/io/seqera/wavelit/App.java:204-224 | null or "" gives null; a path or URI value yields the Base64 of the bytes read, or the unreadable or invalid-URI error; other values yield the Base64 of their own bytes; the result decodes to those bytes |
| LitApp.BareFileNameSentAsText | app/src/main/java/io/seqera/wavelit/App.java:208-216 | "Dockerfile" is sent as text, not read from disk |
| LitApp.PrepareContext | app/src/main/java/io/seqera/wavelit/App.java:226-239 | no context iff the directory is null or ""; a pack failure and a size above 5 MiB are the only errors |
| ContainerConfigs.ReadConfigFile | app/src/main/java/io/seqera/wave/cli/App.java:530-534 | no file gives a new configuration; a name that trims to "" fails before reading; an unreadable file fails naming it; otherwise the reader's configuration |
| LitApp.BaseConfig | app/src/main/java/io/seqera/wavelit/App.java:241-262 | succeeds iff the config file reads and the command is not ""; otherwise the config file's error or the blank-command error; entrypoint and command as given; everything else from the file |
| LitApp.PrepareConfig | app/src/main/java/io/seqera/wavelit/App.java:241-288 | base errors, then the first bad layer; fails with the aggregate error iff all layers together reach 10 MiB; succeeds iff the base succeeds, every layer packs and the total stays under 10 MiB; no other error; a blank result is null |
| LitApp.PrepareConfigWithoutLayers | app/src/main/java/io/seqera/wavelit/App.java:241-288 | without `--layer` the result is the base configuration, or null when blank, unless its own layers reach the aggregate budget |
| LitApp.RunOutcome | app/src/main/java/io/seqera/wavelit/App.java:196-201 | prints the container image for freeze, else the target image; waits iff await and a non-empty build id, and then succeeds iff the image check does |
| LitApp.NoAwaitNoCheck | app/src/main/java/io/seqera/wavelit/App.java:196-197 | without waiting the image check cannot affect the outcome |
| ToolDifferences.BlankContextDir | app/src/main/java/io/seqera/wavelit/App.java:226-239 | a context directory named by blanks is no context for the wave cli, while wavelit packs it (its argument check first requires such a directory to exist), and fails when packing fails |
| ToolDifferences.BlankCommand | app/src/main/java/io/seqera/wavelit/App.java:260 | a command of blanks is rejected by the wave cli and passed on by wavelit |
| ToolDifferences.LitBudgetIsStricter | app/src/main/java/io/seqera/wavelit/App.java:279-284 | what fits wavelit's aggregate budget fits the wave cli's |
| ToolDifferences.PrepareConfigLitImpliesApp | app/src/main/java/io/seqera/wavelit/App.java:241-288 | with the same config file, entrypoint and layers and no negative size, a configuration wavelit accepts is accepted by the wave cli and comes out the same |
| ToolDifferences.ExternalLayerOnlyCountedByLit | app/src/main/java/io/seqera/wavelit/App.java:279-284 | a 10 MiB external layer passes the wave cli's aggregate check and fails wavelit's |

## Left out

- Archive packing (`Packer`) and `.dockerignore` filtering (`DockerIgnoreFilter`) belong to an external library. Packing is a parameter returning the layer's location and compressed size, or `None` for an `IOException`.
- HTTP transport, headers, TLS and request bodies are not modelled. Each attempt's outcome is given as data. The backoff delays and the 0.25 jitter (a `double`) only schedule retries, and time is not modelled inside `httpSend`.
- The clock and `TimeUnit.SECONDS.sleep` become a monotone clock parameter that advances at least 10 s per status check.
- JSON and YAML rendering and parsing are library code. Rendering is represented by the value rendered; parsing is a parameter (`readConfig`, the decoders, `GptHelper`'s parsed object).
- `readConfig` and `ConfigFileProcessor` (file and URL reading) are left out. The configuration of a readable config file is assumed to have a non-null layer list; the two "file not found" and "unreadable" messages of the wave cli are one error.
- `ContainerConfig.empty()` belongs to the API library. It is taken to mean nothing set and no layers (`IsBlankConfig`).
- The OpenAI client, the model name and the tool schema of `GptHelper` are left out. The chat reply is data.
- `createRequest`, `encodePathBase64`, `encodeStringBase64`, `condaOpts`, `packagesSpec`, `inspectRequest`, `defaultArgs`, environment variables, `printInfo`, `serviceVersion0` and the picocli wiring are left out. They are plumbing, environment I/O or library calls (semver comparison).
- `StreamHelper`, `BuildInfo`, `CliVersionProvider` and logging are I/O.
- The '.' branch of `deserializeDuration` goes through `Double` and `Math.round`. Floating point is not modelled; such a text yields `FloatSeconds`. ISO instant formatting is library code.
- The `Duration.parse` model covers the "PT" time part the converter builds. Day components and non-ASCII case mapping in `toUpperCase` are not modelled.
- The exception classes are distinguished only by the error constructors. Messages are kept where a property is about them (`FailureMessage`).
- Whether `BadClientResponseException` is an `IOException` cannot be seen. `WaveClient.Call` assumes it is not, so a non-200 code surfaces as a bad response.
- LitApp.EncodeBase64: `Path.of(new URI(value))` is a parameter, so which URI schemes a file system provider accepts, including "http" and "https", is not modelled.
- Characters are UTF-16 code units, and bytes of `String.getBytes` come from a parameter (the platform charset is not modelled).
- Decimal.ParseLong: only the ASCII digits '0'-'9' are read. `Long.parseLong` also accepts the other Unicode decimal digits that `Character.digit` knows, a table that depends on the JDK's Unicode version.
- DateTimeAdapter.DeserializeDuration: reads through `Decimal.ParseLong`, so a text of non-ASCII decimal digits is rejected here and accepted by `Long.valueOf`.
- Endpoints.UrlScheme: `IsValidScheme` takes letters and digits to be the ASCII ones. `URL.isValidProtocol` uses `Character.isLetter` and `Character.isLetterOrDigit`, which also accept other Unicode letters and digits.
- WaveClient.Call: the request URI `URI.create(endpoint + path)` of `inspect`, `submit`, `serviceInfo` and `isComplete` is assumed to parse; the `IllegalArgumentException` an unparsable endpoint raises there is not modelled. The same holds for wavelit's `submit`.
- Integer overflow of the `long` sums of layer sizes is not modelled; sizes are unbounded integers.
- ContainerSpecEx.WithLayerUris: the constructor rewrites the layer list of its argument's manifest in place (`layers.set(i, …)`), so the caller's spec changes too; the model returns a new spec and leaves its argument as it was. The rewritten layers reach the new object only if the library's copy constructor `super(spec)`, which is not part of this model, shares the manifest instead of copying it; the model assumes it shares it.

## Findings

| source | as written | input that shows it | evidently intended | confidence | as-written member | corrected member |
|---|---|---|---|---|---|---|
| app/src/main/java/io/seqera/wavelit/Client.java:93-95 | `submit` catches only `IOException`, but the retried call reports a failed transport as `FailsafeException`, which escapes unwrapped | a service that fails every attempt with an `IOException` (5 times) | every connection failure reported as "Unable to connect Wave service" | medium, not executed | LitClient.SubmitLeaksRetryFailure | LitClient.Submit |

=== FILE: app.dfy ===
/** The wave cli `App`: the checks on the command-line options, the assembly of
    the build context and of the container configuration, the conda channel
    list, the choice between awaiting the build and printing at once, and the
    rendering of the answer.

    The filesystem, the archive packer and the config-file reader are
    parameters; JSON and YAML rendering is represented by the value rendered.
 */
module App {

  import opened Wrappers
  import opened Strings
  import opened Durations
  import opened Checkers
  import opened ContainerConfigs
  import opened SubmitResponses

  /** `VALID_PLATFORMS`. */
  const ValidPlatforms: seq<string> := ["amd64", "x86_64", "linux/amd64", "linux/x86_64", "arm64", "linux/arm64"]

  /** The output formats the `--output` option accepts. */
  const OutputFormats: seq<string> := ["json", "yaml"]

  /** `DEFAULT_CONDA_CHANNELS`, the default of `--conda-channels`. */
  const DefaultCondaChannels: string := "conda-forge,bioconda"

  /** The command-line options the modelled steps read (`null` when not given). */
  datatype Options = Options(
    image: Option<string>,
    containerFile: Option<string>,
    condaFile: Option<string>,
    condaPackages: Option<seq<string>>,
    prompt: Option<seq<string>>,
    towerToken: Option<string>,
    buildRepository: Option<string>,
    outputFormat: Option<string>,
    contextDir: Option<string>,
    singularity: bool,
    freeze: bool,
    mirror: bool,
    dryRun: bool,
    await: Option<Duration>,
    platform: Option<string>,
    configFile: Option<string>,
    entrypoint: Option<string>,
    command: Option<string>,
    environment: Option<seq<string>>,
    workingDir: Option<string>,
    layerDirs: Option<seq<string>>,
    condaChannels: Option<string>)

  /** The `IllegalCliArgumentException`s of `validateArgs`, in the order of the checks. */
  datatype ArgError =
    | ImageAndContainerFile
    | NothingToProvision
    | MissingTowerToken
    | CondaFileAndPackages
    | CondaFileAndImage
    | CondaFileAndContainerFile
    | CondaPackagesAndImage
    | CondaPackagesAndContainerFile
    | InvalidOutputFormat
    | CondaFileNotFound
    | ContextWithoutContainerFile
    | SingularityWithoutFreeze
    | ContextOnlyWithContainerFile
    | ContextNotFound
    | ContextNotDirectory
    | MirrorAndContainerFile
    | MirrorAndCondaFile
    | MirrorAndCondaPackages
    | MirrorAndContext
    | MirrorAndFreeze
    | MirrorWithoutBuildRepository
    | DryRunAndAwait
    | UnsupportedPlatform

  /** The position of each check in `validateArgs`. */
  function Rank(e: ArgError): nat {
    match e
    case ImageAndContainerFile => 0
    case NothingToProvision => 1
    case MissingTowerToken => 2
    case CondaFileAndPackages => 3
    case CondaFileAndImage => 4
    case CondaFileAndContainerFile => 5
    case CondaPackagesAndImage => 6
    case CondaPackagesAndContainerFile => 7
    case InvalidOutputFormat => 8
    case CondaFileNotFound => 9
    case ContextWithoutContainerFile => 10
    case SingularityWithoutFreeze => 11
    case ContextOnlyWithContainerFile => 12
    case ContextNotFound => 13
    case ContextNotDirectory => 14
    case MirrorAndContainerFile => 15
    case MirrorAndCondaFile => 16
    case MirrorAndCondaPackages => 17
    case MirrorAndContext => 18
    case MirrorAndFreeze => 19
    case MirrorWithoutBuildRepository => 20
    case DryRunAndAwait => 21
    case UnsupportedPlatform => 22
  }

  /** The condition under which each check fires, on its own. */
  predicate Holds(e: ArgError, o: Options, fs: FileSystem) {
    match e
    case ImageAndContainerFile => !IsEmpty(o.image) && !IsEmpty(o.containerFile)
    case NothingToProvision =>
      IsEmpty(o.image) && IsEmpty(o.containerFile) && IsEmpty(o.condaFile) && o.condaPackages.None?
      && IsEmptyList(o.prompt)
    case MissingTowerToken => IsEmpty(o.towerToken) && !IsEmpty(o.buildRepository)
    case CondaFileAndPackages => !IsEmpty(o.condaFile) && o.condaPackages.Some?
    case CondaFileAndImage => !IsEmpty(o.condaFile) && !IsEmpty(o.image)
    case CondaFileAndContainerFile => !IsEmpty(o.condaFile) && !IsEmpty(o.containerFile)
    case CondaPackagesAndImage => o.condaPackages.Some? && !IsEmpty(o.image)
    case CondaPackagesAndContainerFile => o.condaPackages.Some? && !IsEmpty(o.containerFile)
    case InvalidOutputFormat => !IsEmpty(o.outputFormat) && o.outputFormat.value !in OutputFormats
    case CondaFileNotFound => !IsEmpty(o.condaFile) && !fs.pathExists(o.condaFile.value)
    case ContextWithoutContainerFile => !IsEmpty(o.contextDir) && IsEmpty(o.containerFile)
    case SingularityWithoutFreeze => o.singularity && !o.freeze
    case ContextOnlyWithContainerFile => !IsEmpty(o.contextDir) && IsEmpty(o.containerFile)
    case ContextNotFound => !IsEmpty(o.contextDir) && !fs.pathExists(o.contextDir.value)
    case ContextNotDirectory => !IsEmpty(o.contextDir) && !fs.isDirectory(o.contextDir.value)
    case MirrorAndContainerFile => o.mirror && !IsEmpty(o.containerFile)
    case MirrorAndCondaFile => o.mirror && !IsEmpty(o.condaFile)
    case MirrorAndCondaPackages => o.mirror && !IsEmptyList(o.condaPackages)
    case MirrorAndContext => o.mirror && !IsEmpty(o.contextDir)
    case MirrorAndFreeze => o.mirror && o.freeze
    case MirrorWithoutBuildRepository => o.mirror && IsEmpty(o.buildRepository)
    case DryRunAndAwait => o.dryRun && o.await.Some?
    case UnsupportedPlatform => !IsEmpty(o.platform) && o.platform.value !in ValidPlatforms
  }

  /** The number of checks in `validateArgs`. */
  const CheckCount: nat := 23

  /** The `k`-th check of `validateArgs`. */
  function CheckAt(k: nat): (e: ArgError)
    requires k < CheckCount
    ensures Rank(e) == k
  {
    if k == 0 then ImageAndContainerFile
    else if k == 1 then NothingToProvision
    else if k == 2 then MissingTowerToken
    else if k == 3 then CondaFileAndPackages
    else if k == 4 then CondaFileAndImage
    else if k == 5 then CondaFileAndContainerFile
    else if k == 6 then CondaPackagesAndImage
    else if k == 7 then CondaPackagesAndContainerFile
    else if k == 8 then InvalidOutputFormat
    else if k == 9 then CondaFileNotFound
    else if k == 10 then ContextWithoutContainerFile
    else if k == 11 then SingularityWithoutFreeze
    else if k == 12 then ContextOnlyWithContainerFile
    else if k == 13 then ContextNotFound
    else if k == 14 then ContextNotDirectory
    else if k == 15 then MirrorAndContainerFile
    else if k == 16 then MirrorAndCondaFile
    else if k == 17 then MirrorAndCondaPackages
    else if k == 18 then MirrorAndContext
    else if k == 19 then MirrorAndFreeze
    else if k == 20 then MirrorWithoutBuildRepository
    else if k == 21 then DryRunAndAwait
    else UnsupportedPlatform
  }

  /** Every check has its place in the order. */
  lemma CheckAtRank(e: ArgError)
    ensures Rank(e) < CheckCount && CheckAt(Rank(e)) == e
  {
  }

  /** The checks from the `k`-th on, in order: the first that fires is thrown. */
  function FirstFiring(o: Options, fs: FileSystem, k: nat): (r: Outcome<ArgError>)
    requires k <= CheckCount
    ensures r.Fail? ==> Holds(r.error, o, fs) && k <= Rank(r.error) < CheckCount
    ensures r.Fail? ==> forall j :: k <= j < Rank(r.error) ==> !Holds(CheckAt(j), o, fs)
    ensures r.Pass? <==> forall j :: k <= j < CheckCount ==> !Holds(CheckAt(j), o, fs)
    decreases CheckCount - k
  {
    if k == CheckCount then Pass
    else if Holds(CheckAt(k), o, fs) then Fail(CheckAt(k))
    else FirstFiring(o, fs, k + 1)
  }

  /** `validateArgs`: the checks in order; the first that fires is thrown. */
  function ValidateArgs(o: Options, fs: FileSystem): (r: Outcome<ArgError>)
    ensures r.Fail? ==> Holds(r.error, o, fs)
    ensures r.Fail? ==> forall e :: Rank(e) < Rank(r.error) ==> !Holds(e, o, fs)
    ensures r.Pass? <==> forall e :: !Holds(e, o, fs)
  {
    var r := FirstFiring(o, fs, 0);
    assert forall e :: (r.Pass? || Rank(e) < Rank(r.error)) ==> !Holds(e, o, fs) by {
      forall e: ArgError | r.Pass? || Rank(e) < Rank(r.error)
        ensures !Holds(e, o, fs)
      {
        CheckAtRank(e);
      }
    }
    r
  }

  /** The checks on the build sources pass. */
  predicate SourceChecksPass(o: Options, fs: FileSystem) {
    !Holds(ImageAndContainerFile, o, fs)
    && !Holds(NothingToProvision, o, fs)
    && !Holds(CondaFileAndPackages, o, fs)
    && !Holds(CondaFileAndImage, o, fs)
    && !Holds(CondaFileAndContainerFile, o, fs)
    && !Holds(CondaPackagesAndImage, o, fs)
    && !Holds(CondaPackagesAndContainerFile, o, fs)
  }

  /** The checks on the build context pass. */
  predicate ContextChecksPass(o: Options, fs: FileSystem) {
    !Holds(ContextWithoutContainerFile, o, fs)
    && !Holds(ContextOnlyWithContainerFile, o, fs)
    && !Holds(ContextNotFound, o, fs)
    && !Holds(ContextNotDirectory, o, fs)
  }

  /** The checks on `--mirror` pass. */
  predicate MirrorChecksPass(o: Options, fs: FileSystem) {
    !Holds(MirrorAndContainerFile, o, fs)
    && !Holds(MirrorAndCondaFile, o, fs)
    && !Holds(MirrorAndCondaPackages, o, fs)
    && !Holds(MirrorAndContext, o, fs)
    && !Holds(MirrorAndFreeze, o, fs)
    && !Holds(MirrorWithoutBuildRepository, o, fs)
  }

  /** The remaining checks pass. */
  predicate OtherChecksPass(o: Options, fs: FileSystem) {
    !Holds(MissingTowerToken, o, fs)
    && !Holds(InvalidOutputFormat, o, fs)
    && !Holds(CondaFileNotFound, o, fs)
    && !Holds(SingularityWithoutFreeze, o, fs)
    && !Holds(DryRunAndAwait, o, fs)
    && !Holds(UnsupportedPlatform, o, fs)
  }

  /** No check fires, spelled out check by check. */
  predicate NoCheckFires(o: Options, fs: FileSystem) {
    SourceChecksPass(o, fs) && ContextChecksPass(o, fs) && MirrorChecksPass(o, fs) && OtherChecksPass(o, fs)
  }

  lemma NoCheckFiresAll(o: Options, fs: FileSystem)
    ensures NoCheckFires(o, fs) <==> forall e :: !Holds(e, o, fs)
  {
    if NoCheckFires(o, fs) {
      forall e: ArgError
        ensures !Holds(e, o, fs)
      {
      }
    }
  }

  /** How many of the four build sources are given: an image, a container file, a
      conda file, or a (possibly empty) list of conda packages. */
  function SourceCount(o: Options): nat {
    (if IsEmpty(o.image) then 0 else 1) + (if IsEmpty(o.containerFile) then 0 else 1)
    + (if IsEmpty(o.condaFile) then 0 else 1) + (if o.condaPackages.None? then 0 else 1)
  }

  /** At most one build source, and something to provision, possibly a prompt. */
  predicate SourcesOk(o: Options) {
    SourceCount(o) <= 1 && (SourceCount(o) == 1 || !IsEmptyList(o.prompt))
  }

  /** A context goes with a container file and is an existing directory. */
  predicate ContextOk(o: Options, fs: FileSystem) {
    !IsEmpty(o.contextDir) ==>
      !IsEmpty(o.containerFile) && fs.pathExists(o.contextDir.value) && fs.isDirectory(o.contextDir.value)
  }

  /** A mirror copies an image as it is, into a build repository. */
  predicate MirrorOk(o: Options) {
    o.mirror ==>
      IsEmpty(o.containerFile) && IsEmpty(o.condaFile) && IsEmptyList(o.condaPackages)
      && IsEmpty(o.contextDir) && !o.freeze && !IsEmpty(o.buildRepository)
  }

  /** A build repository is accessed with the Tower token; the output format, the
      conda file and the platform are ones that exist; singularity needs freeze;
      a dry run does not wait. */
  predicate OthersOk(o: Options, fs: FileSystem) {
    && (!IsEmpty(o.buildRepository) ==> !IsEmpty(o.towerToken))
    && (IsEmpty(o.outputFormat) || o.outputFormat.value in OutputFormats)
    && (!IsEmpty(o.condaFile) ==> fs.pathExists(o.condaFile.value))
    && (o.singularity ==> o.freeze)
    && !(o.dryRun && o.await.Some?)
    && (IsEmpty(o.platform) || o.platform.value in ValidPlatforms)
  }

  /** The rules the options must follow, stated by topic rather than in check order. */
  predicate Valid(o: Options, fs: FileSystem) {
    SourcesOk(o) && ContextOk(o, fs) && MirrorOk(o) && OthersOk(o, fs)
  }

  /** `validateArgs` accepts exactly the options that follow the rules. */
  lemma ValidateArgsAcceptsValid(o: Options, fs: FileSystem)
    ensures ValidateArgs(o, fs).Pass? <==> Valid(o, fs)
  {
    NoCheckFiresAll(o, fs);
    SourceRules(o, fs);
    ContextRules(o, fs);
    MirrorRules(o, fs);
    OtherRules(o, fs);
  }

  /** At most one build source and something to provision: no two sources are
      given together, and some source or a prompt is. */
  lemma SourceRules(o: Options, fs: FileSystem)
    ensures SourcesOk(o) <==> SourceChecksPass(o, fs)
  {
  }

  /** The context rule is what the context checks enforce. */
  lemma ContextRules(o: Options, fs: FileSystem)
    ensures ContextOk(o, fs) <==> ContextChecksPass(o, fs)
  {
  }

  /** The mirror rule is what the mirror checks enforce. */
  lemma MirrorRules(o: Options, fs: FileSystem)
    ensures MirrorOk(o) <==> MirrorChecksPass(o, fs)
  {
  }

  /** The remaining rules are what the remaining checks enforce. */
  lemma OtherRules(o: Options, fs: FileSystem)
    ensures OthersOk(o, fs) <==> OtherChecksPass(o, fs)
  {
  }

  /** The second "context requires a container file" check can never fire: the
      first one already rejected the same options. */
  lemma SecondContextCheckUnreachable(o: Options, fs: FileSystem)
    ensures ValidateArgs(o, fs) != Fail(ContextOnlyWithContainerFile)
  {
    if !IsEmpty(o.contextDir) && IsEmpty(o.containerFile) {
      EarlierCheckWins(o, fs, ContextWithoutContainerFile, ContextOnlyWithContainerFile);
    }
  }

  /** The "mirror and context" check can never fire: a context needs a container
      file, and a mirror with a container file is rejected before. */
  lemma MirrorContextCheckUnreachable(o: Options, fs: FileSystem)
    ensures ValidateArgs(o, fs) != Fail(MirrorAndContext)
  {
    if o.mirror && !IsEmpty(o.contextDir) {
      var first := if IsEmpty(o.containerFile) then ContextWithoutContainerFile else MirrorAndContainerFile;
      EarlierCheckWins(o, fs, first, MirrorAndContext);
    }
  }

  /** A check that fires shadows every later one. */
  lemma EarlierCheckWins(o: Options, fs: FileSystem, first: ArgError, later: ArgError)
    requires Holds(first, o, fs) && Rank(first) < Rank(later)
    ensures ValidateArgs(o, fs) != Fail(later)
  {
  }

  /** An empty `--conda-package` list counts as a build source, yet it does not
      conflict with mirror mode. */
  lemma EmptyCondaPackagesCountAsSource(o: Options, fs: FileSystem)
    requires o.condaPackages == Some([])
    ensures SourceCount(o) >= 1
    ensures !Holds(MirrorAndCondaPackages, o, fs) && !Holds(NothingToProvision, o, fs)
  {
  }

  /** `prepareContext`: no context directory gives no build context; otherwise
      the packed directory, which must be at most 5 MiB compressed. */
  function PrepareContext(contextDir: Option<string>, pack: string -> Option<Layer>)
    : (r: Result<Option<Layer>, PrepareError>)
    ensures r == Success(None) <==> IsEmpty(contextDir)
    ensures r.Success? && r.value.Some? ==>
              pack(contextDir.value) == r.value && r.value.value.gzipSize <= MaxContextSize
    ensures r == Failure(ContextTooBig) <==>
              !IsEmpty(contextDir) && pack(contextDir.value).Some? && pack(contextDir.value).value.gzipSize > MaxContextSize
    ensures r == Failure(ContextPackFailed) <==> !IsEmpty(contextDir) && pack(contextDir.value).None?
  {
    if IsEmpty(contextDir) then Success(None)
    else match pack(contextDir.value)
      case None => Failure(ContextPackFailed)
      case Some(layer) => if layer.gzipSize > MaxContextSize then Failure(ContextTooBig) else Success(Some(layer))
  }

  /** A context of exactly 5 MiB is accepted, one byte more is not. */
  lemma ContextBudgetBoundary(dir: string, location: string, pack: string -> Option<Layer>)
    requires !AllTrimmable(dir)
    ensures pack(dir) == Some(Layer(location, MaxContextSize)) ==>
              PrepareContext(Some(dir), pack) == Success(Some(Layer(location, MaxContextSize)))
    ensures pack(dir) == Some(Layer(location, MaxContextSize + 1)) ==>
              PrepareContext(Some(dir), pack) == Failure(ContextTooBig)
  {
  }

  /** The index of the first entry that is not an environment entry. */
  function FirstInvalidEnv(env: seq<string>): (r: Option<nat>)
    ensures r.None? <==> forall i :: 0 <= i < |env| ==> IsEnvVar(Some(env[i]))
    ensures r.Some? ==> r.value < |env| && !IsEnvVar(Some(env[r.value]))
                        && forall i :: 0 <= i < r.value ==> IsEnvVar(Some(env[i]))
  {
    if env == [] then None
    else if !IsEnvVar(Some(env[0])) then Some(0)
    else match FirstInvalidEnv(env[1..])
      case None => None
      case Some(k) => Some(k + 1)
  }

  /** The command, if given, is not blank. */
  predicate CommandOk(o: Options) {
    o.command.None? || !AllTrimmable(o.command.value)
  }

  /** Every environment entry, if any are given, is `NAME=VALUE`. */
  predicate EnvOk(o: Options) {
    o.environment.None? || forall i :: 0 <= i < |o.environment.value| ==> IsEnvVar(Some(o.environment.value[i]))
  }

  /** The working directory, if given, is not blank. */
  predicate WorkingDirOk(o: Options) {
    o.workingDir.None? || !AllTrimmable(o.workingDir.value)
  }

  /** The configuration before the layers are added: the config file's (or a new
      one), then entrypoint, command, environment and working directory as given,
      checked in that order. A value whose `trim()` is "" is one of only
      trimmable characters (`TrimEmptyIff`). */
  function BaseConfig(o: Options, readConfig: string -> Option<Config>): (r: Result<Config, PrepareError>)
    ensures ReadConfigFile(o.configFile, readConfig).Failure? ==>
              r == Failure(ReadConfigFile(o.configFile, readConfig).error)
    ensures r == Failure(CommandBlank) <==> ReadConfigFile(o.configFile, readConfig).Success? && !CommandOk(o)
    ensures r.Failure? && r.error.InvalidEnvVar? <==>
              ReadConfigFile(o.configFile, readConfig).Success? && CommandOk(o) && !EnvOk(o)
    ensures r.Failure? && r.error.InvalidEnvVar? ==>
              exists k :: 0 <= k < |o.environment.value| && r.error.value == o.environment.value[k]
                          && !IsEnvVar(Some(o.environment.value[k]))
                          && forall i :: 0 <= i < k ==> IsEnvVar(Some(o.environment.value[i]))
    ensures r == Failure(WorkingDirBlank) <==>
              ReadConfigFile(o.configFile, readConfig).Success? && CommandOk(o) && EnvOk(o) && !WorkingDirOk(o)
    ensures r.Success? <==>
              ReadConfigFile(o.configFile, readConfig).Success? && CommandOk(o) && EnvOk(o) && WorkingDirOk(o)
    ensures r.Success? ==>
              var read := ReadConfigFile(o.configFile, readConfig).value;
              r.value.entrypoint == (if o.entrypoint.Some? then Some([o.entrypoint.value]) else read.entrypoint)
              && r.value.cmd == (if o.command.Some? then Some([o.command.value]) else read.cmd)
              && r.value.env == (if o.environment.Some? then o.environment else read.env)
              && r.value.workingDir == (if o.workingDir.Some? then o.workingDir else read.workingDir)
              && r.value.layers == read.layers
  {
    var read :- ReadConfigFile(o.configFile, readConfig);
    var entry := if o.entrypoint.Some? then read.(entrypoint := Some([o.entrypoint.value])) else read;
    var command :-
      match o.command
      case None => Success(entry)
      case Some(cmd) => if AllTrimmable(cmd) then Failure(CommandBlank) else Success(entry.(cmd := Some([cmd])));
    var env :-
      match o.environment
      case None => Success(command)
      case Some(vars) =>
        match FirstInvalidEnv(vars)
        case Some(k) => Failure(InvalidEnvVar(vars[k]))
        case None => Success(command.(env := Some(vars)));
    match o.workingDir
    case None => Success(env)
    case Some(dir) => if AllTrimmable(dir) then Failure(WorkingDirBlank) else Success(env.(workingDir := Some(dir)))
  }

  /** With none of entrypoint, command, environment and working directory given,
      the base configuration is exactly what the config file gives. */
  lemma BaseConfigOfFileAlone(o: Options, readConfig: string -> Option<Config>)
    requires o.entrypoint.None? && o.command.None? && o.environment.None? && o.workingDir.None?
    ensures BaseConfig(o, readConfig) == ReadConfigFile(o.configFile, readConfig)
  {
  }

  /** `prepareConfig`: the base configuration, then each `--layer` directory packed
      and appended, then the aggregate check over the inline layers only; a
      configuration with nothing in it is no configuration. */
  function PrepareConfig(o: Options, readConfig: string -> Option<Config>, isDirectory: string -> bool,
                         pack: string -> Option<Layer>): (r: Result<Option<Config>, PrepareError>)
    ensures BaseConfig(o, readConfig).Failure? ==> r == Failure(BaseConfig(o, readConfig).error)
    ensures r.Success? ==>
              var base := BaseConfig(o, readConfig).value;
              var dirs := o.layerDirs.GetOr([]);
              AddLayers(dirs, base.layers, isDirectory, pack).Success?
              && var all := AddLayers(dirs, base.layers, isDirectory, pack).value;
              InlineSize(all) < LayersBudget
              && (r.value.None? <==> IsBlankConfig(base.(layers := all)))
              && (r.value.Some? ==> r.value.value == base.(layers := all))
    ensures BaseConfig(o, readConfig).Success? ==>
              var base := BaseConfig(o, readConfig).value;
              var added := AddLayers(o.layerDirs.GetOr([]), base.layers, isDirectory, pack);
              (added.Failure? ==> r == Failure(BadLayer(added.error)))
              && (r == Failure(LayersTooBig) <==> added.Success? && InlineSize(added.value) >= LayersBudget)
    ensures r.Success? <==>
              BaseConfig(o, readConfig).Success?
              && var added := AddLayers(o.layerDirs.GetOr([]), BaseConfig(o, readConfig).value.layers, isDirectory, pack);
              added.Success? && InlineSize(added.value) < LayersBudget
    ensures r.Failure? ==>
              (BaseConfig(o, readConfig).Failure? && r.error == BaseConfig(o, readConfig).error)
              || r.error.BadLayer? || r.error == LayersTooBig
  {
    var base :- BaseConfig(o, readConfig);
    var all :-
      match AddLayers(o.layerDirs.GetOr([]), base.layers, isDirectory, pack)
      case Failure(e) => Failure(BadLayer(e))
      case Success(layers) => Success(layers);
    if InlineSize(all) >= LayersBudget then Failure(LayersTooBig)
    else
      var result := base.(layers := all);
      Success(if IsBlankConfig(result) then None else Some(result))
  }

  /** Without `--layer` the packer and the file system are never consulted: the
      configuration is the base one, checked against the aggregate budget. */
  lemma PrepareConfigWithoutLayers(o: Options, readConfig: string -> Option<Config>, isDirectory: string -> bool,
                                   pack: string -> Option<Layer>)
    requires o.layerDirs.None? || o.layerDirs == Some([])
    requires BaseConfig(o, readConfig).Success?
    ensures var base := BaseConfig(o, readConfig).value;
            PrepareConfig(o, readConfig, isDirectory, pack)
            == if InlineSize(base.layers) >= LayersBudget then Failure(LayersTooBig)
               else Success(if IsBlankConfig(base) then None else Some(base))
  {
    var base := BaseConfig(o, readConfig).value;
    assert AddLayers(o.layerDirs.GetOr([]), base.layers, isDirectory, pack) == Success(base.layers);
    assert base.(layers := base.layers) == base;
  }

  /** A layer stored outside the request never counts against the 10 MiB budget:
      appending one to the layers changes nothing about the aggregate check. */
  lemma ExternalLayerNotCounted(layers: seq<Layer>, external: Layer)
    requires !IsInline(external)
    ensures InlineSize(layers + [external]) == InlineSize(layers)
  {
    InlineSizeAppend(layers, [external]);
    assert [external][1..] == [];
  }

  /** The pieces that are not blank, in order. */
  function DropBlank(pieces: seq<string>): (r: seq<string>)
    ensures |r| <= |pieces|
    ensures forall i :: 0 <= i < |r| ==> !IsEmpty(Some(r[i]))
  {
    if pieces == [] then []
    else (if IsEmpty(Some(pieces[0])) then [] else [pieces[0]]) + DropBlank(pieces[1..])
  }

  /** A piece is kept exactly when it is not blank. */
  lemma {:induction false} DropBlankMembers(pieces: seq<string>)
    ensures forall x :: x in DropBlank(pieces) <==> x in pieces && !IsEmpty(Some(x))
  {
    if pieces != [] {
      DropBlankMembers(pieces[1..]);
      assert pieces == [pieces[0]] + pieces[1..];
    }
  }

  /** Filtering works piecewise, so it keeps the order of the pieces it keeps. */
  lemma {:induction false} DropBlankAppend(a: seq<string>, b: seq<string>)
    ensures DropBlank(a + b) == DropBlank(a) + DropBlank(b)
  {
    if a == [] {
      assert a + b == b;
    } else {
      assert (a + b)[0] == a[0] && (a + b)[1..] == a[1..] + b;
      DropBlankAppend(a[1..], b);
      PiecesAssoc(if IsEmpty(Some(a[0])) then [] else [a[0]], DropBlank(a[1..]), DropBlank(b));
    }
  }

  /** Each piece trimmed. */
  function TrimEach(pieces: seq<string>): seq<string> {
    seq(|pieces|, i requires 0 <= i < |pieces| => Trim(pieces[i]))
  }

  /** Trimming the pieces a second time changes nothing. */
  lemma TrimEachIdempotent(pieces: seq<string>)
    ensures TrimEach(TrimEach(pieces)) == TrimEach(pieces)
  {
    var once := TrimEach(pieces);
    forall i | 0 <= i < |once|
      ensures Trim(once[i]) == once[i]
    {
      TrimIdempotent(pieces[i]);
    }
  }

  lemma TrimEachOne(t: string)
    ensures TrimEach([t]) == [Trim(t)]
  {
    var r := TrimEach([t]);
    assert |r| == 1 && r[0] == Trim([t][0]);
    assert [t][0] == t;
  }

  /** Trimming works piecewise. */
  lemma TrimEachAppend(a: seq<string>, b: seq<string>)
    ensures TrimEach(a + b) == TrimEach(a) + TrimEach(b)
  {
    TrimEachLeft(a, b);
    TrimEachRight(a, b);
    assert TrimEach(a + b) == TrimEach(a) + TrimEach(b);
  }

  lemma TrimEachLeft(a: seq<string>, b: seq<string>)
    ensures forall i :: 0 <= i < |a| ==> TrimEach(a + b)[i] == TrimEach(a)[i]
  {
    forall i | 0 <= i < |a|
      ensures TrimEach(a + b)[i] == TrimEach(a)[i]
    {
      assert (a + b)[i] == a[i];
    }
  }

  lemma TrimEachRight(a: seq<string>, b: seq<string>)
    ensures forall i :: 0 <= i < |b| ==> TrimEach(a + b)[|a| + i] == TrimEach(b)[i]
  {
    forall i | 0 <= i < |b|
      ensures TrimEach(a + b)[|a| + i] == TrimEach(b)[i]
    {
      assert (a + b)[|a| + i] == b[i];
    }
  }

  /** The separators of `--conda-channels`. */
  const ChannelSeparators: set<char> := {',', ' '}

  /** `condaChannels`: null stays null; otherwise the channel names between the
      separators, trimmed, without blanks, in order. */
  function CondaChannels(channels: Option<string>): (r: Option<seq<string>>)
    ensures r.None? <==> channels.None?
    ensures channels.Some? ==> r == Some(ChannelNames(channels.value))
    ensures r.Some? ==> forall i :: 0 <= i < |r.value| ==>
              !IsEmpty(Some(r.value[i])) && forall c :: c in r.value[i] ==> c !in ChannelSeparators
  {
    match channels
    case None => None
    case Some(s) =>
      ChannelsClean(s);
      SplitTrailingIgnored(s);
      Some(DropBlank(TrimEach(JavaSplit(s, ChannelSeparators))))
  }

  /** The names of a non-null `--conda-channels` text, computed from every piece
      between separators, the trailing empty ones included. */
  function ChannelNames(s: string): seq<string> {
    DropBlank(TrimEach(SplitAt(s, ChannelSeparators)))
  }

  /** The trailing empty pieces that Java's `split` drops are blank, so the
      filter would have dropped them anyway. */
  lemma SplitTrailingIgnored(s: string)
    ensures DropBlank(TrimEach(JavaSplit(s, ChannelSeparators))) == ChannelNames(s)
  {
    JavaSplitSpec(s, ChannelSeparators);
    EmptyTailIgnored(SplitAt(s, ChannelSeparators), JavaSplit(s, ChannelSeparators));
  }

  /** Dropping a tail of empty pieces leaves the same channels. */
  lemma EmptyTailIgnored(pieces: seq<string>, kept: seq<string>)
    requires |kept| <= |pieces| && kept == pieces[..|kept|]
    requires forall i :: |kept| <= i < |pieces| ==> pieces[i] == ""
    ensures DropBlank(TrimEach(kept)) == DropBlank(TrimEach(pieces))
  {
    var dropped := pieces[|kept|..];
    assert pieces == kept + dropped;
    assert forall i :: 0 <= i < |dropped| ==> dropped[i] == pieces[|kept| + i];
    TrimEachAppend(kept, dropped);
    DropBlankAppend(TrimEach(kept), TrimEach(dropped));
    EmptyPiecesDropped(dropped);
  }

  /** Empty pieces leave no channel. */
  lemma EmptyPiecesDropped(pieces: seq<string>)
    requires forall i :: 0 <= i < |pieces| ==> pieces[i] == []
    ensures DropBlank(TrimEach(pieces)) == []
  {
    var trimmed := TrimEach(pieces);
    forall i | 0 <= i < |trimmed|
      ensures IsEmpty(Some(trimmed[i]))
    {
      BlankTrimIff(pieces[i]);
    }
    DropBlankAllBlank(trimmed);
  }

  /** Only blank pieces: nothing is kept. */
  lemma {:induction false} DropBlankAllBlank(pieces: seq<string>)
    requires forall i :: 0 <= i < |pieces| ==> IsEmpty(Some(pieces[i]))
    ensures DropBlank(pieces) == []
  {
    if pieces != [] {
      DropBlankAllBlank(pieces[1..]);
    }
  }

  lemma ChannelsClean(s: string)
    ensures forall i :: 0 <= i < |ChannelNames(s)| ==>
              !IsEmpty(Some(ChannelNames(s)[i])) && forall c :: c in ChannelNames(s)[i] ==> c !in ChannelSeparators
  {
    var pieces := SplitAt(s, ChannelSeparators);
    var trimmed := TrimEach(pieces);
    var r := DropBlank(trimmed);
    DropBlankMembers(trimmed);
    forall i | 0 <= i < |r|
      ensures forall c :: c in r[i] ==> c !in ChannelSeparators
    {
      assert r[i] in trimmed;
      var j :| 0 <= j < |trimmed| && trimmed[j] == r[i];
      TrimSubset(pieces[j]);
    }
  }

  /** Trimming only removes characters. */
  lemma TrimSubset(s: string)
    ensures forall c :: c in Trim(s) ==> c in s
  {
    var a := TrimStart(s);
    assert forall c :: c in TrimEnd(a) ==> c in a;
  }

  /** A channel name the parser leaves as it is: non-empty, no separator, and no
      trimmable character at either end. */
  predicate CleanChannel(c: string) {
    c != [] && !IsTrimmable(c[0]) && !IsTrimmable(c[|c| - 1]) && forall k :: 0 <= k < |c| ==> c[k] !in ChannelSeparators
  }

  lemma {:induction false} DropBlankKeepsClean(cs: seq<string>)
    requires forall i :: 0 <= i < |cs| ==> CleanChannel(cs[i])
    ensures DropBlank(cs) == cs
  {
    if cs != [] {
      assert !IsTrimmable(cs[0][0]);
      DropBlankKeepsClean(cs[1..]);
    }
  }

  lemma TrimEachKeepsClean(cs: seq<string>)
    requires forall i :: 0 <= i < |cs| ==> CleanChannel(cs[i])
    ensures TrimEach(cs) == cs
  {
    forall i | 0 <= i < |cs|
      ensures Trim(cs[i]) == cs[i]
    {
      TrimUnchanged(cs[i]);
    }
  }

  /** Round trip: a list of clean channel names joined with ',' parses back to
      the same list. */
  lemma CondaChannelsOfJoin(cs: seq<string>)
    requires |cs| >= 1 && forall i :: 0 <= i < |cs| ==> CleanChannel(cs[i])
    ensures CondaChannels(Some(Join(cs, ','))) == Some(cs)
  {
    SplitJoin(cs, ',', ChannelSeparators);
    TrimEachKeepsClean(cs);
    DropBlankKeepsClean(cs);
  }

  /** A text without separators is one channel, its trim, unless it is blank. */
  lemma ChannelsOfPiece(t: string)
    requires forall k :: 0 <= k < |t| ==> t[k] !in ChannelSeparators
    ensures CondaChannels(Some(t)) == Some(if IsEmpty(Some(t)) then [] else [Trim(t)])
  {
    NamesOfPiece(t);
  }

  lemma NamesOfPiece(t: string)
    requires forall k :: 0 <= k < |t| ==> t[k] !in ChannelSeparators
    ensures ChannelNames(t) == if IsEmpty(Some(t)) then [] else [Trim(t)]
  {
    SplitAtNone(t, ChannelSeparators);
    TrimEachOne(t);
    DropBlankOne(Trim(t));
    BlankTrimIff(t);
  }

  lemma DropBlankOne(x: string)
    ensures DropBlank([x]) == if IsEmpty(Some(x)) then [] else [x]
  {
    assert [x][1..] == [];
  }

  /** A text is blank exactly when its trim is. */
  lemma BlankTrimIff(t: string)
    ensures AllTrimmable(Trim(t)) <==> AllTrimmable(t)
  {
    TrimEmptyIff(t);
    TrimIdempotent(t);
    TrimEmptyIff(Trim(t));
  }

  /** The channels of two texts around a separator are those of the first
      followed by those of the second. */
  lemma ChannelsAtSeparator(a: string, c: char, b: string)
    requires c in ChannelSeparators
    ensures CondaChannels(Some(a + [c] + b)).value == CondaChannels(Some(a)).value + CondaChannels(Some(b)).value
  {
    NamesAtSeparator(a, c, b);
  }

  lemma NamesAtSeparator(a: string, c: char, b: string)
    requires c in ChannelSeparators
    ensures ChannelNames(a + [c] + b) == ChannelNames(a) + ChannelNames(b)
  {
    var pa, pb := SplitAt(a, ChannelSeparators), SplitAt(b, ChannelSeparators);
    SplitAtSeparator(a, c, b, ChannelSeparators);
    TrimEachAppend(pa, pb);
    DropBlankAppend(TrimEach(pa), TrimEach(pb));
  }

  /** A text made only of separators, at least one. */
  predicate IsSeparatorRun(g: string) {
    |g| >= 1 && forall k :: 0 <= k < |g| ==> g[k] in ChannelSeparators
  }

  lemma RunTail(run: string)
    requires IsSeparatorRun(run) && |run| >= 2
    ensures IsSeparatorRun(run[1..])
  {
    forall k | 0 <= k < |run| - 1
      ensures run[1..][k] in ChannelSeparators
    {
      assert run[1..][k] == run[k + 1];
    }
  }

  /** A leading run of separators contributes no channel. */
  lemma {:induction false} NamesAfterRun(run: string, b: string)
    requires IsSeparatorRun(run)
    ensures ChannelNames(run + b) == ChannelNames(b)
    decreases |run|
  {
    var rest := run[1..];
    assert run == [run[0]] + rest;
    ConcatAssoc([run[0]], rest, b);
    LeadingSeparator(run[0], rest + b);
    if rest == [] {
      assert rest + b == b;
    } else {
      RunTail(run);
      NamesAfterRun(rest, b);
    }
  }

  lemma LeadingSeparator(c: char, t: string)
    requires c in ChannelSeparators
    ensures ChannelNames([c] + t) == ChannelNames(t)
  {
    var none := t[..0];
    assert none + [c] + t == [c] + t;
    NamesAtSeparator(none, c, t);
    NamesOfPiece(none);
  }

  lemma PeelFirst(a: string, run: string, b: string)
    requires |run| >= 1
    ensures a + run + b == a + [run[0]] + (run[1..] + b)
  {
    assert run == [run[0]] + run[1..];
    ConcatAssoc(a, [run[0]], run[1..]);
    ConcatAssoc(a + [run[0]], run[1..], b);
  }

  /** Any run of separators between two texts splits them like a single one. */
  lemma ChannelsAroundRun(a: string, run: string, b: string)
    requires IsSeparatorRun(run)
    ensures CondaChannels(Some(a + run + b)).value == CondaChannels(Some(a)).value + CondaChannels(Some(b)).value
  {
    NamesAroundRun(a, run, b);
  }

  lemma NamesAroundRun(a: string, run: string, b: string)
    requires IsSeparatorRun(run)
    ensures ChannelNames(a + run + b) == ChannelNames(a) + ChannelNames(b)
  {
    var rest := run[1..];
    PeelFirst(a, run, b);
    NamesAtSeparator(a, run[0], rest + b);
    if rest == [] {
      assert rest + b == b;
    } else {
      RunTail(run);
      NamesAfterRun(rest, b);
    }
  }

  /** The text of `items` with the separator runs `runs` between them. */
  function Interleave(items: seq<string>, runs: seq<string>): string
    requires |items| == |runs| + 1
  {
    if |runs| == 0 then items[0] else items[0] + runs[0] + Interleave(items[1..], runs[1..])
  }

  /** A channel name as a user may type it: not blank, and no separator in it. */
  predicate IsChannelItem(t: string) {
    !IsEmpty(Some(t)) && forall k :: 0 <= k < |t| ==> t[k] !in ChannelSeparators
  }

  /** Names separated by any runs of ',' and ' ', each possibly padded with
      other blank characters, parse to the trimmed names in order. */
  lemma ChannelsOfSeparated(items: seq<string>, runs: seq<string>)
    requires |items| == |runs| + 1
    requires forall i :: 0 <= i < |items| ==> IsChannelItem(items[i])
    requires forall i :: 0 <= i < |runs| ==> IsSeparatorRun(runs[i])
    ensures CondaChannels(Some(Interleave(items, runs))) == Some(TrimEach(items))
  {
    NamesOfSeparated(items, runs);
  }

  lemma {:induction false} NamesOfSeparated(items: seq<string>, runs: seq<string>)
    requires |items| == |runs| + 1
    requires forall i :: 0 <= i < |items| ==> IsChannelItem(items[i])
    requires forall i :: 0 <= i < |runs| ==> IsSeparatorRun(runs[i])
    ensures ChannelNames(Interleave(items, runs)) == TrimEach(items)
    decreases |runs|
  {
    if |runs| > 0 {
      SeparatedTail(items, runs);
      NamesOfSeparated(items[1..], runs[1..]);
      SeparatedCons(items, runs);
    } else {
      assert IsChannelItem(items[0]);
      NamesOfPiece(items[0]);
      assert items == [items[0]];
      TrimEachOne(items[0]);
    }
  }

  lemma SeparatedCons(items: seq<string>, runs: seq<string>)
    requires |items| == |runs| + 1 && |runs| > 0
    requires IsChannelItem(items[0]) && IsSeparatorRun(runs[0])
    requires ChannelNames(Interleave(items[1..], runs[1..])) == TrimEach(items[1..])
    ensures ChannelNames(Interleave(items, runs)) == TrimEach(items)
  {
    var tail := Interleave(items[1..], runs[1..]);
    assert Interleave(items, runs) == items[0] + runs[0] + tail;
    NamesOfPiece(items[0]);
    NamesAroundRun(items[0], runs[0], tail);
    TrimEachCons(items);
  }

  lemma SeparatedTail(items: seq<string>, runs: seq<string>)
    requires |items| == |runs| + 1 && |runs| > 0
    requires forall i :: 0 <= i < |items| ==> IsChannelItem(items[i])
    requires forall i :: 0 <= i < |runs| ==> IsSeparatorRun(runs[i])
    ensures forall i :: 0 <= i < |items| - 1 ==> IsChannelItem(items[1..][i])
    ensures forall i :: 0 <= i < |runs| - 1 ==> IsSeparatorRun(runs[1..][i])
  {
    forall i | 0 <= i < |items| - 1
      ensures IsChannelItem(items[1..][i])
    {
      assert items[1..][i] == items[i + 1];
    }
    forall i | 0 <= i < |runs| - 1
      ensures IsSeparatorRun(runs[1..][i])
    {
      assert runs[1..][i] == runs[i + 1];
    }
  }

  lemma TrimEachCons(items: seq<string>)
    requires |items| >= 1
    ensures TrimEach(items) == [Trim(items[0])] + TrimEach(items[1..])
  {
    var l, r := TrimEach(items), [Trim(items[0])] + TrimEach(items[1..]);
    assert |l| == |r|;
    forall i | 0 <= i < |l|
      ensures l[i] == r[i]
    {
      if i > 0 {
        assert items[1..][i - 1] == items[i];
      }
    }
  }

  /** The documented form "conda-forge, bioconda": two names separated by a
      comma and a space give the two names in order. */
  lemma CommaSpaceSeparated(a: string, b: string)
    requires CleanChannel(a) && CleanChannel(b)
    ensures CondaChannels(Some(a + ", " + b)) == Some([a, b])
  {
    CleanChannelAlone(a);
    CleanChannelAlone(b);
    assert IsSeparatorRun(", ");
    TwoChannels(a, ", ", b);
  }

  lemma CleanChannelAlone(a: string)
    requires CleanChannel(a)
    ensures ChannelNames(a) == [a]
  {
    ChannelItemOfClean(a);
    NamesOfPiece(a);
    TrimUnchanged(a);
  }

  lemma TwoChannels(a: string, sep: string, b: string)
    requires IsSeparatorRun(sep)
    requires ChannelNames(a) == [a] && ChannelNames(b) == [b]
    ensures ChannelNames(a + sep + b) == [a, b]
  {
    NamesAroundRun(a, sep, b);
    assert [a] + [b] == [a, b];
  }

  lemma ChannelItemOfClean(t: string)
    requires CleanChannel(t)
    ensures IsChannelItem(t)
  {
    assert !IsTrimmable(t[0]);
  }

  /** The default channels are conda-forge, then bioconda. */
  lemma DefaultChannelsParse()
    ensures CondaChannels(Some(DefaultCondaChannels)) == Some(["conda-forge", "bioconda"])
  {
    var cs := ["conda-forge", "bioconda"];
    assert Join(cs, ',') == DefaultCondaChannels;
    assert CleanChannel(cs[0]) && CleanChannel(cs[1]);
    CondaChannelsOfJoin(cs);
  }

  /** `run` awaits the build only when `--await` is given, the service returned a
      request id, and the outcome is not yet known. */
  predicate ShouldAwait(await: Option<Duration>, resp: SubmitResponse) {
    await.Some? && resp.requestId.Some? && resp.succeeded.None?
  }

  /** A dry run that passed validation never waits for a build. */
  lemma DryRunNeverAwaits(o: Options, fs: FileSystem, resp: SubmitResponse)
    requires ValidateArgs(o, fs).Pass? && o.dryRun
    ensures !ShouldAwait(o.await, resp)
  {
    assert !Holds(DryRunAndAwait, o, fs);
  }

  /** What is printed: the target image name, or the response as JSON or YAML. */
  datatype Rendered<T> = TargetName(name: Option<string>) | AsJson(value: T) | AsYaml(value: T)

  datatype OutputError =
    | UnexpectedFormat(format: string)    // `IllegalArgumentException` "Unexpected output format"
    | ProvisioningFailed(message: string) // `BadClientResponseException`
    | NullSucceeded                       // unboxing a null `succeeded`: `NullPointerException`

  /** `dumpOutput(SubmitContainerTokenResponse)`: "yaml" and "json" render the
      response, no format prints the target image, anything else is an error. */
  function DumpOutput<T>(format: Option<string>, resp: T, targetImage: Option<string>)
    : (r: Result<Rendered<T>, OutputError>)
    ensures format.None? <==> r == Success(TargetName(targetImage))
    ensures r.Failure? <==> format.Some? && format.value !in OutputFormats
    ensures r.Failure? ==> r.error == UnexpectedFormat(format.value)
    ensures format == Some("json") ==> r == Success(AsJson(resp))
    ensures format == Some("yaml") ==> r == Success(AsYaml(resp))
  {
    match format
    case None => Success(TargetName(targetImage))
    case Some(f) =>
      if f == "yaml" then Success(AsYaml(resp))
      else if f == "json" then Success(AsJson(resp))
      else Failure(UnexpectedFormat(f))
  }

  const FailureHeader: string := "Container provisioning did not complete successfully"
  const ReasonLabel: string := "\n- Reason: "
  const DetailsLabel: string := "\n- Find out more here: "

  /** The message of a failed build: the header, then a reason line and a
      details line, each only when that field is not empty. */
  function FailureMessage(reason: Option<string>, detailsUri: Option<string>): string {
    FailureHeader
    + (if IsNullOrEmpty(reason) then "" else ReasonLabel + reason.value)
    + (if IsNullOrEmpty(detailsUri) then "" else DetailsLabel + detailsUri.value)
  }

  /** The failure message starts with the header, is the header alone when both
      fields are empty, and carries the reason line right after the header
      when the reason is given. */
  lemma FailureMessageShape(reason: Option<string>, detailsUri: Option<string>)
    ensures StartsWith(FailureMessage(reason, detailsUri), FailureHeader)
    ensures IsNullOrEmpty(reason) && IsNullOrEmpty(detailsUri) <==> FailureMessage(reason, detailsUri) == FailureHeader
    ensures !IsNullOrEmpty(reason) ==>
              StartsWith(FailureMessage(reason, detailsUri)[|FailureHeader|..], ReasonLabel + reason.value)
    ensures IsNullOrEmpty(reason) && !IsNullOrEmpty(detailsUri) ==>
              FailureMessage(reason, detailsUri)[|FailureHeader|..] == DetailsLabel + detailsUri.value
  {
    var m := FailureMessage(reason, detailsUri);
    var r := if IsNullOrEmpty(reason) then "" else ReasonLabel + reason.value;
    var d := if IsNullOrEmpty(detailsUri) then "" else DetailsLabel + detailsUri.value;
    assert m == FailureHeader + (r + d);
    assert m[..|FailureHeader|] == FailureHeader;
    assert m[|FailureHeader|..] == r + d;
    assert (r + d)[..|r|] == r;
  }

  /** `dumpOutput(SubmitContainerTokenResponseEx)`: with no output format, a build
      that did not succeed is raised as an error carrying the failure message,
      and an unknown outcome fails on unboxing; otherwise as for a plain response. */
  function DumpOutputEx(format: Option<string>, resp: SubmitResponseEx): (r: Result<Rendered<SubmitResponseEx>, OutputError>)
    ensures format.None? && resp.base.succeeded.None? ==> r == Failure(NullSucceeded)
    ensures format.None? && resp.base.succeeded == Some(false) ==>
              r == Failure(ProvisioningFailed(FailureMessage(resp.reason, resp.detailsUri)))
    ensures format.Some? || resp.base.succeeded == Some(true) ==> r == DumpOutput(format, resp, resp.base.targetImage)
  {
    if format.None? && resp.base.succeeded.None? then Failure(NullSucceeded)
    else if format.None? && !resp.base.succeeded.value then
      Failure(ProvisioningFailed(FailureMessage(resp.reason, resp.detailsUri)))
    else DumpOutput(format, resp, resp.base.targetImage)
  }

  /** `dumpOutput(ContainerInspectResponseEx)`: JSON unless YAML is asked for;
      any other format is an error. */
  function DumpInspect<T>(format: Option<string>, resp: T): (r: Result<Rendered<T>, OutputError>)
    ensures r.Success? <==> format.None? || format.value in OutputFormats
    ensures r.Success? ==> (r.value == AsYaml(resp) <==> format == Some("yaml"))
    ensures r.Success? ==> r.value.AsJson? || r.value.AsYaml?
  {
    match format
    case None => Success(AsJson(resp))
    case Some(f) =>
      if f == "json" then Success(AsJson(resp))
      else if f == "yaml" then Success(AsYaml(resp))
      else Failure(UnexpectedFormat(f))
  }

  /** What `run` prints: the plain submit answer, or the answer merged with the
      awaited status. */
  datatype RunOutput = Submitted(out: Rendered<SubmitResponse>) | Awaited(merged: Rendered<SubmitResponseEx>)

  /** The end of `run`: await when `ShouldAwait` says so, render the merged
      answer, else render the submit answer as it came. `awaited` is what the
      status endpoint reports once the build is awaited. */
  function RunOutcome(o: Options, resp: SubmitResponse, awaited: StatusResponse): (r: Result<RunOutput, OutputError>)
    ensures r.Success? && r.value.Awaited? <==> ShouldAwait(o.await, resp) && DumpOutputEx(o.outputFormat, Merge(resp, awaited)).Success?
    ensures ShouldAwait(o.await, resp) && r.Success? ==> r.value.Awaited? && r.value.merged == DumpOutputEx(o.outputFormat, Merge(resp, awaited)).value
    ensures !ShouldAwait(o.await, resp) ==>
              (r.Success? <==> DumpOutput(o.outputFormat, resp, resp.targetImage).Success?)
              && (r.Success? ==> r.value == Submitted(DumpOutput(o.outputFormat, resp, resp.targetImage).value))
  {
    if ShouldAwait(o.await, resp) then
      var out :- DumpOutputEx(o.outputFormat, Merge(resp, awaited));
      Success(Awaited(out))
    else
      var out :- DumpOutput(o.outputFormat, resp, resp.targetImage);
      Success(Submitted(out))
  }

  /** A submit answer that already reports a failed build is not awaited and is
      printed as its target image without an error: only an awaited failure is
      reported as one. */
  lemma ImmediateFailurePrinted(o: Options, resp: SubmitResponse, awaited: StatusResponse)
    requires o.outputFormat.None? && resp.succeeded == Some(false)
    ensures RunOutcome(o, resp, awaited) == Success(Submitted(TargetName(resp.targetImage)))
  {
  }

  /** An awaited build that failed, printed without a format, is reported with
      the status answer's reason and details link. */
  lemma AwaitedFailureReported(o: Options, resp: SubmitResponse, awaited: StatusResponse)
    requires o.outputFormat.None? && ShouldAwait(o.await, resp) && awaited.succeeded == Some(false)
    ensures RunOutcome(o, resp, awaited) == Failure(ProvisioningFailed(FailureMessage(awaited.reason, awaited.detailsUri)))
  {
  }

  /** A blank `--output` passes validation, but printing the answer then fails:
      the validation tests the trimmed value, the printer the value itself. */
  lemma BlankOutputFormatFailsLate(o: Options, fs: FileSystem, resp: SubmitResponse)
    requires o.outputFormat.Some? && o.outputFormat.value != [] && AllTrimmable(o.outputFormat.value)
    ensures !Holds(InvalidOutputFormat, o, fs)
    ensures DumpOutput(o.outputFormat, resp, resp.targetImage) == Failure(UnexpectedFormat(o.outputFormat.value))
  {
    var f := o.outputFormat.value;
    assert f != "json" && f != "yaml" by {
      assert !IsTrimmable('j') && !IsTrimmable('y');
      assert f[0] != 'j' && f[0] != 'y';
    }
  }
}

=== FILE: byte_array_adapter.dfy ===
/** The JSON adapter for `byte[]` fields: bytes are written as padded Base64
    (`Base64.getEncoder()`, the alphabet of section 4 of RFC 4648) and read
    back with `Base64.getDecoder()`, which accepts padded and unpadded input
    but rejects any character outside the alphabet.
 */
module ByteArrayAdapter {

  import opened Wrappers
  import Strings

  type byte = x: int | 0 <= x < 256

  /** The 64 characters of the Base64 alphabet (Table 1 of RFC 4648). */
  predicate IsBase64Char(c: char) {
    'A' <= c <= 'Z' || 'a' <= c <= 'z' || '0' <= c <= '9' || c == '+' || c == '/'
  }

  predicate AllBase64(s: string) {
    forall k :: 0 <= k < |s| ==> IsBase64Char(s[k])
  }

  /** Table 1 of RFC 4648: 0..25 'A'..'Z', 26..51 'a'..'z', 52..61 '0'..'9', 62 '+', 63 '/'. */
  function CharOf(v: int): (c: char)
    requires 0 <= v < 64
    ensures IsBase64Char(c)
  {
    if v < 26 then ('A' as int + v) as char
    else if v < 52 then ('a' as int + (v - 26)) as char
    else if v < 62 then ('0' as int + (v - 52)) as char
    else if v == 62 then '+'
    else '/'
  }

  /** The inverse of `CharOf` on the alphabet. */
  function ValueOf(c: char): (v: int)
    requires IsBase64Char(c)
    ensures 0 <= v < 64 && CharOf(v) == c
  {
    if 'A' <= c <= 'Z' then c as int - 'A' as int
    else if 'a' <= c <= 'z' then c as int - 'a' as int + 26
    else if '0' <= c <= '9' then c as int - '0' as int + 52
    else if c == '+' then 62
    else 63
  }

  lemma ValueOfCharOf(v: int)
    requires 0 <= v < 64
    ensures ValueOf(CharOf(v)) == v
  {
  }

  /** Three bytes as four characters. */
  function EncodeGroup(b0: byte, b1: byte, b2: byte): (g: string)
    ensures |g| == 4 && AllBase64(g)
  {
    [CharOf(b0 / 4), CharOf((b0 % 4) * 16 + b1 / 16), CharOf((b1 % 16) * 4 + b2 / 64), CharOf(b2 % 64)]
  }

  /** The number of Base64 characters `n` bytes take before padding. */
  function UnpaddedLength(n: nat): nat {
    if n == 0 then 0 else if n == 1 then 2 else if n == 2 then 3 else 4 + UnpaddedLength(n - 3)
  }

  /** The Base64 characters of `b` without the trailing '=' padding. */
  function EncodeUnpadded(b: seq<byte>): (s: string)
    ensures AllBase64(s)
    ensures |s| == UnpaddedLength(|b|)
    ensures |s| % 4 != 1
  {
    if |b| == 0 then ""
    else if |b| == 1 then [CharOf(b[0] / 4), CharOf((b[0] % 4) * 16)]
    else if |b| == 2 then [CharOf(b[0] / 4), CharOf((b[0] % 4) * 16 + b[1] / 16), CharOf((b[1] % 16) * 4)]
    else EncodeGroup(b[0], b[1], b[2]) + EncodeUnpadded(b[3..])
  }

  /** The padding that completes the last group of four. */
  function Padding(n: nat): string {
    if n % 3 == 1 then "==" else if n % 3 == 2 then "=" else ""
  }

  /** The characters before padding leave the last group open by as many as
      the padding fills. */
  lemma {:induction false} UnpaddedLengthMod(n: nat)
    ensures UnpaddedLength(n) % 4 == (if n % 3 == 0 then 0 else n % 3 + 1)
  {
    if n >= 3 {
      UnpaddedLengthMod(n - 3);
      assert n % 3 == (n - 3) % 3;
    }
  }

  /** Padded text comes in whole groups of four. */
  lemma {:induction false} PaddedLength(n: nat)
    ensures UnpaddedLength(n) + |Padding(n)| == 4 * ((n + 2) / 3)
  {
    if n >= 3 {
      PaddedLength(n - 3);
      assert (n + 2) / 3 == (n - 1) / 3 + 1;
      assert n % 3 == (n - 3) % 3;
    }
  }

  /** `serialize`: `Base64.getEncoder().encodeToString(data)`. */
  function Serialize(data: seq<byte>): (s: string)
    ensures |s| == 4 * ((|data| + 2) / 3)
    ensures forall k :: 0 <= k < |s| ==> IsBase64Char(s[k]) || s[k] == '='
  {
    PaddedLength(|data|);
    EncodeUnpadded(data) + Padding(|data|)
  }

  /** The byte made of the six bits of `v0` and the top two of `v1`. */
  function HighByte(v0: int, v1: int): byte
    requires 0 <= v0 < 64 && 0 <= v1 < 64
  {
    v0 * 4 + v1 / 16
  }

  /** The byte made of the low four bits of `v1` and the top four of `v2`. */
  function MiddleByte(v1: int, v2: int): byte
    requires 0 <= v1 < 64 && 0 <= v2 < 64
  {
    (v1 % 16) * 16 + v2 / 4
  }

  /** The byte made of the low two bits of `v2` and the six of `v3`. */
  function LowByte(v2: int, v3: int): byte
    requires 0 <= v2 < 64 && 0 <= v3 < 64
  {
    (v2 % 4) * 64 + v3
  }

  /** Four characters as three bytes. */
  function DecodeGroup(c0: char, c1: char, c2: char, c3: char): seq<byte>
    requires IsBase64Char(c0) && IsBase64Char(c1) && IsBase64Char(c2) && IsBase64Char(c3)
  {
    var v0, v1, v2, v3 := ValueOf(c0), ValueOf(c1), ValueOf(c2), ValueOf(c3);
    [HighByte(v0, v1), MiddleByte(v1, v2), LowByte(v2, v3)]
  }

  /** The bytes of an unpadded Base64 text; a last group of two or three
      characters yields one or two bytes, and leftover low bits are ignored. */
  function DecodeUnpadded(s: string): seq<byte>
    requires AllBase64(s) && |s| % 4 != 1
  {
    if |s| == 0 then []
    else if |s| == 2 then [HighByte(ValueOf(s[0]), ValueOf(s[1]))]
    else if |s| == 3 then [HighByte(ValueOf(s[0]), ValueOf(s[1])), MiddleByte(ValueOf(s[1]), ValueOf(s[2]))]
    else DecodeGroup(s[0], s[1], s[2], s[3]) + DecodeUnpadded(s[4..])
  }

  /** `deserialize`: `Base64.getDecoder().decode(data)`. Everything before the first
      '=' must be alphabet characters and may not leave a single dangling
      character; the '=' padding, when present, must be exactly what completes
      the last group. `None` is the `IllegalArgumentException`. */
  function Deserialize(data: string): Option<seq<byte>> {
    var p := match Strings.IndexOf(data, '=') case None => |data| case Some(i) => i;
    var body := data[..p];
    var tail := data[p..];
    if !AllBase64(body) || |body| % 4 == 1 then None
    else if tail == "" || (|body| % 4 == 2 && tail == "==") || (|body| % 4 == 3 && tail == "=") then
      Some(DecodeUnpadded(body))
    else None
  }

  /** The bit arithmetic of one group: the four 6-bit values put back together
      give the three bytes they were cut from. */
  lemma GroupArithmetic(b0: byte, b1: byte, b2: byte)
    ensures HighByte(b0 / 4, (b0 % 4) * 16 + b1 / 16) == b0
    ensures MiddleByte((b0 % 4) * 16 + b1 / 16, (b1 % 16) * 4 + b2 / 64) == b1
    ensures LowByte((b1 % 16) * 4 + b2 / 64, b2 % 64) == b2
  {
    assert ((b0 % 4) * 16 + b1 / 16) / 16 == b0 % 4;
    assert ((b0 % 4) * 16 + b1 / 16) % 16 == b1 / 16;
    assert ((b1 % 16) * 4 + b2 / 64) / 4 == b1 % 16;
    assert ((b1 % 16) * 4 + b2 / 64) % 4 == b2 / 64;
  }

  lemma GroupRoundTrip(b0: byte, b1: byte, b2: byte)
    ensures var g := EncodeGroup(b0, b1, b2); DecodeGroup(g[0], g[1], g[2], g[3]) == [b0, b1, b2]
  {
    var v0, v1, v2, v3 := b0 / 4, (b0 % 4) * 16 + b1 / 16, (b1 % 16) * 4 + b2 / 64, b2 % 64;
    var g := EncodeGroup(b0, b1, b2);
    ValueOfCharOf(v0);
    ValueOfCharOf(v1);
    ValueOfCharOf(v2);
    ValueOfCharOf(v3);
    assert ValueOf(g[0]) == v0 && ValueOf(g[1]) == v1 && ValueOf(g[2]) == v2 && ValueOf(g[3]) == v3;
    assert DecodeGroup(g[0], g[1], g[2], g[3]) == [HighByte(v0, v1), MiddleByte(v1, v2), LowByte(v2, v3)];
    GroupArithmetic(b0, b1, b2);
  }

  /** The last, partial group of one or two bytes. */
  lemma TailRoundTrip(b: seq<byte>)
    requires 1 <= |b| <= 2
    ensures DecodeUnpadded(EncodeUnpadded(b)) == b
  {
    if |b| == 1 {
      OneByteRoundTrip(b[0]);
      assert b == [b[0]];
    } else {
      TwoBytesRoundTrip(b[0], b[1]);
      assert b == [b[0], b[1]];
    }
  }

  lemma OneByteRoundTrip(b0: byte)
    ensures DecodeUnpadded(EncodeUnpadded([b0])) == [b0]
  {
    var v0, v1 := b0 / 4, (b0 % 4) * 16;
    ValueOfCharOf(v0);
    ValueOfCharOf(v1);
    var s := [CharOf(v0), CharOf(v1)];
    assert EncodeUnpadded([b0]) == s;
    assert DecodeUnpadded(s) == [HighByte(v0, v1)];
    GroupArithmetic(b0, 0, 0);
  }

  lemma TwoBytesRoundTrip(b0: byte, b1: byte)
    ensures DecodeUnpadded(EncodeUnpadded([b0, b1])) == [b0, b1]
  {
    var v0, v1, v2 := b0 / 4, (b0 % 4) * 16 + b1 / 16, (b1 % 16) * 4;
    ValueOfCharOf(v0);
    ValueOfCharOf(v1);
    ValueOfCharOf(v2);
    var s := [CharOf(v0), CharOf(v1), CharOf(v2)];
    assert EncodeUnpadded([b0, b1]) == s;
    assert DecodeUnpadded(s) == [HighByte(v0, v1), MiddleByte(v1, v2)];
    GroupArithmetic(b0, b1, 0);
  }

  /** Decoding a full group followed by more text decodes the group first. */
  lemma DecodeStep(g: string, rest: string)
    requires |g| == 4 && AllBase64(g) && AllBase64(rest) && |rest| % 4 != 1
    ensures AllBase64(g + rest) && |g + rest| % 4 != 1
    ensures DecodeUnpadded(g + rest) == DecodeGroup(g[0], g[1], g[2], g[3]) + DecodeUnpadded(rest)
  {
    var s := g + rest;
    assert s[4..] == rest;
    assert s[0] == g[0] && s[1] == g[1] && s[2] == g[2] && s[3] == g[3];
  }

  /** One step of the round trip: a full group of three bytes decodes first,
      so when the rest round-trips, so does the whole. */
  lemma UnpaddedStep(b: seq<byte>)
    requires |b| >= 3
    requires DecodeUnpadded(EncodeUnpadded(b[3..])) == b[3..]
    ensures DecodeUnpadded(EncodeUnpadded(b)) == b
  {
    var g := EncodeGroup(b[0], b[1], b[2]);
    var rest := EncodeUnpadded(b[3..]);
    assert EncodeUnpadded(b) == g + rest;
    DecodeStep(g, rest);
    GroupRoundTrip(b[0], b[1], b[2]);
    SplitAfterThree(b);
  }

  lemma SplitAfterThree(b: seq<byte>)
    requires |b| >= 3
    ensures b == [b[0], b[1], b[2]] + b[3..]
  {
  }

  /** Decoding inverts encoding on the unpadded text. */
  lemma {:induction false} UnpaddedRoundTrip(b: seq<byte>)
    ensures DecodeUnpadded(EncodeUnpadded(b)) == b
  {
    if 1 <= |b| <= 2 {
      TailRoundTrip(b);
    } else if |b| >= 3 {
      UnpaddedRoundTrip(b[3..]);
      UnpaddedStep(b);
    }
  }

  /** Where the first '=' sits in an encoded text: right after the data characters. */
  lemma FirstPad(s: string, pad: string)
    requires AllBase64(s) && (pad == "" || pad[0] == '=')
    ensures Strings.IndexOf(s + pad, '=') == if pad == "" then None else Some(|s|)
  {
    var x := s + pad;
    assert x[..|s|] == s;
    if pad == "" {
      assert x == s;
    } else {
      assert x[|s|] == '=';
    }
  }

  /** The padding completes exactly the group the data characters leave open. */
  lemma PaddingFits(b: seq<byte>)
    ensures var n := |EncodeUnpadded(b)|;
            var pad := Padding(|b|);
            pad == "" || (n % 4 == 2 && pad == "==") || (n % 4 == 3 && pad == "=")
  {
    UnpaddedLengthMod(|b|);
  }

  /** Round trip: `deserialize(serialize(b)) == b` for every byte array. */
  lemma SerializeRoundTrip(b: seq<byte>)
    ensures Deserialize(Serialize(b)) == Some(b)
  {
    var body := EncodeUnpadded(b);
    var pad := Padding(|b|);
    var s := body + pad;
    assert s == Serialize(b);
    FirstPad(body, pad);
    var p := match Strings.IndexOf(s, '=') case None => |s| case Some(i) => i;
    assert p == |body|;
    assert s[..p] == body;
    assert s[p..] == pad;
    PaddingFits(b);
    UnpaddedRoundTrip(b);
  }

  /** The decoder also accepts the text without its padding. */
  lemma UnpaddedAccepted(b: seq<byte>)
    ensures Deserialize(EncodeUnpadded(b)) == Some(b)
  {
    var body := EncodeUnpadded(b);
    FirstPad(body, "");
    assert body[..|body|] == body;
    UnpaddedRoundTrip(b);
  }

  /** Any character that is neither in the alphabet nor '=' makes decoding fail. */
  lemma ForeignCharRejected(data: string, i: nat)
    requires i < |data| && !IsBase64Char(data[i]) && data[i] != '='
    ensures Deserialize(data) == None
  {
    var p := match Strings.IndexOf(data, '=') case None => |data| case Some(j) => j;
    if i < p {
      assert data[..p][i] == data[i];
    } else {
      var tail := data[p..];
      assert tail[i - p] == data[i];
    }
  }
}

=== FILE: checkers.dfy ===
/** `Checkers`: the blank test of the wave cli and the syntax check of
    `NAME=VALUE` environment entries (the pattern `^[A-Za-z_][A-Za-z0-9_]*=.*$`
    used with `matches`).
 */
module Checkers {

  import opened Wrappers
  import opened Strings

  /** `isEmpty(String)`: null, or only characters that `trim()` removes. */
  predicate IsEmpty(value: Option<string>) {
    value.None? || AllTrimmable(value.value)
  }

  /** `isEmpty` holds exactly for null and for the strings `trim()` turns into "". */
  lemma IsEmptyIffTrimmedEmpty(value: Option<string>)
    ensures IsEmpty(value) <==> value.None? || Trim(value.value) == ""
  {
    if value.Some? {
      TrimEmptyIff(value.value);
    }
  }

  /** `isEmpty(List)`: null, or no elements. */
  function IsEmptyList<T>(list: Option<seq<T>>): (r: bool)
    ensures r <==> list.None? || forall x :: x !in list.value
  {
    list.None? || (assert |list.value| > 0 ==> list.value[0] in list.value; |list.value| == 0)
  }

  predicate IsNameStart(c: char) {
    'A' <= c <= 'Z' || 'a' <= c <= 'z' || c == '_'
  }

  predicate IsNameChar(c: char) {
    IsNameStart(c) || '0' <= c <= '9'
  }

  /** The characters '.' does not match without DOTALL. */
  predicate IsLineTerminator(c: char) {
    c == '\n' || c == '\r' || c == '\U{85}' || c == '\U{2028}' || c == '\U{2029}'
  }

  /** Every character of `s[i..n]` may continue a name. */
  predicate NameChars(s: string, i: nat, n: nat)
    requires i <= n <= |s|
  {
    forall k :: i <= k < n ==> IsNameChar(s[k])
  }

  /** The environment-entry syntax, declaratively: a name of one start
      character and name characters, then '=', then a value without line
      terminators. */
  ghost predicate IsEnvEntry(s: string) {
    exists n :: 1 <= n < |s| && s[n] == '=' && IsNameStart(s[0])
      && NameChars(s, 1, n)
      && (forall k :: n < k < |s| ==> !IsLineTerminator(s[k]))
  }

  predicate NoLineTerminator(s: string) {
    forall k :: 0 <= k < |s| ==> !IsLineTerminator(s[k])
  }

  /** The matcher after the first character: name characters up to '=', then
      any value without a line terminator. */
  function MatchNameRest(s: string, i: nat): bool
    requires i <= |s|
    decreases |s| - i
  {
    if i == |s| then false
    else if s[i] == '=' then NoLineTerminator(s[i + 1..])
    else IsNameChar(s[i]) && MatchNameRest(s, i + 1)
  }

  /** `isEnvVar`: false for null, else whether the whole text matches. */
  function IsEnvVar(value: Option<string>): bool {
    match value
    case None => false
    case Some(s) => |s| >= 1 && IsNameStart(s[0]) && MatchNameRest(s, 1)
  }

  /** What the matcher accepts from position `i` on, stated as a split point. */
  lemma {:induction false} MatchNameRestSpec(s: string, i: nat)
    requires 1 <= i <= |s|
    ensures MatchNameRest(s, i) <==>
              exists n :: i <= n < |s| && s[n] == '='
                && NameChars(s, i, n)
                && (forall k :: n < k < |s| ==> !IsLineTerminator(s[k]))
    decreases |s| - i
  {
    if i < |s| {
      if s[i] == '=' {
        assert NoLineTerminator(s[i + 1..]) <==> (forall k :: i < k < |s| ==> !IsLineTerminator(s[k])) by {
          assert forall k :: i < k < |s| ==> s[k] == s[i + 1..][k - i - 1];
        }
      } else {
        MatchNameRestSpec(s, i + 1);
        if !IsNameChar(s[i]) {
          forall n | i < n < |s|
            ensures !NameChars(s, i, n)
          {
            assert i <= i < n && !IsNameChar(s[i]);
          }
        }
      }
    }
  }

  /** `isEnvVar` accepts exactly the declarative syntax. */
  lemma IsEnvVarSpec(s: string)
    ensures IsEnvVar(Some(s)) <==> IsEnvEntry(s)
  {
    if |s| >= 1 {
      MatchNameRestSpec(s, 1);
    }
  }

  /** Without '=' nothing is an environment entry. */
  lemma NoEqualsRejected(s: string)
    requires '=' !in s
    ensures !IsEnvVar(Some(s))
  {
    IsEnvVarSpec(s);
    forall n | 1 <= n < |s|
      ensures s[n] != '='
    {
      assert s[n] in s;
    }
  }

  /** Any name followed by '=' and a value free of line terminators is accepted,
      whatever further '=' the value holds. */
  lemma EntryAccepted(name: string, value: string)
    requires |name| >= 1 && IsNameStart(name[0]) && forall k :: 1 <= k < |name| ==> IsNameChar(name[k])
    requires NoLineTerminator(value)
    ensures IsEnvVar(Some(name + "=" + value))
  {
    var s := name + "=" + value;
    assert s[|name|] == '=';
    assert forall k :: |name| < k < |s| ==> s[k] == value[k - |name| - 1];
    assert IsEnvEntry(s);
    IsEnvVarSpec(s);
  }
}

=== FILE: container_config.dfy ===
/** The container configuration both command-line tools assemble, and the size
    budgets they put on packed layers. Packing a directory is a parameter: the
    archive packer belongs to an external library, and only the size and the
    location of the layer it makes are used here.
 */
module ContainerConfigs {

  import opened Wrappers
  import opened Strings

  const MiB: int := 1024 * 1024

  /** The largest compressed build context accepted. */
  const MaxContextSize: int := 5 * MiB

  /** The largest compressed layer accepted. */
  const MaxLayerSize: int := MiB

  /** The compressed size of all counted layers must stay below this. */
  const LayersBudget: int := 10 * MiB

  /** `Files.exists` and `Files.isDirectory`, as both tools consult them. */
  datatype FileSystem = FileSystem(pathExists: string -> bool, isDirectory: string -> bool)

  /** `ContainerLayer`: where the layer's archive is (a `data:` URI when it is
      inline) and its compressed size. */
  datatype Layer = Layer(location: string, gzipSize: int)

  /** `ContainerConfig`. */
  datatype Config = Config(entrypoint: Option<seq<string>>, cmd: Option<seq<string>>, env: Option<seq<string>>,
                           workingDir: Option<string>, layers: seq<Layer>)

  /** `new ContainerConfig()`. */
  const NewConfig: Config := Config(None, None, None, None, [])

  /** `ContainerConfig.empty()`: nothing set and no layers. */
  predicate IsBlankConfig(c: Config) {
    (c.entrypoint.None? || c.entrypoint.value == []) && (c.cmd.None? || c.cmd.value == [])
    && (c.env.None? || c.env.value == []) && (c.workingDir.None? || c.workingDir.value == "")
    && c.layers == []
  }

  /** How packing one layer directory went wrong. */
  datatype LayerError =
    | NotLayerDirectory(path: string)  // `IllegalCliArgumentException` "Not a valid container layer directory"
    | LayerPackFailed(path: string)    // `RuntimeException` around the packer's `IOException`
    | LayerTooBig(path: string)        // `RuntimeException` "Container layer cannot be bigger of 1 MiB"

  /** Why assembling the build context or the container configuration stopped. */
  datatype PrepareError =
    | ContextPackFailed           // the packer failed on the context directory
    | ContextTooBig               // "Build context cannot be bigger of 5 MiB"
    | ConfigFileBlank             // "The specified config file is an empty string"
    | ConfigUnreadable(path: string)
    | CommandBlank                // the command is empty (after `trim` in the wave cli)
    | InvalidEnvVar(value: string) // "Invalid environment variable syntax"
    | WorkingDirBlank             // "The working directory cannot be empty string"
    | BadLayer(fault: LayerError)
    | LayersTooBig                // "Compressed container layers cannot exceed 10 MiB"

  /** The configuration a `--config-file` gives, the same in both tools: a new one
      when no file is named; a name whose `trim()` is "" is rejected before any
      reading; otherwise what the reader (a parameter: a file, or an HTTP or
      `file:` URL, decoded as JSON) returns, `None` standing for its failure. */
  function ReadConfigFile(configFile: Option<string>, readConfig: string -> Option<Config>): (r: Result<Config, PrepareError>)
    ensures configFile.None? ==> r == Success(NewConfig)
    ensures r == Failure(ConfigFileBlank) <==> configFile.Some? && AllTrimmable(configFile.value)
    ensures r.Failure? && r.error.ConfigUnreadable? <==>
              configFile.Some? && !AllTrimmable(configFile.value) && readConfig(configFile.value).None?
    ensures r.Failure? && r.error.ConfigUnreadable? ==> r.error.path == configFile.value
    ensures configFile.Some? && r.Success? ==> Some(r.value) == readConfig(configFile.value)
    ensures configFile.Some? && !AllTrimmable(configFile.value) && readConfig(configFile.value).Some? ==>
              r == Success(readConfig(configFile.value).value)
  {
    match configFile
    case None => Success(NewConfig)
    case Some(path) =>
      if AllTrimmable(path) then Failure(ConfigFileBlank)
      else match readConfig(path)
        case None => Failure(ConfigUnreadable(path))
        case Some(c) => Success(c)
  }

  /** A layer directory that packs within the per-layer budget. */
  predicate LayerOk(dir: string, isDirectory: string -> bool, pack: string -> Option<Layer>) {
    isDirectory(dir) && pack(dir).Some? && pack(dir).value.gzipSize <= MaxLayerSize
  }

  /** The error the first check that `dir` fails raises. */
  function LayerFault(dir: string, isDirectory: string -> bool, pack: string -> Option<Layer>): LayerError
    requires !LayerOk(dir, isDirectory, pack)
  {
    if !isDirectory(dir) then NotLayerDirectory(dir)
    else if pack(dir).None? then LayerPackFailed(dir)
    else LayerTooBig(dir)
  }

  /** The loop over the `--layer` directories: each one must be a directory,
      pack, and fit the per-layer budget; the packed layers are appended to
      `acc` in order, and the first directory that fails stops the loop. */
  function AddLayers(dirs: seq<string>, acc: seq<Layer>, isDirectory: string -> bool, pack: string -> Option<Layer>)
    : (r: Result<seq<Layer>, LayerError>)
    ensures r.Success? <==> forall i :: 0 <= i < |dirs| ==> LayerOk(dirs[i], isDirectory, pack)
    ensures r.Success? ==> |r.value| == |acc| + |dirs| && r.value[..|acc|] == acc
    ensures r.Success? ==> forall i :: 0 <= i < |dirs| ==> r.value[|acc| + i] == pack(dirs[i]).value
    ensures r.Failure? ==>
              exists i :: 0 <= i < |dirs| && !LayerOk(dirs[i], isDirectory, pack)
                && (forall j :: 0 <= j < i ==> LayerOk(dirs[j], isDirectory, pack))
                && r.error == LayerFault(dirs[i], isDirectory, pack)
    decreases |dirs|
  {
    if dirs == [] then Success(acc)
    else if !LayerOk(dirs[0], isDirectory, pack) then Failure(LayerFault(dirs[0], isDirectory, pack))
    else
      var r := AddLayers(dirs[1..], acc + [pack(dirs[0]).value], isDirectory, pack);
      if r.Failure? then
        var i :| 0 <= i < |dirs| - 1 && !LayerOk(dirs[1..][i], isDirectory, pack)
                  && (forall j :: 0 <= j < i ==> LayerOk(dirs[1..][j], isDirectory, pack))
                  && r.error == LayerFault(dirs[1..][i], isDirectory, pack);
        assert !LayerOk(dirs[i + 1], isDirectory, pack);
        assert forall j :: 0 <= j < i + 1 ==> LayerOk(dirs[j], isDirectory, pack) by {
          forall j | 0 <= j < i + 1
            ensures LayerOk(dirs[j], isDirectory, pack)
          {
            if j > 0 {
              assert dirs[j] == dirs[1..][j - 1];
            }
          }
        }
        r
      else
        assert r.value[..|acc| + 1][..|acc|] == r.value[..|acc|];
        assert forall i :: 1 <= i < |dirs| ==> r.value[|acc| + i] == pack(dirs[i]).value by {
          forall i | 1 <= i < |dirs|
            ensures r.value[|acc| + i] == pack(dirs[i]).value
          {
            assert r.value[|acc| + 1 + (i - 1)] == pack(dirs[1..][i - 1]).value;
          }
        }
        r
  }

  /** Every layer in the list is within the per-layer budget. */
  predicate AllWithinLayerBudget(layers: seq<Layer>) {
    forall i :: 0 <= i < |layers| ==> layers[i].gzipSize <= MaxLayerSize
  }

  /** The packed layers always respect the per-layer budget. */
  lemma AddedLayersWithinBudget(dirs: seq<string>, acc: seq<Layer>, isDirectory: string -> bool,
                                pack: string -> Option<Layer>)
    requires AllWithinLayerBudget(acc)
    requires AddLayers(dirs, acc, isDirectory, pack).Success?
    ensures AllWithinLayerBudget(AddLayers(dirs, acc, isDirectory, pack).value)
  {
    var r := AddLayers(dirs, acc, isDirectory, pack).value;
    forall i | 0 <= i < |r|
      ensures r[i].gzipSize <= MaxLayerSize
    {
      if i < |acc| {
        assert r[i] == r[..|acc|][i];
      } else {
        assert r[|acc| + (i - |acc|)] == pack(dirs[i - |acc|]).value;
        assert LayerOk(dirs[i - |acc|], isDirectory, pack);
      }
    }
  }

  predicate IsInline(layer: Layer) {
    StartsWith(layer.location, "data:")
  }

  /** The compressed size of the layers carried inline in the request. */
  function InlineSize(layers: seq<Layer>): int {
    if layers == [] then 0
    else (if IsInline(layers[0]) then layers[0].gzipSize else 0) + InlineSize(layers[1..])
  }

  /** The compressed size of all layers. */
  function TotalSize(layers: seq<Layer>): int {
    if layers == [] then 0 else layers[0].gzipSize + TotalSize(layers[1..])
  }

  /** Only the inline layers of a list, in order. */
  function InlineLayers(layers: seq<Layer>): (r: seq<Layer>)
    ensures |r| <= |layers|
    ensures forall l :: l in r ==> l in layers && IsInline(l)
  {
    if layers == [] then []
    else (if IsInline(layers[0]) then [layers[0]] else []) + InlineLayers(layers[1..])
  }

  /** The inline size is the total size of the inline layers alone: a layer
      stored elsewhere never counts against the budget. */
  lemma {:induction false} InlineSizeIsTotalOfInline(layers: seq<Layer>)
    ensures InlineSize(layers) == TotalSize(InlineLayers(layers))
  {
    if layers != [] {
      InlineSizeIsTotalOfInline(layers[1..]);
      TotalSizeAppend(if IsInline(layers[0]) then [layers[0]] else [], InlineLayers(layers[1..]));
    }
  }

  lemma {:induction false} TotalSizeAppend(a: seq<Layer>, b: seq<Layer>)
    ensures TotalSize(a + b) == TotalSize(a) + TotalSize(b)
  {
    if a != [] {
      assert (a + b)[0] == a[0] && (a + b)[1..] == a[1..] + b;
      TotalSizeAppend(a[1..], b);
    } else {
      assert a + b == b;
    }
  }

  lemma {:induction false} InlineSizeAppend(a: seq<Layer>, b: seq<Layer>)
    ensures InlineSize(a + b) == InlineSize(a) + InlineSize(b)
  {
    if a != [] {
      assert (a + b)[0] == a[0] && (a + b)[1..] == a[1..] + b;
      InlineSizeAppend(a[1..], b);
    } else {
      assert a + b == b;
    }
  }

  /** With no negative sizes, the inline size never exceeds the total. */
  lemma {:induction false} InlineSizeAtMostTotal(layers: seq<Layer>)
    requires forall i :: 0 <= i < |layers| ==> layers[i].gzipSize >= 0
    ensures 0 <= InlineSize(layers) <= TotalSize(layers)
  {
    if layers != [] {
      InlineSizeAtMostTotal(layers[1..]);
    }
  }

  /** The sizes of `n` copies of one inline layer. */
  lemma {:induction false} UniformLayersSize(n: nat, layer: Layer)
    requires IsInline(layer)
    ensures InlineSize(seq(n, _ => layer)) == n * layer.gzipSize
    ensures TotalSize(seq(n, _ => layer)) == n * layer.gzipSize
  {
    if n > 0 {
      assert seq(n, _ => layer)[1..] == seq(n - 1, _ => layer);
      UniformLayersSize(n - 1, layer);
    }
  }

  /** Ten inline layers of exactly 1 MiB each pass the per-layer check but
      together reach the aggregate budget, which rejects them. */
  lemma TenFullLayersExceedBudget(location: string)
    requires StartsWith(location, "data:")
    ensures var layers := seq(10, _ => Layer(location, MaxLayerSize));
            AllWithinLayerBudget(layers) && InlineSize(layers) >= LayersBudget && TotalSize(layers) >= LayersBudget
  {
    UniformLayersSize(10, Layer(location, MaxLayerSize));
  }
}

=== FILE: container_spec.dfy ===
/** `ContainerSpecEx`: the inspected container spec with every manifest layer
    turned into a `LayerRef` that also carries the blob URI of the layer,
    `hostName/v2/imageName/blobs/digest`.

    `ObjectRef`, `Manifest` and `ContainerSpec` belong to the service's API
    library; only the fields the rewrite touches or must keep are modelled.
 */
module ContainerSpecEx {

  import opened Wrappers

  /** An OCI descriptor of a blob. */
  datatype ObjectRef = ObjectRef(mediaType: Option<string>, digest: Option<string>, size: int,
                                 annotations: Option<map<string, string>>)

  /** A manifest layer: a plain `ObjectRef`, or a `LayerRef`, which is the same
      descriptor plus a (nullable) `uri`. */
  datatype LayerEntry =
    | Plain(ref: ObjectRef)
    | LayerRef(ref: ObjectRef, uri: Option<string>)

  datatype Manifest = Manifest(schemaVersion: int, mediaType: Option<string>, config: Option<ObjectRef>,
                               layers: Option<seq<LayerEntry>>)

  datatype ContainerSpec = ContainerSpec(registry: Option<string>, hostName: Option<string>,
                                         imageName: Option<string>, reference: Option<string>,
                                         digest: Option<string>, manifest: Option<Manifest>)

  /** Java string concatenation renders a `null` reference as "null". */
  function JavaText(s: Option<string>): string {
    match s
    case None => "null"
    case Some(t) => t
  }

  /** The blob URI of a layer of `spec`. */
  function BlobUri(spec: ContainerSpec, ref: ObjectRef): string {
    JavaText(spec.hostName) + "/v2/" + JavaText(spec.imageName) + "/blobs/" + JavaText(ref.digest)
  }

  /** Each layer as a `LayerRef` with its blob URI. */
  function RewriteLayers(spec: ContainerSpec, layers: seq<LayerEntry>): seq<LayerEntry> {
    seq(|layers|, i requires 0 <= i < |layers| => LayerRef(layers[i].ref, Some(BlobUri(spec, layers[i].ref))))
  }

  /** The `ContainerSpecEx` constructor. Every field outside the layer list is
      kept; so are the number, the order and the descriptors of the layers;
      each layer gains its blob URI. A missing manifest or layer list leaves the
      spec as it is. */
  function WithLayerUris(spec: ContainerSpec): (r: ContainerSpec)
    ensures r.(manifest := spec.manifest) == spec
    ensures spec.manifest.None? || spec.manifest.value.layers.None? ==> r == spec
    ensures spec.manifest.Some? ==>
              r.manifest.Some? && r.manifest.value.(layers := spec.manifest.value.layers) == spec.manifest.value
    ensures spec.manifest.Some? && spec.manifest.value.layers.Some? ==>
              var before := spec.manifest.value.layers.value;
              r.manifest.value.layers.Some? && |r.manifest.value.layers.value| == |before|
              && forall i :: 0 <= i < |before| ==>
                   r.manifest.value.layers.value[i].LayerRef?
                   && r.manifest.value.layers.value[i].ref == before[i].ref
                   && r.manifest.value.layers.value[i].uri == Some(BlobUri(spec, before[i].ref))
  {
    match spec.manifest
    case None => spec
    case Some(m) =>
      match m.layers
      case None => spec
      case Some(layers) => spec.(manifest := Some(m.(layers := Some(RewriteLayers(spec, layers)))))
  }

  /** Rewriting an already rewritten spec gives the same spec: the inspect
      command wraps the spec twice, and the URIs stay as computed the first time. */
  lemma WithLayerUrisIdempotent(spec: ContainerSpec)
    ensures WithLayerUris(WithLayerUris(spec)) == WithLayerUris(spec)
  {
    var once := WithLayerUris(spec);
    if spec.manifest.Some? && spec.manifest.value.layers.Some? {
      var a := once.manifest.value.layers.value;
      var b := WithLayerUris(once).manifest.value.layers.value;
      assert once.hostName == spec.hostName && once.imageName == spec.imageName;
      assert forall i :: 0 <= i < |a| ==> b[i] == a[i];
      assert b == a;
      var m := once.manifest.value;
      assert WithLayerUris(once) == once.(manifest := Some(m.(layers := Some(b))));
      assert m.(layers := Some(a)) == m;
    }
  }

  /** The layer URIs depend only on the host, the image name and each digest. */
  lemma BlobUriOfNames(spec: ContainerSpec, ref: ObjectRef, host: string, image: string, digest: string)
    requires spec.hostName == Some(host) && spec.imageName == Some(image) && ref.digest == Some(digest)
    ensures BlobUri(spec, ref) == host + "/v2/" + image + "/blobs/" + digest
  {
  }
}

=== FILE: date_time_adapter.dfy ===
/** The `Duration` half of the JSON date-time adapter. Both clients carry an
    identical copy (`io.seqera.wave.cli.json` and `io.seqera.wavelit.json`):
    a duration is written as its total nanoseconds in decimal, and read back
    from such a decimal, or, for older services, from a decimal fraction of
    seconds.
 */
module DateTimeAdapter {

  import opened Wrappers
  import opened Decimal
  import opened Durations

  datatype AdapterError =
    | NanosOverflow   // `Duration.toNanos` threw `ArithmeticException`
    | NumberFormat    // `Long.valueOf` threw `NumberFormatException`

  /** What `deserializeDuration` yields: `null`, an exact duration, or a text with
      a '.' that the source converts through `Double` (not modelled here). */
  datatype Decoded = NullDuration | Exact(duration: Duration) | FloatSeconds(text: string)

  /** `serializeDuration`: `null` stays `null`; otherwise the nanosecond count as
      `String.valueOf(long)`, which requires the count to fit a `long`. */
  function SerializeDuration(value: Option<Duration>): (r: Result<Option<string>, AdapterError>)
    ensures value.None? <==> r == Success(None)
    ensures value.Some? ==> (r.Success? <==> InLong(value.value.nanos))
    ensures value.Some? && r.Success? ==> r.value.Some? && ParseLong(r.value.value) == Some(value.value.nanos)
  {
    match value
    case None => Success(None)
    case Some(d) =>
      if InLong(d.nanos) then
        ParseFormatLong(d.nanos);
        Success(Some(FormatLong(d.nanos)))
      else Failure(NanosOverflow)
  }

  /** `deserializeDuration`: `null` stays `null`; a text without '.' is a whole
      number of nanoseconds read by `Long.valueOf`. */
  function DeserializeDuration(value: Option<string>): (r: Result<Decoded, AdapterError>)
    ensures value.None? <==> r == Success(NullDuration)
    ensures value.Some? && '.' !in value.value ==>
              match ParseLong(value.value)
              case Some(n) => r == Success(Exact(Duration(n)))
              case None => r == Failure(NumberFormat)
    ensures value.Some? && '.' in value.value ==> r == Success(FloatSeconds(value.value))
  {
    match value
    case None => Success(NullDuration)
    case Some(text) =>
      if '.' in text then Success(FloatSeconds(text))
      else match ParseLong(text)
        case Some(n) => Success(Exact(Duration(n)))
        case None => Failure(NumberFormat)
  }

  /** Round trip: every duration whose nanoseconds fit a `long` is read back
      exactly as it was written, and `null` as `null`. */
  lemma {:induction false} DurationRoundTrip(value: Option<Duration>)
    requires value.Some? ==> InLong(value.value.nanos)
    ensures SerializeDuration(value).Success?
    ensures DeserializeDuration(SerializeDuration(value).value)
         == Success(if value.None? then NullDuration else Exact(value.value))
  {
    if value.Some? {
      var text := FormatLong(value.value.nanos);
      DigitsHaveNoDot(if value.value.nanos < 0 then -value.value.nanos else value.value.nanos);
      assert '.' !in text;
    }
  }

  lemma DigitsHaveNoDot(n: nat)
    ensures '.' !in Digits(n)
  {
    var d := Digits(n);
    assert forall k :: 0 <= k < |d| ==> d[k] != '.';
  }
}

=== FILE: decimal.dfy ===
/** Decimal text for 64-bit integers: `Long.toString` and `Long.parseLong`. */
module Decimal {

  import opened Wrappers

  const LongMin: int := -0x8000_0000_0000_0000
  const LongMax: int := 0x7fff_ffff_ffff_ffff

  /** The value fits a Java `long`. */
  predicate InLong(n: int) {
    LongMin <= n <= LongMax
  }

  predicate IsDigit(c: char) {
    '0' <= c <= '9'
  }

  predicate AllDigits(s: string) {
    forall k :: 0 <= k < |s| ==> IsDigit(s[k])
  }

  function DigitChar(d: nat): (c: char)
    requires d < 10
    ensures IsDigit(c)
  {
    ('0' as int + d) as char
  }

  function DigitValue(c: char): (d: nat)
    requires IsDigit(c)
    ensures d < 10 && DigitChar(d) == c
  {
    c as int - '0' as int
  }

  /** The number an ASCII digit string denotes, leading zeros allowed. */
  function Value(s: string): nat
    requires AllDigits(s)
  {
    if |s| == 0 then 0 else Value(s[..|s| - 1]) * 10 + DigitValue(s[|s| - 1])
  }

  /** The digits of `n` without leading zeros, as `Long.toString` writes them. */
  function Digits(n: nat): (s: string)
    ensures |s| >= 1 && AllDigits(s)
    ensures |s| > 1 ==> s[0] != '0'
  {
    if n < 10 then [DigitChar(n)] else Digits(n / 10) + [DigitChar(n % 10)]
  }

  /** Reading back the digits of `n` gives `n`. */
  lemma {:induction false} ValueOfDigits(n: nat)
    ensures Value(Digits(n)) == n
  {
    if n >= 10 {
      var s := Digits(n);
      assert s[..|s| - 1] == Digits(n / 10);
      ValueOfDigits(n / 10);
    }
  }

  /** Appending digits extends the value positionally. */
  lemma {:induction false} ValueAppend(a: string, d: char)
    requires AllDigits(a) && IsDigit(d)
    ensures AllDigits(a + [d]) && Value(a + [d]) == Value(a) * 10 + DigitValue(d)
  {
    assert (a + [d])[..|a|] == a;
  }

  /** `Long.toString(n)`. */
  function FormatLong(n: int): string {
    if n < 0 then "-" + Digits(-n) else Digits(n)
  }

  predicate HasSign(s: string) {
    |s| >= 1 && (s[0] == '-' || s[0] == '+')
  }

  /** The text after an optional sign. */
  function Magnitude(s: string): string {
    if HasSign(s) then s[1..] else s
  }

  /** The syntax `Long.parseLong` accepts: an optional '+' or '-', then at least
      one ASCII digit. */
  predicate IsDecimalText(s: string) {
    |Magnitude(s)| >= 1 && AllDigits(Magnitude(s))
  }

  /** The number a decimal text denotes, whether or not it fits a `long`. */
  function SignedValue(s: string): int
    requires IsDecimalText(s)
  {
    if s[0] == '-' then -(Value(Magnitude(s)) as int) else Value(Magnitude(s))
  }

  /** `Long.parseLong(s)`: anything that is not a decimal text, or whose value
      does not fit a `long`, is a `NumberFormatException`, modelled as `None`. */
  function ParseLong(s: string): (r: Option<int>)
    ensures r.Some? <==> IsDecimalText(s) && InLong(SignedValue(s))
    ensures r.Some? ==> r.value == SignedValue(s)
  {
    if |s| == 0 then None
    else
      var body := if s[0] == '-' || s[0] == '+' then s[1..] else s;
      if |body| == 0 || !AllDigits(body) then None
      else
        var v: int := if s[0] == '-' then -(Value(body) as int) else Value(body);
        if InLong(v) then Some(v) else None
  }

  /** `n` zero digits. */
  function Zeros(n: nat): (s: string)
    ensures |s| == n && AllDigits(s)
  {
    seq(n, _ => '0')
  }

  lemma {:induction false} ZerosValue(n: nat)
    ensures Value(Zeros(n)) == 0
  {
    if n > 0 {
      assert Zeros(n)[..n - 1] == Zeros(n - 1);
      ZerosValue(n - 1);
    }
  }

  /** Leading zeros do not change the value of a digit string. */
  lemma {:induction false} ValueLeadingZeros(n: nat, d: string)
    requires AllDigits(d)
    ensures AllDigits(Zeros(n) + d) && Value(Zeros(n) + d) == Value(d)
    decreases |d|
  {
    var z := Zeros(n);
    if |d| == 0 {
      assert z + d == z;
      ZerosValue(n);
    } else {
      var init, last := d[..|d| - 1], d[|d| - 1];
      ValueLeadingZeros(n, init);
      assert z + d == (z + init) + [last];
      assert d == init + [last];
      ValueAppend(z + init, last);
      ValueAppend(init, last);
    }
  }

  /** The number a sign and a magnitude denote. */
  function Signed(sign: string, m: nat): int {
    if sign == "-" then -(m as int) else m
  }

  /** `Long.parseLong` reads a '+' sign, a '-' sign and any number of leading
      zeros: the text sign, zeros, digits of `m` denotes `m` or `-m`. */
  lemma ParsePadded(sign: string, zeros: nat, m: nat)
    requires sign == "" || sign == "+" || sign == "-"
    requires InLong(Signed(sign, m))
    ensures ParseLong(sign + Zeros(zeros) + Digits(m)) == Some(Signed(sign, m))
  {
    var z, d := Zeros(zeros), Digits(m);
    ValueLeadingZeros(zeros, d);
    ValueOfDigits(m);
    TextAssoc(sign, z, d);
    SignedText(sign, z + d);
  }

  lemma TextAssoc(a: string, b: string, c: string)
    ensures a + b + c == a + (b + c)
  {
  }

  /** A sign before a digit string that does not start with a sign. */
  lemma SignedText(sign: string, body: string)
    requires sign == "" || sign == "+" || sign == "-"
    requires |body| >= 1 && AllDigits(body)
    ensures IsDecimalText(sign + body) && SignedValue(sign + body) == Signed(sign, Value(body))
  {
    if sign != "" {
      assert (sign + body)[0] == sign[0];
      assert (sign + body)[1..] == body;
    } else {
      assert sign + body == body;
      assert IsDigit(body[0]);
    }
  }

  /** A '+' sign and leading zeros are read; a lone sign is not a number. */
  lemma ParseExamples()
    ensures ParseLong("+5") == Some(5)
    ensures ParseLong("-007") == Some(-7)
    ensures ParseLong("-") == None && ParseLong("") == None && ParseLong("5s") == None
  {
    ParsePadded("+", 0, 5);
    assert "+" + Zeros(0) + Digits(5) == "+5";
    ParsePadded("-", 2, 7);
    assert "-" + Zeros(2) + Digits(7) == "-007";
    assert !IsDigit("5s"[1]);
  }

  /** Round trip: every `long` written by `Long.toString` is read back by `Long.parseLong`. */
  lemma ParseFormatLong(n: int)
    requires InLong(n)
    ensures ParseLong(FormatLong(n)) == Some(n)
  {
    var s := FormatLong(n);
    if n < 0 {
      assert s[1..] == Digits(-n);
      ValueOfDigits(-n);
    } else {
      ValueOfDigits(n);
    }
  }

  /** Writing is canonical: two digit strings without leading zeros that denote the
      same number are equal, so the text `FormatLong` produces is the only one
      without sign clutter. */
  lemma {:induction false} DigitsOfValue(s: string)
    requires |s| >= 1 && AllDigits(s)
    requires |s| > 1 ==> s[0] != '0'
    ensures Digits(Value(s)) == s
    decreases |s|
  {
    var init := s[..|s| - 1];
    if |s| > 1 {
      assert init[0] == s[0];
      DigitsOfValue(init);
      ValueLowerBound(init);
      assert Value(s) / 10 == Value(init);
      assert Value(s) % 10 == DigitValue(s[|s| - 1]);
      assert s == init + [s[|s| - 1]];
    }
  }

  /** A digit string of length two or more without a leading zero denotes at least 10. */
  lemma {:induction false} ValueLowerBound(s: string)
    requires |s| >= 1 && AllDigits(s) && s[0] != '0'
    ensures Value(s) >= 1
  {
    if |s| > 1 {
      assert s[..|s| - 1][0] == s[0];
      ValueLowerBound(s[..|s| - 1]);
    }
  }
}

=== FILE: duration_converter.dfy ===
/** The `--await` option converter: a missing or blank value means 15 minutes,
    anything else is read as the time part of an ISO 8601 duration
    (section 4.4.3.2 of ISO 8601:2004, designators H, M and S), by handing
    `"PT" + value.toUpperCase()` to `Duration.parse`.

    `ParseTimePart` models `Duration.parse` on a text that starts with "PT":
    after "PT" come optional hour, minute and second components in that
    order, each an optionally signed run of ASCII digits followed by its
    designator; the seconds may carry a '.' or ',' fraction of at most nine
    digits; at least one component must be present. Every component and every
    intermediate sum must fit a `long`, as `Math.multiplyExact` and
    `Math.addExact` demand. A `None` result is a `DateTimeParseException`.
 */
module DurationConverter {

  import opened Wrappers
  import opened Strings
  import opened Decimal
  import opened Durations

  /** The value used when `--await` is given without a duration. */
  const DefaultAwait: Duration := OfMinutes(15)

  /** The components matched in the text after "PT": the signed digits of each
      present component and the digits of the seconds fraction ("" if none). */
  datatype TimeFields = TimeFields(
    hours: Option<string>,
    minutes: Option<string>,
    seconds: Option<string>,
    fraction: string)

  /** Length of the run of ASCII digits at the start of `s`. */
  function SpanDigits(s: string): (n: nat)
    ensures n <= |s| && AllDigits(s[..n])
    ensures n < |s| ==> !IsDigit(s[n])
  {
    if |s| > 0 && IsDigit(s[0]) then
      var n := 1 + SpanDigits(s[1..]);
      assert s[..n] == [s[0]] + s[1..][..n - 1];
      n
    else 0
  }

  /** Length of the `[-+]?[0-9]+` match at the start of `s`, or 0 when there is none. */
  function NumberLength(s: string): nat {
    var sign := if |s| > 0 && (s[0] == '+' || s[0] == '-') then 1 else 0;
    var digits := SpanDigits(s[sign..]);
    if digits == 0 then 0 else sign + digits
  }

  /** Matches `([-+]?[0-9]+)unit` at the start of `s`; when it does not match,
      the component is absent and nothing is consumed. */
  function MatchUnit(s: string, unit: char): (Option<string>, string) {
    var n := NumberLength(s);
    if 0 < n < |s| && s[n] == unit then (Some(s[..n]), s[n + 1..]) else (None, s)
  }

  /** Matches `([-+]?[0-9]+)([.,][0-9]{0,9})?S` at the start of `s`. */
  function MatchSeconds(s: string): (Option<string>, string, string) {
    var n := NumberLength(s);
    if n == 0 || n >= |s| then (None, "", s)
    else if s[n] == 'S' then (Some(s[..n]), "", s[n + 1..])
    else if s[n] == '.' || s[n] == ',' then
      var f := SpanDigits(s[n + 1..]);
      if f <= 9 && n + 1 + f < |s| && s[n + 1 + f] == 'S'
      then (Some(s[..n]), s[n + 1..n + 1 + f], s[n + 2 + f..])
      else (None, "", s)
    else (None, "", s)
  }

  /** The pattern match of the text after "PT"; `None` when the whole text is not
      matched or when no component is present. */
  function MatchTime(u: string): Option<TimeFields> {
    var (h, u1) := MatchUnit(u, 'H');
    var (m, u2) := MatchUnit(u1, 'M');
    var (s, frac, rest) := MatchSeconds(u2);
    if rest == "" && (h.Some? || m.Some? || s.Some?) then Some(TimeFields(h, m, s, frac)) else None
  }

  /** `parseNumber`: an absent component counts as 0; a present one is read with
      `Long.parseLong` and multiplied exactly. */
  function ParseComponent(text: Option<string>, multiplier: int): Option<int> {
    match text
    case None => Some(0)
    case Some(t) =>
      match ParseLong(t)
      case None => None
      case Some(v) => if InLong(v * multiplier) then Some(v * multiplier) else None
  }

  function Pow10(n: nat): (p: nat)
    ensures p >= 1
  {
    if n == 0 then 1 else 10 * Pow10(n - 1)
  }

  /** `parseFraction`: the fraction digits scaled to nanoseconds, carrying the
      sign of the seconds component. */
  function FractionNanos(frac: string, negative: bool): int
    requires |frac| <= 9 && AllDigits(frac)
  {
    if |frac| == 0 then 0
    else (Value(frac) * Pow10(9 - |frac|)) * (if negative then -1 else 1)
  }

  /** `Duration.create` followed by `ofSeconds(seconds, nanos)`, with the exact
      arithmetic of the JDK. */
  function Create(f: TimeFields): Option<Duration>
    requires |f.fraction| <= 9 && AllDigits(f.fraction)
  {
    var hours :- ParseComponent(f.hours, 3600);
    var minutes :- ParseComponent(f.minutes, 60);
    var seconds :- ParseComponent(f.seconds, 1);
    var negative := f.seconds.Some? && |f.seconds.value| > 0 && f.seconds.value[0] == '-';
    var nanos := FractionNanos(f.fraction, negative);
    var partial := minutes + seconds;
    var total := hours + partial;
    if !InLong(partial) || !InLong(total) || !InLong(total + nanos / NanosPerSecond) then None
    else Some(Duration(total * NanosPerSecond + nanos))
  }

  lemma MatchSecondsFraction(s: string)
    ensures var (_, frac, _) := MatchSeconds(s); |frac| <= 9 && AllDigits(frac)
  {
    var n := NumberLength(s);
    if 0 < n < |s| && (s[n] == '.' || s[n] == ',') {
      var f := SpanDigits(s[n + 1..]);
      if f <= 9 && n + 1 + f < |s| {
        assert s[n + 1..n + 1 + f] == s[n + 1..][..f];
      }
    }
  }

  /** `Duration.parse("PT" + u)`. */
  function ParseTimePart(u: string): Option<Duration> {
    match MatchTime(u)
    case None => None
    case Some(f) =>
      MatchSecondsFraction(MatchUnit(MatchUnit(u, 'H').1, 'M').1);
      Create(f)
  }

  /** `DurationConverter.convert`. */
  function Convert(value: Option<string>): (r: Option<Duration>)
    ensures value.None? ==> r == Some(DefaultAwait)
  {
    if value.None? || Trim(value.value) == "" then Some(DefaultAwait)
    else ParseTimePart(ToUpper(value.value))
  }

  /** A missing value and a value of only whitespace both give 15 minutes,
      and only those: any other value is parsed. */
  lemma ConvertDefault(value: Option<string>)
    ensures (value.None? || AllTrimmable(value.value)) ==> Convert(value) == Some(OfMinutes(15))
    ensures value.Some? && !AllTrimmable(value.value) ==> Convert(value) == ParseTimePart(ToUpper(value.value))
  {
    if value.Some? {
      TrimEmptyIff(value.value);
    }
  }

  /** Unit letters are case-insensitive: a value and its upper-cased form convert
      to the same duration (or both fail). */
  lemma ConvertCaseInsensitive(value: string)
    ensures Convert(Some(value)) == Convert(Some(ToUpper(value)))
  {
    ToUpperIdempotent(value);
    TrimEmptyIff(value);
    TrimEmptyIff(ToUpper(value));
  }

  /** How the usage text writes a duration: optional `<n>h`, `<n>m`, `<n>s`
      parts in lower case, in that order. */
  function Render(h: Option<nat>, m: Option<nat>, s: Option<nat>): string {
    Part(h, 'h') + Part(m, 'm') + Part(s, 's')
  }

  /** One rendered component: the digits followed by the designator, or nothing. */
  function Part(n: Option<nat>, unit: char): string {
    if n.Some? then Digits(n.value) + [unit] else ""
  }

  function Seconds(h: Option<nat>, m: Option<nat>, s: Option<nat>): nat {
    h.GetOr(0) * 3600 + m.GetOr(0) * 60 + s.GetOr(0)
  }

  /** `Render` with upper-case designators, the text `Duration.parse` sees. */
  function RenderUpper(h: Option<nat>, m: Option<nat>, s: Option<nat>): string {
    Part(h, 'H') + Part(m, 'M') + Part(s, 'S')
  }

  lemma ToUpperConcat(a: string, b: string)
    ensures ToUpper(a + b) == ToUpper(a) + ToUpper(b)
  {
    assert forall k :: 0 <= k < |a + b| ==> ToUpper(a + b)[k] == (ToUpper(a) + ToUpper(b))[k];
  }

  lemma ToUpperPart(n: Option<nat>, unit: char)
    ensures ToUpper(Part(n, unit)) == Part(n, UpperChar(unit))
  {
    if n.Some? {
      var d := Digits(n.value);
      assert forall k :: 0 <= k < |d| ==> UpperChar(d[k]) == d[k];
    }
  }

  lemma ToUpperRender(h: Option<nat>, m: Option<nat>, s: Option<nat>)
    ensures ToUpper(Render(h, m, s)) == RenderUpper(h, m, s)
  {
    ToUpperConcat(Part(h, 'h') + Part(m, 'm'), Part(s, 's'));
    ToUpperConcat(Part(h, 'h'), Part(m, 'm'));
    ToUpperPart(h, 'h');
    ToUpperPart(m, 'm');
    ToUpperPart(s, 's');
  }

  /** `SpanDigits` stops exactly at the first non-digit. */
  lemma {:induction false} SpanDigitsExact(x: string, j: nat)
    requires j <= |x| && AllDigits(x[..j]) && (j < |x| ==> !IsDigit(x[j]))
    ensures SpanDigits(x) == j
  {
    if j > 0 {
      assert x[..j][0] == x[0];
      assert x[1..][..j - 1] == x[..j][1..];
      SpanDigitsExact(x[1..], j - 1);
    }
  }

  /** The number matched in front of a designator is exactly the digits written. */
  lemma NumberLengthDigits(n: nat, c: char, rest: string)
    requires !IsDigit(c)
    ensures NumberLength(Digits(n) + [c] + rest) == |Digits(n)|
  {
    var d := Digits(n);
    var x := d + [c] + rest;
    assert x[0] == d[0];
    assert x[0..] == x;
    assert x[..|d|] == d;
    SpanDigitsExact(x, |d|);
  }

  lemma MatchUnitDigits(n: nat, c: char, rest: string, unit: char)
    requires !IsDigit(c)
    ensures MatchUnit(Digits(n) + [c] + rest, unit)
         == if c == unit then (Some(Digits(n)), rest) else (None, Digits(n) + [c] + rest)
  {
    NumberLengthDigits(n, c, rest);
    var x := Digits(n) + [c] + rest;
    assert x[..|Digits(n)|] == Digits(n);
    assert x[|Digits(n)| + 1..] == rest;
  }

  function Text(n: Option<nat>): Option<string> {
    if n.Some? then Some(Digits(n.value)) else None
  }

  /** The hour matcher takes exactly the rendered hours. */
  lemma MatchHours(h: Option<nat>, m: Option<nat>, s: Option<nat>)
    requires h.Some? || m.Some? || s.Some?
    ensures MatchUnit(Part(h, 'H') + (Part(m, 'M') + Part(s, 'S')), 'H') == (Text(h), Part(m, 'M') + Part(s, 'S'))
  {
    var rest := Part(m, 'M') + Part(s, 'S');
    if h.Some? {
      MatchUnitDigits(h.value, 'H', rest, 'H');
    } else if m.Some? {
      MatchUnitDigits(m.value, 'M', Part(s, 'S'), 'H');
      assert Part(h, 'H') + rest == Digits(m.value) + ['M'] + Part(s, 'S');
    } else {
      MatchUnitDigits(s.value, 'S', [], 'H');
      assert Part(h, 'H') + rest == Digits(s.value) + ['S'] + [];
    }
  }

  /** The minute matcher takes exactly the rendered minutes. */
  lemma MatchMinutes(m: Option<nat>, s: Option<nat>)
    ensures MatchUnit(Part(m, 'M') + Part(s, 'S'), 'M') == (Text(m), Part(s, 'S'))
  {
    if m.Some? {
      MatchUnitDigits(m.value, 'M', Part(s, 'S'), 'M');
    } else if s.Some? {
      MatchUnitDigits(s.value, 'S', [], 'M');
      assert Part(m, 'M') + Part(s, 'S') == Digits(s.value) + ['S'] + [];
    }
  }

  /** The second matcher takes exactly the rendered seconds and leaves nothing. */
  lemma MatchRenderedSeconds(s: Option<nat>)
    ensures MatchSeconds(Part(s, 'S')) == (Text(s), "", "")
  {
    if s.Some? {
      var x := Part(s, 'S');
      NumberLengthDigits(s.value, 'S', []);
      assert x == Digits(s.value) + ['S'] + [];
      assert x[..|Digits(s.value)|] == Digits(s.value);
    }
  }

  lemma MatchRendered(h: Option<nat>, m: Option<nat>, s: Option<nat>)
    requires h.Some? || m.Some? || s.Some?
    ensures MatchTime(RenderUpper(h, m, s)) == Some(TimeFields(Text(h), Text(m), Text(s), ""))
  {
    assert RenderUpper(h, m, s) == Part(h, 'H') + (Part(m, 'M') + Part(s, 'S'));
    MatchHours(h, m, s);
    MatchMinutes(m, s);
    MatchRenderedSeconds(s);
  }

  lemma CreateRendered(h: Option<nat>, m: Option<nat>, s: Option<nat>)
    requires Seconds(h, m, s) <= LongMax
    ensures Create(TimeFields(Text(h), Text(m), Text(s), "")) == Some(OfSeconds(Seconds(h, m, s)))
  {
    CreateOfTexts(TimeFields(Text(h), Text(m), Text(s), ""), h, m, s);
  }

  lemma CreateOfTexts(f: TimeFields, h: Option<nat>, m: Option<nat>, s: Option<nat>)
    requires f.hours == Text(h) && f.minutes == Text(m) && f.seconds == Text(s) && f.fraction == ""
    requires Seconds(h, m, s) <= LongMax
    ensures Create(f) == Some(OfSeconds(Seconds(h, m, s)))
  {
    var hours, minutes, seconds := h.GetOr(0) * 3600, m.GetOr(0) * 60, s.GetOr(0);
    assert ParseComponent(f.hours, 3600) == Some(hours) by { ComponentOfText(h, 3600); }
    assert ParseComponent(f.minutes, 60) == Some(minutes) by { ComponentOfText(m, 60); }
    assert ParseComponent(f.seconds, 1) == Some(seconds) by { ComponentOfText(s, 1); }
    CreateOfComponents(f, hours, minutes, seconds, Seconds(h, m, s));
  }

  /** Components that read as non-negative seconds, with no fraction, make the
      duration of their sum when it fits a `long`. */
  lemma CreateOfComponents(f: TimeFields, hours: nat, minutes: nat, seconds: nat, total: nat)
    requires f.fraction == ""
    requires ParseComponent(f.hours, 3600) == Some(hours)
    requires ParseComponent(f.minutes, 60) == Some(minutes)
    requires ParseComponent(f.seconds, 1) == Some(seconds)
    requires total == hours + minutes + seconds <= LongMax
    ensures Create(f) == Some(OfSeconds(total))
  {
  }

  /** A rendered component reads back as its value times the unit's seconds. */
  lemma ComponentOfText(n: Option<nat>, multiplier: nat)
    requires multiplier >= 1 && n.GetOr(0) * multiplier <= LongMax
    ensures ParseComponent(Text(n), multiplier) == Some(n.GetOr(0) * multiplier)
  {
    if n.Some? {
      assert n.value <= n.value * multiplier;
      ParseFormatLong(n.value);
    }
  }

  /** Reading back a rendered duration: every text the usage format describes
      converts to the duration it spells out, e.g. "10m" to 10 minutes and "2s"
      to 2 seconds. */
  lemma ConvertRender(h: Option<nat>, m: Option<nat>, s: Option<nat>)
    requires h.Some? || m.Some? || s.Some?
    requires Seconds(h, m, s) <= LongMax
    ensures Convert(Some(Render(h, m, s))) == Some(OfSeconds(Seconds(h, m, s)))
  {
    var text := Render(h, m, s);
    var first := if h.Some? then Digits(h.value) else if m.Some? then Digits(m.value) else Digits(s.value);
    assert text[0] == first[0];
    TrimEmptyIff(text);
    ToUpperRender(h, m, s);
    MatchRendered(h, m, s);
    CreateRendered(h, m, s);
  }
}

=== FILE: durations.dfy ===
/** `java.time.Duration`, reduced to what the client uses: a signed amount of
    time counted in nanoseconds. */
module Durations {

  import opened Decimal

  const NanosPerSecond: int := 1_000_000_000
  const NanosPerMilli: int := 1_000_000

  datatype Duration = Duration(nanos: int)

  function OfSeconds(s: int): Duration {
    Duration(s * NanosPerSecond)
  }

  function OfMinutes(m: int): Duration {
    Duration(m * 60 * NanosPerSecond)
  }

  /** Java's `/` on integers: the quotient truncated toward zero, so the
      remainder left over has the sign of the dividend and is smaller than the
      divisor. */
  function TruncDiv(a: int, b: int): (q: int)
    requires b > 0
    ensures a >= 0 ==> 0 <= a - q * b < b
    ensures a < 0 ==> -b < a - q * b <= 0
  {
    if a >= 0 then a / b else -((-a) / b)
  }

  /** `Duration.toMillis()`: whole milliseconds, truncated toward zero. */
  function ToMillis(d: Duration): int {
    TruncDiv(d.nanos, NanosPerMilli)
  }

  /** `toMillis` computes with `Math.multiplyExact` and `Math.addExact`, which
      throw an `ArithmeticException` exactly when the milliseconds do not fit a
      `long`. */
  predicate MillisFit(d: Duration) {
    InLong(ToMillis(d))
  }

  /** Truncation is symmetric in the sign of the dividend, unlike Dafny's
      Euclidean division: -7 / 2 is -3 in Java and -4 in Dafny. */
  lemma TruncDivNegate(a: int, b: int)
    requires b > 0
    ensures TruncDiv(-a, b) == -TruncDiv(a, b)
    ensures TruncDiv(-7, 2) == -3 && -7 / 2 == -4
  {
    if a == 0 {
      assert TruncDiv(-a, b) == 0 == TruncDiv(a, b);
    }
    assert 7 / 2 == 3;
    assert -7 / 2 == -4 by {
      assert -4 * 2 + 1 == -7;
    }
  }
}

=== FILE: endpoints.dfy ===
/** What both clients do with the service endpoint and with container names:
    `withEndpoint` and the registry-manifest URI of `imageToManifestUri`, and
    the protocol `new URL(endpoint)` finds, which the wave cli puts in front of
    that URI.
 */
module Endpoints {

  import opened Wrappers
  import opened Strings

  const DefaultEndpoint: string := "https://wave.seqera.io"

  /** `withEndpoint`: a null or empty argument keeps the current endpoint;
      anything else replaces it, without its trailing '/' characters. */
  function WithEndpoint(current: string, endpoint: Option<string>): (r: string)
    ensures endpoint.None? || endpoint.value == "" ==> r == current
    ensures endpoint.Some? && endpoint.value != "" ==>
              StartsWith(endpoint.value, r)
              && (forall k :: |r| <= k < |endpoint.value| ==> endpoint.value[k] == '/')
              && (r == "" || r[|r| - 1] != '/')
  {
    match endpoint
    case None => current
    case Some(e) => if e == "" then current else StripTrailingSlashes(e)
  }

  /** An endpoint once stored is stored unchanged when given again. */
  lemma StoredEndpointStable(current: string, endpoint: Option<string>)
    requires endpoint.Some? && endpoint.value != "" && WithEndpoint(current, endpoint) != ""
    ensures var stored := WithEndpoint(current, endpoint);
            WithEndpoint(current, Some(stored)) == stored
  {
    StripTrailingSlashesUnchanged(WithEndpoint(current, endpoint));
  }

  /** Trailing slashes make no difference: `base` and `base` followed by any
      number of '/' give the same endpoint. */
  lemma TrailingSlashesIgnored(current: string, base: string, n: nat)
    requires base != "" && base[|base| - 1] != '/'
    ensures WithEndpoint(current, Some(base + seq(n, _ => '/'))) == base
  {
    StripAppendedSlashes(base, n);
    StripTrailingSlashesUnchanged(base);
  }

  /** The registry-manifest URI of a container name, given the protocol text to
      start with: the name up to its first '/' (the registry), then "/v2", then the
      rest of the name with every ':' replaced by "/manifests/". `None` when the
      name has no '/', the `IllegalArgumentException`. */
  function ManifestUri(protocol: string, image: string): (r: Option<string>)
    ensures r.None? <==> '/' !in image
    ensures r.Some? ==> StartsWith(r.value, protocol)
  {
    match IndexOf(image, '/')
    case None => None
    case Some(p) =>
      var uri := protocol + image[..p] + "/v2" + ReplaceChar(image[p..], ':', "/manifests/");
      assert uri[..|protocol|] == protocol;
      Some(uri)
  }

  /** For a name `registry/repository:tag` the URI is
      `registry/v2/repository/manifests/tag` after the protocol. */
  lemma ManifestOfTaggedName(protocol: string, registry: string, repository: string, tag: string)
    requires '/' !in registry && ':' !in repository && ':' !in tag
    ensures ManifestUri(protocol, registry + "/" + repository + ":" + tag)
         == Some(protocol + registry + "/v2/" + repository + "/manifests/" + tag)
  {
    var rest := "/" + repository + ":" + tag;
    assert registry + "/" + repository + ":" + tag == registry + rest;
    ManifestOfSplit(protocol, registry, rest);
    TagReplaced(repository, tag);
    assert protocol + registry + "/v2" + ("/" + repository + "/manifests/" + tag)
        == protocol + registry + "/v2/" + repository + "/manifests/" + tag;
  }

  lemma TagReplaced(repository: string, tag: string)
    requires ':' !in repository && ':' !in tag
    ensures ReplaceChar("/" + repository + ":" + tag, ':', "/manifests/") == "/" + repository + "/manifests/" + tag
  {
    var a := "/" + repository;
    assert ':' !in a;
    assert "/" + repository + ":" + tag == a + [':'] + tag;
    ReplaceSingle(a, tag, ':', "/manifests/");
  }

  /** A name without a tag keeps its repository path unchanged. */
  lemma ManifestOfUntaggedName(protocol: string, registry: string, repository: string)
    requires '/' !in registry && ':' !in repository
    ensures ManifestUri(protocol, registry + "/" + repository)
         == Some(protocol + registry + "/v2/" + repository)
  {
    var rest := "/" + repository;
    assert ':' !in rest;
    ConcatAssoc(registry, "/", repository);
    ManifestOfSplit(protocol, registry, rest);
    ReplaceCharAbsent(rest, ':', "/manifests/");
    var front := protocol + registry;
    ConcatAssoc(front + "/v2", "/", repository);
    ConcatAssoc(front, "/v2", "/");
    assert "/v2" + "/" == "/v2/";
  }

  /** The registry is the text before the first '/', and the rest starts with it. */
  lemma ManifestOfSplit(protocol: string, registry: string, rest: string)
    requires '/' !in registry && |rest| > 0 && rest[0] == '/'
    ensures ManifestUri(protocol, registry + rest)
         == Some(protocol + registry + "/v2" + ReplaceChar(rest, ':', "/manifests/"))
  {
    var image := registry + rest;
    assert image[..|registry|] == registry;
    assert image[|registry|] == '/';
    assert IndexOf(image, '/') == Some(|registry|);
    assert image[|registry|..] == rest;
  }

  /** Past the registry, no ':' survives in the URI. */
  lemma ManifestHasNoColonAfterRegistry(protocol: string, image: string)
    requires '/' in image
    ensures var p := IndexOf(image, '/').value;
            var uri := ManifestUri(protocol, image).value;
            ':' !in uri[|protocol| + p..]
  {
    var p := IndexOf(image, '/').value;
    var tail := ReplaceChar(image[p..], ':', "/manifests/");
    ReplaceCharRemoves(image[p..], ':', "/manifests/");
    var front := protocol + image[..p];
    assert ManifestUri(protocol, image).value == front + ("/v2" + tail);
    assert |front| == |protocol| + p;
    assert (front + ("/v2" + tail))[|front|..] == "/v2" + tail;
    assert ':' !in "/v2";
  }

  /** Letters that may start a URL protocol. */
  predicate IsSchemeStart(c: char) {
    'a' <= c <= 'z' || 'A' <= c <= 'Z'
  }

  /** Characters that may continue a URL protocol. */
  predicate IsSchemeChar(c: char) {
    IsSchemeStart(c) || '0' <= c <= '9' || c == '.' || c == '+' || c == '-'
  }

  /** `URL.isValidProtocol`. */
  predicate IsValidScheme(s: string) {
    |s| >= 1 && IsSchemeStart(s[0]) && forall k :: 1 <= k < |s| ==> IsSchemeChar(s[k])
  }

  /** The position of the first ':' that comes before any '/'. */
  function SchemeEnd(s: string): (r: Option<nat>)
    ensures r.Some? ==> r.value < |s| && s[r.value] == ':' && ':' !in s[..r.value] && '/' !in s[..r.value]
    ensures r.None? ==> forall k :: 0 <= k < |s| && s[k] == ':' ==> '/' in s[..k]
  {
    if |s| == 0 || s[0] == '/' then None
    else if s[0] == ':' then Some(0)
    else match SchemeEnd(s[1..])
      case None =>
        assert forall k :: 1 <= k < |s| ==> s[k] == s[1..][k - 1] && s[1..k] == s[1..][..k - 1];
        None
      case Some(i) =>
        assert s[..i + 1] == [s[0]] + s[1..][..i];
        Some(i + 1)
  }

  /** The protocol `new URL(spec)` reads: surrounding characters up to U+0020
      skipped, an optional "url:" prefix skipped, no protocol when the rest starts
      with '#', else the text before the first ':' that precedes any '/', lower-cased,
      if it is a valid protocol name. */
  function UrlScheme(spec: string): (r: Option<string>)
    ensures r.Some? ==> IsValidScheme(r.value) && ToLower(r.value) == r.value
  {
    var t := Trim(spec);
    var u := if HasUrlPrefix(t) then t[4..] else t;
    if |u| > 0 && u[0] == '#' then None
    else match SchemeEnd(u)
      case None => None
      case Some(i) =>
        var s := ToLower(u[..i]);
        if IsValidScheme(s) then
          ToLowerIdempotent(u[..i]);
          Some(s)
        else None
  }

  /** The text starts with "url:", in any case. */
  predicate HasUrlPrefix(t: string) {
    |t| >= 4 && LowerChar(t[0]) == 'u' && LowerChar(t[1]) == 'r' && LowerChar(t[2]) == 'l' && t[3] == ':'
  }

  /** An endpoint written `scheme:rest` has the lower-cased scheme as its protocol. */
  lemma UrlSchemeOf(scheme: string, rest: string)
    requires IsValidScheme(scheme) && ToLower(scheme) != "url"
    requires rest == "" || !IsTrimmable(rest[|rest| - 1])
    ensures UrlScheme(scheme + ":" + rest) == Some(ToLower(scheme))
  {
    var spec := scheme + ":" + rest;
    assert spec[0] == scheme[0];
    assert !IsTrimmable(spec[|spec| - 1]);
    TrimUnchanged(spec);
    NoUrlPrefix(scheme, rest);
    assert spec[..|scheme|] == scheme;
    SchemeEndOf(scheme, rest);
    LowerValidScheme(scheme);
  }

  /** A valid scheme other than "url" never makes the text start with "url:". */
  lemma NoUrlPrefix(scheme: string, rest: string)
    requires IsValidScheme(scheme) && ToLower(scheme) != "url"
    ensures !HasUrlPrefix(scheme + ":" + rest)
  {
    var spec := scheme + ":" + rest;
    if |scheme| >= 4 {
      assert spec[3] == scheme[3] && IsSchemeChar(scheme[3]);
    } else if |scheme| == 3 {
      assert spec[..3] == scheme;
      assert ToLower(scheme) == [LowerChar(scheme[0]), LowerChar(scheme[1]), LowerChar(scheme[2])];
    } else {
      assert spec[|scheme|] == ':';
    }
  }

  lemma SchemeEndOf(scheme: string, rest: string)
    requires IsValidScheme(scheme)
    ensures SchemeEnd(scheme + ":" + rest) == Some(|scheme|)
  {
    var spec := scheme + ":" + rest;
    var e := SchemeEnd(spec);
    assert spec[|scheme|] == ':';
    assert spec[..|scheme|] == scheme;
    assert forall k :: 0 <= k < |scheme| ==> scheme[k] != ':' && scheme[k] != '/';
  }

  lemma LowerValidScheme(scheme: string)
    requires IsValidScheme(scheme)
    ensures IsValidScheme(ToLower(scheme))
  {
  }
}

=== FILE: gpt_helper.dfy ===
/** `GptHelper`: turning the chat model's tool call into a conda `PackagesSpec`.
    The JSON text is decoded by a parameter (the JSON library), and the chat
    model's reply is given as data; the decision logic around both is modelled.
 */
module GptHelper {

  import opened Wrappers
  import opened Strings

  /** What the JSON library gives for the value stored under a key of the
      decoded object. */
  datatype JsonValue =
    | JNull                     // absent key or JSON null: `get` yields null
    | JList(items: seq<string>) // a JSON array of strings
    | JOther                    // a string, number, boolean or object

  /** `JsonHelper.fromJson(json, Map.class)`. */
  datatype Parsed =
    | Malformed                            // the library throws `IOException`
    | NullDocument                         // the text is `null`: the map is null
    | Object(fields: map<string, JsonValue>)

  datatype PackagesType = Conda

  /** `PackagesSpec`, as this helper fills it. */
  datatype PackagesSpec = PackagesSpec(kind: PackagesType, entries: seq<string>, channels: seq<string>)

  datatype GptError =
    | UnparsableJson(json: string)        // `IllegalArgumentException` "Unable to parse json object"
    | NoPackages(json: string)            // `IllegalArgumentException` "Unable to resolve packages"
    | NullObject                          // `NullPointerException` from `get` on a null map
    | NotAList(key: string)               // `ClassCastException` from the cast to `List`
    | MissingApiKey                       // `IllegalArgumentException` "Missing OPENAI_API_KEY"
    | NoToolRequest(prompt: string)       // `IllegalArgumentException` "Unable to resolve container"
    | ChatFailed                          // the chat model threw a runtime exception
    | BadClientResponse(cause: GptError)  // `BadClientResponseException` wrapping the above

  /** The channels used when the reply names none. */
  const DefaultChannels: seq<string> := ["bioconda", "conda-forge", "defaults"]

  /** `(List<String>) object.get(key)`: null stays null, a list is kept, any other
      value fails the cast. */
  function ListField(fields: map<string, JsonValue>, key: string): (r: Result<Option<seq<string>>, GptError>)
    ensures r.Failure? <==> key in fields && fields[key].JOther?
    ensures r.Failure? ==> r.error == NotAList(key)
    ensures r.Success? && r.value.Some? <==> key in fields && fields[key].JList?
    ensures r.Success? && r.value.Some? ==> r.value.value == fields[key].items
  {
    if key !in fields then Success(None)
    else match fields[key]
      case JNull => Success(None)
      case JList(items) => Success(Some(items))
      case JOther => Failure(NotAList(key))
  }

  /** `jsonToPackageSpec`: a conda spec whose entries are the "packages" list,
      which must be present and non-empty, and whose channels are the
      "channels" list, or the default channels when that is missing or empty. */
  function JsonToPackageSpec(json: string, parse: string -> Parsed): (r: Result<PackagesSpec, GptError>)
    ensures parse(json).Malformed? ==> r == Failure(UnparsableJson(json))
    ensures parse(json).NullDocument? ==> r == Failure(NullObject)
    ensures r.Success? ==>
              parse(json).Object? && "packages" in parse(json).fields
              && parse(json).fields["packages"] == JList(r.value.entries)
    ensures r.Success? ==> r.value.kind == Conda && r.value.entries != [] && r.value.channels != []
    ensures r.Success? ==>
              (r.value.channels == DefaultChannels
               || ("channels" in parse(json).fields && parse(json).fields["channels"] == JList(r.value.channels)))
  {
    match parse(json)
    case Malformed => Failure(UnparsableJson(json))
    case NullDocument => Failure(NullObject)
    case Object(fields) =>
      var packages :- ListField(fields, "packages");
      if packages.None? || packages.value == [] then Failure(NoPackages(json))
      else
        var channels :- ListField(fields, "channels");
        var chosen := if channels.None? || channels.value == [] then DefaultChannels else channels.value;
        Success(PackagesSpec(Conda, packages.value, chosen))
  }

  /** A reply whose packages are a non-empty list is accepted exactly when the
      channels are not a non-list value; the channels are then the given list
      when it is non-empty and the default list otherwise. */
  lemma {:induction false} PackageSpecOfObject(json: string, parse: string -> Parsed, packages: seq<string>)
    requires parse(json).Object? && "packages" in parse(json).fields
    requires parse(json).fields["packages"] == JList(packages) && packages != []
    ensures var fields := parse(json).fields;
            var r := JsonToPackageSpec(json, parse);
            (r.Success? <==> !("channels" in fields && fields["channels"].JOther?))
            && (r.Success? ==> r.value.entries == packages)
            && (r.Success? && "channels" in fields && fields["channels"].JList? && fields["channels"].items != [] ==>
                  r.value.channels == fields["channels"].items)
            && (r.Success? && !("channels" in fields && fields["channels"].JList? && fields["channels"].items != []) ==>
                  r.value.channels == DefaultChannels)
  {
    var fields := parse(json).fields;
    assert ListField(fields, "packages") == Success(Some(packages));
  }

  /** Missing, null, or empty packages are rejected with the offending text. */
  lemma NoPackagesRejected(json: string, parse: string -> Parsed)
    requires parse(json).Object?
    requires var fields := parse(json).fields;
             "packages" !in fields || fields["packages"] == JNull || fields["packages"] == JList([])
    ensures JsonToPackageSpec(json, parse) == Failure(NoPackages(json))
  {
  }

  /** The chat model's answer: it failed, or it carries the (nullable) list of
      tool-execution requests, each given by its JSON arguments. */
  datatype ChatReply = Unanswered | Answered(toolRequests: Option<seq<string>>)

  /** `grabPackages` with `grabPackages0` and `client` inlined: an empty API key
      stops before the model is asked; a reply without tool requests is
      rejected; only the first request is decoded; and every runtime exception
      on the way is rethrown as `BadClientResponseException`. */
  function GrabPackages(prompt: string, apiKey: Option<string>, reply: ChatReply, parse: string -> Parsed)
    : (r: Result<PackagesSpec, GptError>)
    ensures r.Failure? ==> r.error.BadClientResponse?
    ensures IsNullOrEmpty(apiKey) ==> r == Failure(BadClientResponse(MissingApiKey))
    ensures r.Success? <==>
              !IsNullOrEmpty(apiKey) && reply.Answered? && reply.toolRequests.Some?
              && |reply.toolRequests.value| > 0
              && JsonToPackageSpec(reply.toolRequests.value[0], parse).Success?
    ensures r.Success? ==> r == JsonToPackageSpec(reply.toolRequests.value[0], parse)
  {
    var inner :=
      if IsNullOrEmpty(apiKey) then Failure(MissingApiKey)
      else match reply
        case Unanswered => Failure(ChatFailed)
        case Answered(requests) =>
          if requests.None? || |requests.value| == 0 then Failure(NoToolRequest(prompt))
          else JsonToPackageSpec(requests.value[0], parse);
    match inner
    case Success(spec) => Success(spec)
    case Failure(e) => Failure(BadClientResponse(e))
  }

  /** Requests after the first are never looked at. */
  lemma OnlyFirstRequestUsed(prompt: string, apiKey: Option<string>, first: string, rest1: seq<string>,
                             rest2: seq<string>, parse: string -> Parsed)
    ensures GrabPackages(prompt, apiKey, Answered(Some([first] + rest1)), parse)
         == GrabPackages(prompt, apiKey, Answered(Some([first] + rest2)), parse)
  {
  }

  /** A reply with no tool requests, null or empty, is reported as a bad response
      naming the prompt. */
  lemma NoToolRequestRejected(prompt: string, apiKey: Option<string>, requests: Option<seq<string>>,
                              parse: string -> Parsed)
    requires !IsNullOrEmpty(apiKey)
    requires requests.None? || requests.value == []
    ensures GrabPackages(prompt, apiKey, Answered(requests), parse) == Failure(BadClientResponse(NoToolRequest(prompt)))
  {
  }
}

=== FILE: json_decoding.dfy ===
/** What decoding a response body with Moshi (`JsonHelper.fromJson`) can give.
    The two failures are different kinds of exception, and the clients catch
    only one of them.
 */
module JsonDecoding {

  datatype Decoded<T> =
    | Decoded(value: T)
    | Malformed   // `JsonEncodingException`, an `IOException`: the body is not well-formed JSON
    | Mismatched  // `JsonDataException`, a `RuntimeException`: well-formed JSON of another shape
}

=== FILE: key_value_validator.dfy ===
/** wavelit's `KeyValueValidator`: the picocli parameter consumer that takes the
    option value from the top of the argument stack and accepts it only if it
    contains '='.
 */
module KeyValueValidator {

  import opened Wrappers

  datatype ConsumeError =
    | EmptyStack             // `Stack.pop` threw `EmptyStackException`
    | NotKeyValue(value: string)  // `ParameterException`

  /** The stored option value and the stack that is left. */
  datatype Consumed = Consumed(value: string, rest: seq<string>)

  /** `consumeParameters`: the top of the stack is its last element. */
  function ConsumeParameters(args: seq<string>): (r: Result<Consumed, ConsumeError>)
    ensures |args| == 0 <==> r == Failure(EmptyStack)
    ensures |args| > 0 ==> (r.Success? <==> '=' in args[|args| - 1])
    ensures |args| > 0 && r.Failure? ==> r.error == NotKeyValue(args[|args| - 1])
    ensures r.Success? ==> '=' in r.value.value && r.value.rest + [r.value.value] == args
  {
    if |args| == 0 then Failure(EmptyStack)
    else
      var top := args[|args| - 1];
      if '=' !in top then Failure(NotKeyValue(top))
      else
        assert args[..|args| - 1] + [top] == args;
        Success(Consumed(top, args[..|args| - 1]))
  }

  /** Pushing an accepted value back onto what is left restores the stack, and
      exactly one element was taken. */
  lemma ConsumeTakesOne(args: seq<string>)
    requires ConsumeParameters(args).Success?
    ensures var c := ConsumeParameters(args).value;
            |c.rest| == |args| - 1 && c.rest == args[..|args| - 1]
  {
  }

  /** A value whose key is empty, such as "=x", is still accepted. */
  lemma EmptyKeyAccepted(rest: seq<string>, value: string)
    ensures ConsumeParameters(rest + ["=" + value]) == Success(Consumed("=" + value, rest))
  {
    var args := rest + ["=" + value];
    assert ("=" + value)[0] == '=';
    assert args[..|args| - 1] == rest;
  }
}

=== FILE: layer_ref_adapter.dfy ===
/** `LayerRefAdapter`: the JSON writer for manifest layers, which always writes a
    `LayerRef`, so every layer appears with a `uri` member.
 */
module LayerRefAdapter {

  import opened Wrappers
  import opened ContainerSpecEx

  /** `toJson`: a `LayerRef` is written as it is; a plain descriptor as a
      `LayerRef` with a null `uri`. */
  function ToJson(entry: LayerEntry): (r: LayerEntry)
    ensures r.LayerRef? && r.ref == entry.ref
    ensures entry.LayerRef? ==> r == entry
    ensures entry.Plain? ==> r.uri.None?
  {
    match entry
    case Plain(ref) => LayerRef(ref, None)
    case LayerRef(_, _) => entry
  }

  /** Adapting twice is adapting once. */
  lemma ToJsonIdempotent(entry: LayerEntry)
    ensures ToJson(ToJson(entry)) == ToJson(entry)
  {
  }

  /** After the `ContainerSpecEx` rewrite the adapter changes no layer: the URIs
      written are the blob URIs. */
  lemma ToJsonKeepsRewrittenLayers(spec: ContainerSpec, i: nat)
    requires spec.manifest.Some? && spec.manifest.value.layers.Some?
    requires i < |spec.manifest.value.layers.value|
    ensures var layers := WithLayerUris(spec).manifest.value.layers.value;
            ToJson(layers[i]) == layers[i]
            && ToJson(layers[i]).uri == Some(BlobUri(spec, spec.manifest.value.layers.value[i].ref))
  {
  }
}

=== FILE: lit_app.dfy ===
/** The wavelit `App`: its checks on the command-line options, the encoding of
    the container file, the build context and the container configuration, and
    the end of `run`, which may wait for the image before printing its name.

    Emptiness here is commons-lang `StringUtils.isEmpty` (null or ""), not the
    trimming test of the wave cli. The filesystem, the archive packer, the
    config-file reader and `String.getBytes` are parameters.
 */
module LitApp {

  import opened Wrappers
  import opened Strings
  import opened ContainerConfigs
  import opened ByteArrayAdapter
  import opened SubmitResponses
  import opened Retry
  import LitClient

  /** The command-line options the modelled steps read (`null` when not given). */
  datatype LitOptions = LitOptions(
    image: Option<string>,
    containerFile: Option<string>,
    towerToken: Option<string>,
    buildRepository: Option<string>,
    freeze: bool,
    await: bool,
    contextDir: Option<string>,
    layerDirs: Option<seq<string>>,
    command: Option<string>,
    entrypoint: Option<string>,
    configFile: Option<string>)

  /** The `IllegalCliArgumentException`s of `validateArgs`, in the order of the checks. */
  datatype LitArgError =
    | ImageAndContainerFile
    | NothingToProvision
    | FreezeWithoutBuildRepository
    | MissingTowerToken
    | ContextWithoutContainerFile
    | ContextNotFound
    | ContextNotDirectory

  /** The position of each check in `validateArgs`. */
  function Rank(e: LitArgError): nat {
    match e
    case ImageAndContainerFile => 0
    case NothingToProvision => 1
    case FreezeWithoutBuildRepository => 2
    case MissingTowerToken => 3
    case ContextWithoutContainerFile => 4
    case ContextNotFound => 5
    case ContextNotDirectory => 6
  }

  /** The condition under which each check fires, on its own. */
  predicate Holds(e: LitArgError, o: LitOptions, fs: FileSystem) {
    match e
    case ImageAndContainerFile => !IsNullOrEmpty(o.image) && !IsNullOrEmpty(o.containerFile)
    case NothingToProvision => IsNullOrEmpty(o.image) && IsNullOrEmpty(o.containerFile)
    case FreezeWithoutBuildRepository => o.freeze && IsNullOrEmpty(o.buildRepository)
    case MissingTowerToken => IsNullOrEmpty(o.towerToken) && !IsNullOrEmpty(o.buildRepository)
    case ContextWithoutContainerFile => !IsNullOrEmpty(o.contextDir) && IsNullOrEmpty(o.containerFile)
    case ContextNotFound => !IsNullOrEmpty(o.contextDir) && !fs.pathExists(o.contextDir.value)
    case ContextNotDirectory => !IsNullOrEmpty(o.contextDir) && !fs.isDirectory(o.contextDir.value)
  }

  /** No check fires: one conjunct per check, in order. */
  predicate NoCheckFires(o: LitOptions, fs: FileSystem) {
    !Holds(ImageAndContainerFile, o, fs)
    && !Holds(NothingToProvision, o, fs)
    && !Holds(FreezeWithoutBuildRepository, o, fs)
    && !Holds(MissingTowerToken, o, fs)
    && !Holds(ContextWithoutContainerFile, o, fs)
    && !Holds(ContextNotFound, o, fs)
    && !Holds(ContextNotDirectory, o, fs)
  }

  /** `validateArgs`: the checks in order; the first that fires is thrown. The
      three context checks sit inside one `if` on the context directory, which
      each condition repeats. */
  function ValidateArgs(o: LitOptions, fs: FileSystem): (r: Outcome<LitArgError>)
    ensures r.Fail? ==> Holds(r.error, o, fs)
    ensures r.Fail? ==> forall e :: Rank(e) < Rank(r.error) ==> !Holds(e, o, fs)
    ensures r.Pass? <==> NoCheckFires(o, fs)
  {
    if Holds(ImageAndContainerFile, o, fs) then Fail(ImageAndContainerFile)
    else if Holds(NothingToProvision, o, fs) then Fail(NothingToProvision)
    else if Holds(FreezeWithoutBuildRepository, o, fs) then Fail(FreezeWithoutBuildRepository)
    else if Holds(MissingTowerToken, o, fs) then Fail(MissingTowerToken)
    else if Holds(ContextWithoutContainerFile, o, fs) then Fail(ContextWithoutContainerFile)
    else if Holds(ContextNotFound, o, fs) then Fail(ContextNotFound)
    else if Holds(ContextNotDirectory, o, fs) then Fail(ContextNotDirectory)
    else Pass
  }

  /** The rules the options must follow, stated by topic rather than in check order. */
  predicate Valid(o: LitOptions, fs: FileSystem) {
    // exactly one of an image and a container file
    && (IsNullOrEmpty(o.image) != IsNullOrEmpty(o.containerFile))
    // a frozen image is pushed to a build repository, accessed with the Tower token
    && (o.freeze ==> !IsNullOrEmpty(o.buildRepository))
    && (!IsNullOrEmpty(o.buildRepository) ==> !IsNullOrEmpty(o.towerToken))
    // a context goes with a container file and is an existing directory
    && (!IsNullOrEmpty(o.contextDir) ==>
          !IsNullOrEmpty(o.containerFile) && fs.pathExists(o.contextDir.value) && fs.isDirectory(o.contextDir.value))
  }

  /** `validateArgs` accepts exactly the options that follow the rules. */
  lemma ValidateArgsAcceptsValid(o: LitOptions, fs: FileSystem)
    ensures ValidateArgs(o, fs).Pass? <==> Valid(o, fs)
  {
  }

  /** An accepted freeze request always carries a Tower token. */
  lemma FreezeCarriesToken(o: LitOptions, fs: FileSystem)
    requires ValidateArgs(o, fs).Pass? && o.freeze
    ensures !IsNullOrEmpty(o.buildRepository) && !IsNullOrEmpty(o.towerToken)
  {
    assert !Holds(FreezeWithoutBuildRepository, o, fs);
    assert !Holds(MissingTowerToken, o, fs);
  }

  /** How the container file's value is read. */
  datatype FileSource =
    | LocalPath  // starts with "/" or "./": the file at that path
    | UriPath    // starts with "file:/", "http://" or "https://": the file the URI names
    | Inline     // anything else is the container file's text itself

  function SourceOf(value: string): FileSource {
    if StartsWith(value, "/") || StartsWith(value, "./") then LocalPath
    else if StartsWith(value, "file:/") || StartsWith(value, "http://") || StartsWith(value, "https://") then UriPath
    else Inline
  }

  /** How reading the file a URI names can fail. */
  datatype UriFault = BadUriSyntax | UriUnreadable

  /** The `IllegalCliArgumentException`s of `encodeBase64`. */
  datatype FileError =
    | InvalidContainerFileUri(value: string)  // "Invalid container file URI path"
    | ContainerFileUnreadable                 // "Unable to read container file"

  /** `encodeBase64`: no container file gives none; otherwise the Base64 text of
      the bytes of the file at the path, of the file at the URI, or of the value
      itself. `readFile` is `Files.readAllBytes` (`None` for an `IOException`),
      `readUri` the same behind `new URI`, and `getBytes` is `String.getBytes`.
      The result decodes back to exactly the bytes that were read. */
  function EncodeBase64(value: Option<string>, readFile: string -> Option<seq<byte>>,
                        readUri: string -> Result<seq<byte>, UriFault>, getBytes: string -> seq<byte>)
    : (r: Result<Option<string>, FileError>)
    ensures r == Success(None) <==> IsNullOrEmpty(value)
    ensures !IsNullOrEmpty(value) && SourceOf(value.value) == LocalPath ==>
              (r.Success? <==> readFile(value.value).Some?)
              && (r.Success? ==> r.value.Some? && Deserialize(r.value.value) == readFile(value.value))
              && (r.Failure? ==> r.error == ContainerFileUnreadable)
    ensures !IsNullOrEmpty(value) && SourceOf(value.value) == UriPath ==>
              (r.Success? <==> readUri(value.value).Success?)
              && (r.Success? ==> r.value.Some? && Deserialize(r.value.value) == Some(readUri(value.value).value))
              && (readUri(value.value) == Failure(BadUriSyntax) ==> r == Failure(InvalidContainerFileUri(value.value)))
              && (readUri(value.value) == Failure(UriUnreadable) ==> r == Failure(ContainerFileUnreadable))
    ensures !IsNullOrEmpty(value) && SourceOf(value.value) == Inline ==>
              r.Success? && r.value.Some? && Deserialize(r.value.value) == Some(getBytes(value.value))
  {
    if IsNullOrEmpty(value) then Success(None)
    else
      var v := value.value;
      var bytes :-
        match SourceOf(v)
        case LocalPath =>
          (match readFile(v)
           case None => Failure(ContainerFileUnreadable)
           case Some(b) => Success(b))
        case UriPath =>
          (match readUri(v)
           case Failure(BadUriSyntax) => Failure(InvalidContainerFileUri(v))
           case Failure(UriUnreadable) => Failure(ContainerFileUnreadable)
           case Success(b) => Success(b))
        case Inline => Success(getBytes(v));
      SerializeRoundTrip(bytes);
      Success(Some(Serialize(bytes)))
  }

  /** A bare file name such as "Dockerfile" is not read from disk: it is sent
      as the container file's text. */
  lemma BareFileNameSentAsText(readFile: string -> Option<seq<byte>>,
                               readUri: string -> Result<seq<byte>, UriFault>, getBytes: string -> seq<byte>)
    ensures EncodeBase64(Some("Dockerfile"), readFile, readUri, getBytes)
         == Success(Some(Serialize(getBytes("Dockerfile"))))
  {
    var name := "Dockerfile";
    assert name[0] == 'D';
    CapitalIsInline(name);
  }

  /** A value that starts with a capital letter is the container file's text. */
  lemma CapitalIsInline(v: string)
    requires |v| >= 1 && 'A' <= v[0] <= 'Z'
    ensures SourceOf(v) == Inline
  {
    assert |v| >= 1 ==> v[..1][0] == v[0];
    assert |v| >= 2 ==> v[..2][0] == v[0];
    assert |v| >= 6 ==> v[..6][0] == v[0];
    assert |v| >= 7 ==> v[..7][0] == v[0];
    assert |v| >= 8 ==> v[..8][0] == v[0];
  }

  /** `prepareContext`: no context directory gives no build context; otherwise
      the packed directory, which must be at most 5 MiB compressed. */
  function PrepareContext(contextDir: Option<string>, pack: string -> Option<Layer>)
    : (r: Result<Option<Layer>, PrepareError>)
    ensures r == Success(None) <==> IsNullOrEmpty(contextDir)
    ensures r.Success? && r.value.Some? ==>
              pack(contextDir.value) == r.value && r.value.value.gzipSize <= MaxContextSize
    ensures r == Failure(ContextTooBig) <==>
              !IsNullOrEmpty(contextDir) && pack(contextDir.value).Some?
              && pack(contextDir.value).value.gzipSize > MaxContextSize
    ensures r == Failure(ContextPackFailed) <==> !IsNullOrEmpty(contextDir) && pack(contextDir.value).None?
  {
    if IsNullOrEmpty(contextDir) then Success(None)
    else match pack(contextDir.value)
      case None => Failure(ContextPackFailed)
      case Some(layer) => if layer.gzipSize > MaxContextSize then Failure(ContextTooBig) else Success(Some(layer))
  }

  /** The configuration before the layers are added: the config file's (or a
      new one), then the entrypoint and the command as given. Only the config
      file's name is trimmed; the command must merely not be "". */
  function BaseConfig(o: LitOptions, readConfig: string -> Option<Config>): (r: Result<Config, PrepareError>)
    ensures o.configFile.Some? && AllTrimmable(o.configFile.value) ==> r == Failure(ConfigFileBlank)
    ensures o.configFile.Some? && !AllTrimmable(o.configFile.value) && readConfig(o.configFile.value).None? ==>
              r == Failure(ConfigUnreadable(o.configFile.value))
    ensures r == Failure(CommandBlank) <==> o.command == Some("") && ReadConfigFile(o.configFile, readConfig).Success?
    ensures r.Success? <==> ReadConfigFile(o.configFile, readConfig).Success? && o.command != Some("")
    ensures r.Failure? && r.error != CommandBlank ==> r == Failure(ReadConfigFile(o.configFile, readConfig).error)
    ensures r.Success? && o.entrypoint.Some? ==> r.value.entrypoint == Some([o.entrypoint.value])
    ensures r.Success? && o.command.Some? ==> o.command.value != "" && r.value.cmd == Some([o.command.value])
    ensures r.Success? ==>
              var read := ReadConfigFile(o.configFile, readConfig).value;
              r.value.env == read.env && r.value.workingDir == read.workingDir && r.value.layers == read.layers
              && (o.entrypoint.None? ==> r.value.entrypoint == read.entrypoint)
              && (o.command.None? ==> r.value.cmd == read.cmd)
  {
    var read :- ReadConfigFile(o.configFile, readConfig);
    var entry := if o.entrypoint.Some? then read.(entrypoint := Some([o.entrypoint.value])) else read;
    match o.command
    case None => Success(entry)
    case Some(cmd) => if cmd == "" then Failure(CommandBlank) else Success(entry.(cmd := Some([cmd])))
  }

  /** `prepareConfig`: the base configuration, then each `--layer` directory
      packed and appended, then the aggregate check over every layer, those of
      the config file included; a configuration with nothing in it is no
      configuration. */
  function PrepareConfig(o: LitOptions, readConfig: string -> Option<Config>, isDirectory: string -> bool,
                         pack: string -> Option<Layer>): (r: Result<Option<Config>, PrepareError>)
    ensures BaseConfig(o, readConfig).Failure? ==> r == Failure(BaseConfig(o, readConfig).error)
    ensures r.Success? ==>
              var base := BaseConfig(o, readConfig).value;
              var dirs := o.layerDirs.GetOr([]);
              AddLayers(dirs, base.layers, isDirectory, pack).Success?
              && var all := AddLayers(dirs, base.layers, isDirectory, pack).value;
              TotalSize(all) < LayersBudget
              && (r.value.None? <==> IsBlankConfig(base.(layers := all)))
              && (r.value.Some? ==> r.value.value == base.(layers := all))
    ensures BaseConfig(o, readConfig).Success? ==>
              var base := BaseConfig(o, readConfig).value;
              var added := AddLayers(o.layerDirs.GetOr([]), base.layers, isDirectory, pack);
              (added.Failure? ==> r == Failure(BadLayer(added.error)))
              && (r == Failure(LayersTooBig) <==> added.Success? && TotalSize(added.value) >= LayersBudget)
    ensures r.Success? <==>
              BaseConfig(o, readConfig).Success?
              && var added := AddLayers(o.layerDirs.GetOr([]), BaseConfig(o, readConfig).value.layers, isDirectory, pack);
              added.Success? && TotalSize(added.value) < LayersBudget
    ensures r.Failure? ==>
              (BaseConfig(o, readConfig).Failure? && r.error == BaseConfig(o, readConfig).error)
              || r.error.BadLayer? || r.error == LayersTooBig
  {
    var base :- BaseConfig(o, readConfig);
    var all :-
      match AddLayers(o.layerDirs.GetOr([]), base.layers, isDirectory, pack)
      case Failure(e) => Failure(BadLayer(e))
      case Success(layers) => Success(layers);
    if TotalSize(all) >= LayersBudget then Failure(LayersTooBig)
    else
      var result := base.(layers := all);
      Success(if IsBlankConfig(result) then None else Some(result))
  }

  /** Without `--layer` the packer and the file system are never consulted: the
      configuration is the base one, checked against the aggregate budget. */
  lemma PrepareConfigWithoutLayers(o: LitOptions, readConfig: string -> Option<Config>, isDirectory: string -> bool,
                                   pack: string -> Option<Layer>)
    requires o.layerDirs.None? || o.layerDirs == Some([])
    requires BaseConfig(o, readConfig).Success?
    ensures var base := BaseConfig(o, readConfig).value;
            PrepareConfig(o, readConfig, isDirectory, pack)
            == if TotalSize(base.layers) >= LayersBudget then Failure(LayersTooBig)
               else Success(if IsBlankConfig(base) then None else Some(base))
  {
    var base := BaseConfig(o, readConfig).value;
    assert AddLayers(o.layerDirs.GetOr([]), base.layers, isDirectory, pack) == Success(base.layers);
    assert base.(layers := base.layers) == base;
  }

  /** Why `run` stopped after the submission. */
  datatype RunError =
    | NullTargetImage                  // `awaitImage(null)`: `NullPointerException`
    | AwaitFailed(cause: LitClient.LitError)

  /** `run` waits for the image only with `--await` and a build id in the answer. */
  predicate ShouldAwait(await: bool, resp: SubmitResponse) {
    await && !IsNullOrEmpty(resp.buildId)
  }

  /** The end of `run`: wait for the target image when `ShouldAwait` says so
      (`exchanges` are the manifest check's HTTP attempts, `uriAccepts` whether
      `URI.create` parses the manifest URI), then print the
      container image of a freeze request or the target image otherwise. */
  function RunOutcome(o: LitOptions, resp: SubmitResponse, uriAccepts: string -> bool, exchanges: nat -> Exchange)
    : (r: Result<Option<string>, RunError>)
    ensures r.Success? ==> r.value == (if o.freeze then resp.containerImage else resp.targetImage)
    ensures !ShouldAwait(o.await, resp) ==> r.Success?
    ensures ShouldAwait(o.await, resp) ==>
              (resp.targetImage.None? ==> r == Failure(NullTargetImage))
              && (resp.targetImage.Some? ==>
                    (r.Success? <==> LitClient.AwaitImage(resp.targetImage.value, uriAccepts, exchanges).Success?)
                    && (r.Failure? ==> r.error == AwaitFailed(LitClient.AwaitImage(resp.targetImage.value, uriAccepts, exchanges).error)))
  {
    var printed := if o.freeze then resp.containerImage else resp.targetImage;
    if !ShouldAwait(o.await, resp) then Success(printed)
    else match resp.targetImage
      case None => Failure(NullTargetImage)
      case Some(image) =>
        match LitClient.AwaitImage(image, uriAccepts, exchanges)
        case Failure(e) => Failure(AwaitFailed(e))
        case Success(_) => Success(printed)
  }

  /** Without waiting, no HTTP attempt is made: the printed name does not
      depend on how the manifest check would have gone. */
  lemma NoAwaitNoCheck(o: LitOptions, resp: SubmitResponse, uriAccepts: string -> bool, a: nat -> Exchange, b: nat -> Exchange)
    requires !ShouldAwait(o.await, resp)
    ensures RunOutcome(o, resp, uriAccepts, a) == RunOutcome(o, resp, uriAccepts, b)
  {
  }
}

=== FILE: lit_client.dfy ===
/** The wavelit `Client`: the same endpoint handling and retried call as the
    wave cli, a manifest URI that always starts with "https://", `submit`, and
    `awaitImage`, which checks once that the built image's manifest answers.
 */
module LitClient {

  import opened Wrappers
  import opened Retry
  import opened Endpoints
  import opened JsonDecoding

  /** The exceptions the wavelit client lets escape. */
  datatype LitError =
    | InvalidResponse(code: int, body: string)  // `IllegalStateException` "Wave invalid response"
    | ConnectionFailed(endpoint: string)        // `IllegalStateException` "Unable to connect Wave service"
    | Unavailable(code: int, body: string)      // `IllegalStateException` "Unexpected response for ..."
    | RetriesFailed                             // `FailsafeException`, not caught
    | InvalidContainerName(image: string)       // `IllegalArgumentException`
    | InvalidUri(uri: string)                   // `IllegalArgumentException` from `URI.create`
    | UndecodableResponse(body: string)         // Moshi's `JsonDataException`, not an `IOException`

  /** `imageToManifestUri`: like the wave cli's, with "https://" in place of the
      endpoint's protocol; `uriAccepts(u)` says whether `URI.create` parses `u`. */
  function ImageToManifestUri(image: string, uriAccepts: string -> bool): (r: Result<string, LitError>)
    ensures '/' !in image ==> r == Failure(InvalidContainerName(image))
    ensures r.Success? <==> '/' in image && uriAccepts(ManifestUri("https://", image).value)
    ensures r.Success? ==> Some(r.value) == ManifestUri("https://", image)
    ensures r.Failure? && r.error.InvalidUri? <==> '/' in image && !uriAccepts(ManifestUri("https://", image).value)
    ensures r.Failure? && r.error.InvalidUri? ==> Some(r.error.uri) == ManifestUri("https://", image)
  {
    match ManifestUri("https://", image)
    case None => Failure(InvalidContainerName(image))
    case Some(uri) => if uriAccepts(uri) then Success(uri) else Failure(InvalidUri(uri))
  }

  /** `submit` as written: only `IOException` is caught, but the retried call
      reports a failed transport as a `FailsafeException`, so the only
      `IOException` it sees is the one from a body that is not JSON; JSON of
      the wrong shape raises a `JsonDataException`, which escapes too. */
  function SubmitAsWritten<T>(endpoint: string, exchanges: nat -> Exchange, decode: string -> Decoded<T>)
    : (r: Result<T, LitError>)
    ensures r.Success? <==>
              exists body :: HttpSend(exchanges).outcome == Delivered(200, body) && decode(body).Decoded?
    ensures r.Success? ==> decode(HttpSend(exchanges).outcome.body) == Decoded(r.value)
    ensures r == Failure(RetriesFailed) <==> !HttpSend(exchanges).outcome.Delivered?
    ensures r == Failure(ConnectionFailed(endpoint)) <==>
              exists body :: HttpSend(exchanges).outcome == Delivered(200, body) && decode(body).Malformed?
    ensures r.Failure? && r.error.UndecodableResponse? <==>
              exists body :: HttpSend(exchanges).outcome == Delivered(200, body) && decode(body).Mismatched?
  {
    match HttpSend(exchanges).outcome
    case Delivered(code, body) =>
      if code == 200 then
        match decode(body)
        case Decoded(v) => Success(v)
        case Malformed => Failure(ConnectionFailed(endpoint))
        case Mismatched => Failure(UndecodableResponse(body))
      else Failure(InvalidResponse(code, body))
    case Exhausted => Failure(RetriesFailed)
    case Aborted => Failure(RetriesFailed)
  }

  /** A service that never answers makes `submit` as written fail with the raw
      `FailsafeException` rather than "Unable to connect Wave service". */
  lemma SubmitLeaksRetryFailure<T>(endpoint: string, decode: string -> Decoded<T>)
    ensures SubmitAsWritten(endpoint, (i: nat) => IoFailure, decode) == Failure(RetriesFailed)
  {
    AllRetryableExhausts((i: nat) => IoFailure);
  }

  /** `submit` as its error message intends it: the decoded body only on 200,
      any other code is an invalid response, and every connection failure,
      retried to exhaustion or not, is "Unable to connect Wave service". */
  function Submit<T>(endpoint: string, exchanges: nat -> Exchange, decode: string -> Decoded<T>)
    : (r: Result<T, LitError>)
    ensures r.Success? <==>
              exists body :: HttpSend(exchanges).outcome == Delivered(200, body) && decode(body).Decoded?
    ensures r.Failure? ==> r.error.InvalidResponse? || r.error.UndecodableResponse? || r.error == ConnectionFailed(endpoint)
    ensures r.Failure? && r.error.InvalidResponse? <==>
              HttpSend(exchanges).outcome.Delivered? && HttpSend(exchanges).outcome.code != 200
    ensures !HttpSend(exchanges).outcome.Delivered? ==> r == Failure(ConnectionFailed(endpoint))
  {
    match SubmitAsWritten(endpoint, exchanges, decode)
    case Failure(RetriesFailed) => Failure(ConnectionFailed(endpoint))
    case other => other
  }

  /** The two versions differ only in how an unanswered call is reported. */
  lemma SubmitAgreesWhenDelivered<T>(endpoint: string, exchanges: nat -> Exchange, decode: string -> Decoded<T>)
    ensures HttpSend(exchanges).outcome.Delivered? <==>
              Submit(endpoint, exchanges, decode) == SubmitAsWritten(endpoint, exchanges, decode)
  {
  }

  /** The first valid status code of the manifest check and the first it rejects. */
  const OkFrom: int := 200
  const OkBelow: int := 400

  /** `awaitImage`: the manifest URI, then one retried GET of it; any code in
      [200, 400) means the image is available, any other delivered code is an
      `IllegalStateException`, and a failed call escapes as `FailsafeException`
      since there is no `try` around it. */
  function AwaitImage(image: string, uriAccepts: string -> bool, exchanges: nat -> Exchange): (r: Result<int, LitError>)
    ensures ImageToManifestUri(image, uriAccepts).Failure? ==> r == Failure(ImageToManifestUri(image, uriAccepts).error)
    ensures r.Success? <==>
              ImageToManifestUri(image, uriAccepts).Success? && HttpSend(exchanges).outcome.Delivered?
              && OkFrom <= HttpSend(exchanges).outcome.code < OkBelow
    ensures r.Success? ==> r.value == HttpSend(exchanges).outcome.code
    ensures ImageToManifestUri(image, uriAccepts).Success? && !HttpSend(exchanges).outcome.Delivered? ==>
              r == Failure(RetriesFailed)
  {
    var _ :- ImageToManifestUri(image, uriAccepts);
    match HttpSend(exchanges).outcome
    case Delivered(code, body) =>
      if OkFrom <= code < OkBelow then Success(code) else Failure(Unavailable(code, body))
    case Exhausted => Failure(RetriesFailed)
    case Aborted => Failure(RetriesFailed)
  }

  /** A redirect answered first counts as available: the client does not follow it. */
  lemma RedirectCountsAsAvailable(image: string, uriAccepts: string -> bool, exchanges: nat -> Exchange,
                                  code: int, body: string)
    requires '/' in image && uriAccepts(ManifestUri("https://", image).value) && 300 <= code < 400
    requires exchanges(0) == Response(code, body)
    ensures AwaitImage(image, uriAccepts, exchanges) == Success(code)
  {
    FirstResponseDelivered(exchanges);
  }
}

=== FILE: retry.dfy ===
/** The HTTP retry policy shared by both clients: `httpSend` wraps one
    `HttpClient.send` in a Failsafe retry policy built from `RetryOpts`,
    that retries a bounded number of times on `IOException`, and
    turns the service's "temporarily unavailable" codes into such an
    exception so that they are retried too.
 */
module Retry {

  import opened Durations

  /** `RetryOpts`: the backoff delays and the bound on attempts. */
  datatype RetryOpts = RetryOpts(delay: Duration, maxAttempts: nat, maxDelay: Duration)

  /** The bound on attempts the clients use. */
  const MaxAttempts: nat := 5

  /** The default options: 150 ms initial backoff, at most 5 attempts, at most 90 s between attempts. */
  function DefaultRetryOpts(): (o: RetryOpts)
    ensures ToMillis(o.delay) == 150 && ToMillis(o.maxDelay) == 90_000 && o.maxAttempts == 5
    ensures 0 < ToMillis(o.delay) <= ToMillis(o.maxDelay)
    ensures o.maxAttempts == MaxAttempts
  {
    RetryOpts(Duration(150 * NanosPerMilli), MaxAttempts, OfSeconds(90))
  }

  /** The response codes `httpSend` turns into an `IOException`. */
  const ServerErrors: seq<int> := [249, 502, 503, 504]

  /** The code is one of `ServerErrors`. */
  predicate IsServerError(code: int)
    ensures IsServerError(code) <==> code in ServerErrors
  {
    code == 249 || code == 502 || code == 503 || code == 504
  }

  /** How one call of `HttpClient.send` ends. */
  datatype Exchange =
    | Response(code: int, body: string)
    | IoFailure      // `send` threw an `IOException`
    | Interrupted    // `send` threw `InterruptedException`

  /** The retry condition `e instanceof IOException`: a transport failure, or a
      server-error code that the supplier rethrows as an `IOException`. */
  predicate Retryable(e: Exchange) {
    e.IoFailure? || (e.Response? && IsServerError(e.code))
  }

  /** What `httpSend` gives its caller. */
  datatype SendOutcome =
    | Delivered(code: int, body: string)  // the response is returned
    | Exhausted   // the last attempt still failed with an `IOException`; Failsafe throws `FailsafeException`
    | Aborted     // `InterruptedException` is not retried; Failsafe throws `FailsafeException`

  datatype Sent = Sent(outcome: SendOutcome, attempts: nat)

  /** The outcome an attempt settles the call with. */
  function Settle(e: Exchange): SendOutcome {
    match e
    case Response(code, body) => if IsServerError(code) then Exhausted else Delivered(code, body)
    case IoFailure => Exhausted
    case Interrupted => Aborted
  }

  /** Failsafe's execution from attempt `k` on (counting from 0): `exchanges(i)` is
      how the `i`-th attempt ends. The call stops at the first attempt that is not
      retryable, or after the last allowed attempt. */
  function SendFrom(exchanges: nat -> Exchange, k: nat): (r: Sent)
    requires k < MaxAttempts
    ensures k < r.attempts <= MaxAttempts
    ensures r.attempts < MaxAttempts ==> !Retryable(exchanges(r.attempts - 1))
    ensures r.outcome == Settle(exchanges(r.attempts - 1))
    decreases MaxAttempts - k
  {
    var e := exchanges(k);
    if Retryable(e) && k + 1 < MaxAttempts then SendFrom(exchanges, k + 1)
    else Sent(Settle(e), k + 1)
  }

  /** Every attempt before the last one made failed retryably. */
  lemma {:induction false} RetriedBeforeLast(exchanges: nat -> Exchange, k: nat)
    requires k < MaxAttempts
    ensures forall i :: k <= i < SendFrom(exchanges, k).attempts - 1 ==> Retryable(exchanges(i))
    decreases MaxAttempts - k
  {
    if Retryable(exchanges(k)) && k + 1 < MaxAttempts {
      RetriedBeforeLast(exchanges, k + 1);
    }
  }

  /** `httpSend`: the whole retried call, starting from the first attempt. */
  function HttpSend(exchanges: nat -> Exchange): (r: Sent)
    ensures 1 <= r.attempts <= MaxAttempts
    ensures r.outcome.Delivered? <==> exchanges(r.attempts - 1).Response? && !Retryable(exchanges(r.attempts - 1))
    ensures r.outcome.Delivered? ==> r.outcome.code !in ServerErrors
    ensures r.outcome.Exhausted? <==> r.attempts == MaxAttempts && forall i :: 0 <= i < MaxAttempts ==> Retryable(exchanges(i))
  {
    RetriedBeforeLast(exchanges, 0);
    SendFrom(exchanges, 0)
  }

  /** A response with any code other than the server errors is returned on the
      first attempt, untouched. */
  lemma FirstResponseDelivered(exchanges: nat -> Exchange)
    requires exchanges(0).Response? && exchanges(0).code !in ServerErrors
    ensures HttpSend(exchanges) == Sent(Delivered(exchanges(0).code, exchanges(0).body), 1)
  {
  }

  /** When every allowed attempt fails with a retryable condition, the call makes
      exactly `MaxAttempts` attempts and gives up. */
  lemma AllRetryableExhausts(exchanges: nat -> Exchange)
    requires forall i :: 0 <= i < MaxAttempts ==> Retryable(exchanges(i))
    ensures HttpSend(exchanges) == Sent(Exhausted, MaxAttempts)
  {
  }

  /** The number of attempts is the position of the first attempt that is not
      retryable, or the bound when there is none; the outcome is settled by it. */
  lemma {:induction false} FirstSettledAttempt(exchanges: nat -> Exchange, j: nat)
    requires j < MaxAttempts && !Retryable(exchanges(j))
    requires forall i :: 0 <= i < j ==> Retryable(exchanges(i))
    ensures HttpSend(exchanges) == Sent(Settle(exchanges(j)), j + 1)
  {
  }

  /** Two runs of attempts agree from `lo` up to `hi`. */
  predicate AgreeOn(a: nat -> Exchange, b: nat -> Exchange, lo: nat, hi: nat) {
    forall i :: lo <= i < hi ==> a(i) == b(i)
  }

  /** Only the attempts actually made matter: two runs that agree on them end alike. */
  lemma {:induction false} SendDependsOnAttemptsMade(a: nat -> Exchange, b: nat -> Exchange, k: nat)
    requires k < MaxAttempts
    requires AgreeOn(a, b, k, SendFrom(a, k).attempts)
    ensures SendFrom(b, k) == SendFrom(a, k)
    decreases MaxAttempts - k
  {
    assert a(k) == b(k);
    if Retryable(a(k)) && k + 1 < MaxAttempts {
      SendDependsOnAttemptsMade(a, b, k + 1);
    }
  }
}

=== FILE: strings.dfy ===
/** The `java.lang.String` and commons-lang `StringUtils` operations the client
    relies on, over `string` (a sequence of `char`).
 */
module Strings {

  import opened Wrappers

  /** Characters `String.trim()` removes: every code point up to U+0020. */
  predicate IsTrimmable(c: char) {
    c <= ' '
  }

  predicate AllTrimmable(s: string) {
    forall k :: 0 <= k < |s| ==> IsTrimmable(s[k])
  }

  /** commons-lang `StringUtils.isEmpty`: null or of length 0, without trimming. */
  predicate IsNullOrEmpty(s: Option<string>) {
    s.None? || s.value == ""
  }

  predicate StartsWith(s: string, prefix: string) {
    |prefix| <= |s| && s[..|prefix|] == prefix
  }

  /** `s` with its leading trimmable characters removed. */
  function TrimStart(s: string): (r: string)
    ensures |r| <= |s| && r == s[|s| - |r|..]
    ensures forall k :: 0 <= k < |s| - |r| ==> IsTrimmable(s[k])
    ensures r == [] || !IsTrimmable(r[0])
  {
    if |s| > 0 && IsTrimmable(s[0]) then TrimStart(s[1..]) else s
  }

  /** `s` with its trailing trimmable characters removed. */
  function TrimEnd(s: string): (r: string)
    ensures |r| <= |s| && r == s[..|r|]
    ensures forall k :: |r| <= k < |s| ==> IsTrimmable(s[k])
    ensures r == [] || !IsTrimmable(r[|r| - 1])
  {
    if |s| > 0 && IsTrimmable(s[|s| - 1]) then TrimEnd(s[..|s| - 1]) else s
  }

  /** `String.trim()`. */
  function Trim(s: string): string {
    TrimEnd(TrimStart(s))
  }

  /** A string trims to "" exactly when every character is trimmable. */
  lemma TrimEmptyIff(s: string)
    ensures Trim(s) == "" <==> AllTrimmable(s)
  {
    if AllTrimmable(s) {
      TrimOfAllTrimmable(s);
    } else {
      TrimOfSomeKept(s);
    }
  }

  lemma TrimOfAllTrimmable(s: string)
    requires AllTrimmable(s)
    ensures |Trim(s)| == 0
  {
  }

  lemma TrimOfSomeKept(s: string)
    requires !AllTrimmable(s)
    ensures |Trim(s)| > 0
  {
    var a := TrimStart(s);
    var k :| 0 <= k < |s| && !IsTrimmable(s[k]);
    assert k >= |s| - |a|;
    assert !IsTrimmable(a[k - (|s| - |a|)]);
  }

  /** Trimming an already trimmed string changes nothing. */
  lemma TrimIdempotent(s: string)
    ensures Trim(Trim(s)) == Trim(s)
  {
    var t := Trim(s);
    if t != [] {
      assert !IsTrimmable(t[0]);
      assert TrimStart(t) == t;
      assert !IsTrimmable(t[|t| - 1]);
    }
  }

  /** A string that neither starts nor ends with a trimmable character is its own trim. */
  lemma TrimUnchanged(s: string)
    requires s == [] || (!IsTrimmable(s[0]) && !IsTrimmable(s[|s| - 1]))
    ensures Trim(s) == s
  {
    TrimStartUnchanged(s);
    TrimEndUnchanged(s);
  }

  lemma TrimStartUnchanged(s: string)
    requires s == [] || !IsTrimmable(s[0])
    ensures TrimStart(s) == s
  {
  }

  lemma TrimEndUnchanged(s: string)
    requires s == [] || !IsTrimmable(s[|s| - 1])
    ensures TrimEnd(s) == s
  {
  }

  /** commons-lang `StringUtils.stripEnd(s, "/")`: every trailing '/' removed. */
  function StripTrailingSlashes(s: string): (r: string)
    ensures |r| <= |s| && r == s[..|r|]
    ensures forall k :: |r| <= k < |s| ==> s[k] == '/'
    ensures r == [] || r[|r| - 1] != '/'
  {
    if |s| > 0 && s[|s| - 1] == '/' then StripTrailingSlashes(s[..|s| - 1]) else s
  }

  /** A string that does not end in '/' has nothing to strip. */
  lemma StripTrailingSlashesUnchanged(s: string)
    requires s == [] || s[|s| - 1] != '/'
    ensures StripTrailingSlashes(s) == s
  {
  }

  /** Stripping ignores any number of '/' appended to the text. */
  lemma {:induction false} StripAppendedSlashes(s: string, n: nat)
    ensures StripTrailingSlashes(s + seq(n, _ => '/')) == StripTrailingSlashes(s)
  {
    if n > 0 {
      var e := s + seq(n, _ => '/');
      assert e[|e| - 1] == '/';
      assert e[..|e| - 1] == s + seq(n - 1, _ => '/');
      StripAppendedSlashes(s, n - 1);
    } else {
      assert s + seq(n, _ => '/') == s;
    }
  }

  /** `s.indexOf(c)`: the first position of `c`, or `None` for -1. */
  function IndexOf(s: string, c: char): (r: Option<nat>)
    ensures r.None? <==> c !in s
    ensures r.Some? ==> r.value < |s| && s[r.value] == c && c !in s[..r.value]
  {
    if |s| == 0 then None
    else if s[0] == c then Some(0)
    else match IndexOf(s[1..], c)
      case None => None
      case Some(i) =>
        assert s[..i + 1] == [s[0]] + s[1..][..i];
        Some(i + 1)
  }

  /** `s.replace(String.valueOf(c), rep)`: every occurrence of `c` replaced by `rep`. */
  function ReplaceChar(s: string, c: char, rep: string): string {
    if |s| == 0 then ""
    else (if s[0] == c then rep else [s[0]]) + ReplaceChar(s[1..], c, rep)
  }

  /** Replacement works piecewise: it distributes over concatenation. */
  lemma {:induction false} ReplaceCharConcat(a: string, b: string, c: char, rep: string)
    ensures ReplaceChar(a + b, c, rep) == ReplaceChar(a, c, rep) + ReplaceChar(b, c, rep)
  {
    if |a| == 0 {
      assert a + b == b;
    } else {
      assert (a + b)[1..] == a[1..] + b;
      ReplaceCharConcat(a[1..], b, c, rep);
    }
  }

  /** After replacement no `c` is left, unless the replacement text carries one. */
  lemma {:induction false} ReplaceCharRemoves(s: string, c: char, rep: string)
    requires c !in rep
    ensures c !in ReplaceChar(s, c, rep)
  {
    if |s| > 0 {
      ReplaceCharRemoves(s[1..], c, rep);
    }
  }

  /** A string without `c` is left unchanged. */
  lemma {:induction false} ReplaceCharAbsent(s: string, c: char, rep: string)
    requires c !in s
    ensures ReplaceChar(s, c, rep) == s
  {
    if |s| > 0 {
      assert s == [s[0]] + s[1..];
      ReplaceCharAbsent(s[1..], c, rep);
    }
  }

  /** A single `c` between two texts without one is replaced by `rep`. */
  lemma ReplaceSingle(a: string, b: string, c: char, rep: string)
    requires c !in a && c !in b
    ensures ReplaceChar(a + [c] + b, c, rep) == a + rep + b
  {
    ReplaceCharConcat(a + [c], b, c, rep);
    ReplaceCharConcat(a, [c], c, rep);
    ReplaceCharAbsent(a, c, rep);
    ReplaceCharAbsent(b, c, rep);
    assert [c][1..] == [];
    assert ReplaceChar([c], c, rep) == rep + "";
    assert rep + "" == rep;
  }

  /** Concatenation regroups freely. */
  lemma ConcatAssoc(a: string, b: string, c: string)
    ensures (a + b) + c == a + (b + c)
  {
  }

  /** The pieces between the characters of `s` that are in `seps`, every empty
      one included: what `String.split` cuts before it drops the trailing empty
      pieces (`JavaSplit`). */
  function SplitAt(s: string, seps: set<char>): (pieces: seq<string>)
    ensures |pieces| >= 1
    ensures forall i :: 0 <= i < |pieces| ==> forall c :: c in pieces[i] ==> c !in seps
  {
    if |s| == 0 then [""]
    else
      var rest := SplitAt(s[1..], seps);
      if s[0] in seps then [""] + rest
      else [[s[0]] + rest[0]] + rest[1..]
  }

  /** A text without separators is a single piece. */
  lemma {:induction false} SplitAtNone(s: string, seps: set<char>)
    requires forall k :: 0 <= k < |s| ==> s[k] !in seps
    ensures SplitAt(s, seps) == [s]
  {
    if |s| > 0 {
      SplitAtNone(s[1..], seps);
      assert [s[0]] + s[1..] == s;
    }
  }

  /** Splitting works piecewise: the pieces of two texts around a separator
      are the pieces of the first followed by those of the second. */
  lemma {:induction false} SplitAtSeparator(a: string, c: char, b: string, seps: set<char>)
    requires c in seps
    ensures SplitAt(a + [c] + b, seps) == SplitAt(a, seps) + SplitAt(b, seps)
  {
    if |a| == 0 {
      assert a + [c] + b == [c] + b;
      SplitAtCons(c, b, seps);
    } else {
      var x := a[0];
      var t := a[1..] + [c] + b;
      assert a + [c] + b == [x] + t;
      assert a == [x] + a[1..];
      SplitAtSeparator(a[1..], c, b, seps);
      var left, right := SplitAt(a[1..], seps), SplitAt(b, seps);
      SplitAtCons(x, t, seps);
      SplitAtCons(x, a[1..], seps);
      if x in seps {
        PiecesAssoc([""], left, right);
      } else {
        SeqHeadAppend(left, right);
        PiecesAssoc([[x] + left[0]], left[1..], right);
      }
    }
  }

  lemma PiecesAssoc(a: seq<string>, b: seq<string>, c: seq<string>)
    ensures a + (b + c) == (a + b) + c
  {
  }

  /** Splitting a text one character longer at the front. */
  lemma SplitAtCons(x: char, t: string, seps: set<char>)
    ensures SplitAt([x] + t, seps)
         == if x in seps then [""] + SplitAt(t, seps) else [[x] + SplitAt(t, seps)[0]] + SplitAt(t, seps)[1..]
  {
    assert ([x] + t)[0] == x && ([x] + t)[1..] == t;
  }

  lemma SeqHeadAppend(left: seq<string>, right: seq<string>)
    requires |left| >= 1
    ensures (left + right)[0] == left[0] && (left + right)[1..] == left[1..] + right
  {
  }

  /** A text with a separator in it splits into at least two pieces. */
  lemma {:induction false} SplitAtSeveral(s: string, seps: set<char>)
    requires exists k :: 0 <= k < |s| && s[k] in seps
    ensures |SplitAt(s, seps)| >= 2
  {
    if s[0] !in seps {
      var k :| 0 <= k < |s| && s[k] in seps;
      assert s[1..][k - 1] == s[k];
      SplitAtSeveral(s[1..], seps);
    }
  }

  /** `pieces` without its trailing empty strings. */
  function DropTrailingEmpty(pieces: seq<string>): (r: seq<string>)
    ensures |r| <= |pieces| && r == pieces[..|r|]
    ensures r == [] || r[|r| - 1] != ""
    ensures forall i :: |r| <= i < |pieces| ==> pieces[i] == ""
  {
    if |pieces| == 0 || pieces[|pieces| - 1] != "" then pieces
    else
      var r := DropTrailingEmpty(pieces[..|pieces| - 1]);
      assert pieces[..|pieces| - 1][..|r|] == pieces[..|r|];
      r
  }

  /** `String.split(regex)` for a regex that matches any one character of `seps`:
      a text without a match is returned whole, "" included; otherwise the
      pieces between the matches, the trailing empty ones dropped, so that a
      text of separators alone gives no piece at all. */
  function JavaSplit(s: string, seps: set<char>): seq<string> {
    var pieces := SplitAt(s, seps);
    if |pieces| == 1 then pieces else DropTrailingEmpty(pieces)
  }

  /** What `JavaSplit` keeps of the cut pieces: a text without a separator
      whole; otherwise a prefix of the pieces that is empty or ends in a
      non-empty piece, with only empty pieces after it. */
  lemma JavaSplitSpec(s: string, seps: set<char>)
    ensures (forall k :: 0 <= k < |s| ==> s[k] !in seps) ==> JavaSplit(s, seps) == [s]
    ensures |JavaSplit(s, seps)| <= |SplitAt(s, seps)|
    ensures JavaSplit(s, seps) == SplitAt(s, seps)[..|JavaSplit(s, seps)|]
    ensures forall i :: |JavaSplit(s, seps)| <= i < |SplitAt(s, seps)| ==> SplitAt(s, seps)[i] == ""
    ensures (exists k :: 0 <= k < |s| && s[k] in seps) ==>
              JavaSplit(s, seps) == [] || JavaSplit(s, seps)[|JavaSplit(s, seps)| - 1] != ""
  {
    SplitAtSingle(s, seps);
  }

  /** A text splits into one piece, itself, exactly when it has no separator. */
  lemma SplitAtSingle(s: string, seps: set<char>)
    ensures |SplitAt(s, seps)| == 1 <==> forall k :: 0 <= k < |s| ==> s[k] !in seps
    ensures |SplitAt(s, seps)| == 1 ==> SplitAt(s, seps) == [s]
  {
    if forall k :: 0 <= k < |s| ==> s[k] !in seps {
      SplitAtNone(s, seps);
    } else {
      SplitAtSeveral(s, seps);
    }
  }

  /** A piece followed by one separator: Java drops the empty piece after it,
      so "a," gives just "a" and "," gives nothing. */
  lemma JavaSplitDropsTrailing(a: string, c: char, seps: set<char>)
    requires c in seps && forall k :: 0 <= k < |a| ==> a[k] !in seps
    ensures JavaSplit(a + [c], seps) == if a == [] then [] else [a]
  {
    var none := a[..0];
    assert (a + [c])[|a|] == c;
    assert a + [c] + none == a + [c];
    SplitAtSeparator(a, c, none, seps);
    SplitAtNone(a, seps);
    SplitAtNone(none, seps);
    var pieces := [a, none];
    assert SplitAt(a + [c], seps) == pieces;
    assert !(forall k :: 0 <= k < |a + [c]| ==> (a + [c])[k] !in seps);
    assert JavaSplit(a + [c], seps) == DropTrailingEmpty(pieces);
    assert pieces[..1] == [a];
    assert DropTrailingEmpty(pieces) == DropTrailingEmpty([a]);
    if a == [] {
      assert [a][..0] == [];
    }
  }

  /** Joins `pieces` with the single separator `sep`. */
  function Join(pieces: seq<string>, sep: char): string
    requires |pieces| >= 1
  {
    if |pieces| == 1 then pieces[0] else pieces[0] + [sep] + Join(pieces[1..], sep)
  }

  /** Splitting a joined list at its separator recovers the list, provided no piece
      contains a separator. */
  lemma {:induction false} SplitJoin(pieces: seq<string>, sep: char, seps: set<char>)
    requires |pieces| >= 1 && sep in seps
    requires forall i :: 0 <= i < |pieces| ==> forall c :: c in pieces[i] ==> c !in seps
    ensures SplitAt(Join(pieces, sep), seps) == pieces
    decreases |pieces|, |pieces[0]|
  {
    var p := pieces[0];
    if |p| == 0 {
      if |pieces| > 1 {
        var tail := Join(pieces[1..], sep);
        assert Join(pieces, sep) == [sep] + tail;
        assert ([sep] + tail)[1..] == tail;
        SplitJoin(pieces[1..], sep, seps);
        assert [""] + pieces[1..] == pieces;
      }
    } else {
      var shorter := [p[1..]] + pieces[1..];
      assert shorter[1..] == pieces[1..];
      assert forall i :: 1 <= i < |shorter| ==> shorter[i] == pieces[i];
      assert forall c :: c in p[1..] ==> c in p;
      SplitJoin(shorter, sep, seps);
      if |pieces| == 1 {
        assert Join(pieces, sep) == p;
        assert Join(shorter, sep) == p[1..];
      } else {
        assert Join(shorter, sep) == p[1..] + [sep] + Join(pieces[1..], sep);
        assert Join(pieces, sep) == [p[0]] + Join(shorter, sep);
      }
      assert Join(pieces, sep)[1..] == Join(shorter, sep);
      assert p[0] in p;
      assert [p[0]] + p[1..] == p;
      assert [[p[0]] + p[1..]] + pieces[1..] == pieces;
    }
  }

  /** Java's split inverts a join whose last piece is not empty (a single piece
      may be anything, "" included): the trailing-piece rule never fires. */
  lemma JavaSplitJoin(pieces: seq<string>, sep: char, seps: set<char>)
    requires |pieces| >= 1 && sep in seps
    requires forall i :: 0 <= i < |pieces| ==> forall c :: c in pieces[i] ==> c !in seps
    requires |pieces| == 1 || pieces[|pieces| - 1] != ""
    ensures JavaSplit(Join(pieces, sep), seps) == pieces
  {
    SplitJoin(pieces, sep, seps);
    if |pieces| >= 2 {
      var s := Join(pieces, sep);
      assert s == pieces[0] + [sep] + Join(pieces[1..], sep);
      assert s[|pieces[0]|] == sep;
    }
  }

  /** ASCII upper-casing: 'a'..'z' become 'A'..'Z', everything else is kept. */
  function UpperChar(c: char): char {
    if 'a' <= c <= 'z' then (c as int - 32) as char else c
  }

  predicate IsLowerLetter(c: char) {
    'a' <= c <= 'z'
  }

  predicate IsUpperLetter(c: char) {
    'A' <= c <= 'Z'
  }

  /** `toUpperCase` on ASCII text: no lower-case letter is left, every other
      character stays where it was, and a letter becomes the upper-case letter
      at the same place in the alphabet. */
  function ToUpper(s: string): (r: string)
    ensures |r| == |s|
    ensures forall k :: 0 <= k < |r| ==> !IsLowerLetter(r[k])
    ensures forall k :: 0 <= k < |s| && !IsLowerLetter(s[k]) ==> r[k] == s[k]
    ensures forall k :: 0 <= k < |s| && IsLowerLetter(s[k]) ==> r[k] as int - 'A' as int == s[k] as int - 'a' as int
  {
    seq(|s|, k requires 0 <= k < |s| => UpperChar(s[k]))
  }

  /** ASCII lower-casing, the inverse direction of `UpperChar`. */
  function LowerChar(c: char): char {
    if 'A' <= c <= 'Z' then (c as int + 32) as char else c
  }

  /** `toLowerCase` on ASCII text: no upper-case letter is left, every other
      character stays where it was, and a letter becomes the lower-case letter
      at the same place in the alphabet. */
  function ToLower(s: string): (r: string)
    ensures |r| == |s|
    ensures forall k :: 0 <= k < |r| ==> !IsUpperLetter(r[k])
    ensures forall k :: 0 <= k < |s| && !IsUpperLetter(s[k]) ==> r[k] == s[k]
    ensures forall k :: 0 <= k < |s| && IsUpperLetter(s[k]) ==> r[k] as int - 'a' as int == s[k] as int - 'A' as int
  {
    seq(|s|, k requires 0 <= k < |s| => LowerChar(s[k]))
  }

  /** Upper- and lower-casing only change the case: the lower-cased forms of a
      text and of its upper-cased form agree, and the other way round. */
  lemma CaseFoldAgrees(s: string)
    ensures ToLower(ToUpper(s)) == ToLower(s)
    ensures ToUpper(ToLower(s)) == ToUpper(s)
  {
  }

  /** Lower-casing is idempotent. */
  lemma ToLowerIdempotent(s: string)
    ensures ToLower(ToLower(s)) == ToLower(s)
  {
  }

  /** Upper-casing is idempotent and keeps every trimmable character in place. */
  lemma ToUpperIdempotent(s: string)
    ensures ToUpper(ToUpper(s)) == ToUpper(s)
    ensures AllTrimmable(ToUpper(s)) <==> AllTrimmable(s)
  {
  }
}

=== FILE: submit_response.dfy ===
/** The answers of the submit and status endpoints, and
    `SubmitContainerTokenResponseEx`, which merges the two once a build has
    been awaited: the outcome of the build comes from the status answer,
    everything else from the submit answer.

    Both answers belong to the service's API library; timestamps are kept as
    their text.
 */
module SubmitResponses {

  import opened Wrappers
  import opened Durations

  /** `ContainerStatus`. */
  datatype ContainerStatus = Pending | Building | Scanning | Done

  /** `SubmitContainerTokenResponse`. */
  datatype SubmitResponse = SubmitResponse(
    requestId: Option<string>,
    containerToken: Option<string>,
    targetImage: Option<string>,
    expiration: Option<string>,
    containerImage: Option<string>,
    buildId: Option<string>,
    cached: Option<bool>,
    freeze: Option<bool>,
    mirror: Option<bool>,
    scanId: Option<string>,
    succeeded: Option<bool>)

  /** `ContainerStatusResponse`. */
  datatype StatusResponse = StatusResponse(
    id: Option<string>,
    status: Option<ContainerStatus>,
    buildId: Option<string>,
    mirrorId: Option<string>,
    scanId: Option<string>,
    vulnerabilities: Option<map<string, int>>,
    succeeded: Option<bool>,
    reason: Option<string>,
    detailsUri: Option<string>,
    creationTime: Option<string>,
    duration: Option<Duration>)

  /** `SubmitContainerTokenResponseEx`: the inherited submit fields plus the
      build outcome. */
  datatype SubmitResponseEx = SubmitResponseEx(
    base: SubmitResponse,
    status: Option<ContainerStatus>,
    duration: Option<Duration>,
    vulnerabilities: Option<map<string, int>>,
    reason: Option<string>,
    detailsUri: Option<string>)

  /** The merging constructor: status, duration, vulnerabilities, succeeded,
      reason and details link from the status answer; every other field from the
      submit answer, whose own `succeeded` is overridden. */
  function Merge(submitted: SubmitResponse, awaited: StatusResponse): (r: SubmitResponseEx)
    ensures r.status == awaited.status && r.duration == awaited.duration
    ensures r.vulnerabilities == awaited.vulnerabilities
    ensures r.base.succeeded == awaited.succeeded
    ensures r.reason == awaited.reason && r.detailsUri == awaited.detailsUri
    ensures r.base.(succeeded := submitted.succeeded) == submitted
  {
    SubmitResponseEx(submitted.(succeeded := awaited.succeeded), awaited.status, awaited.duration,
                     awaited.vulnerabilities, awaited.reason, awaited.detailsUri)
  }

  /** The merge reads only those six fields of the status answer: its id, build,
      mirror and scan ids and creation time are dropped, and so is the submit
      answer's own `succeeded`. */
  lemma MergeReadsOnlyOutcome(s1: SubmitResponse, s2: SubmitResponse, a1: StatusResponse, a2: StatusResponse)
    requires s1.(succeeded := None) == s2.(succeeded := None)
    requires a1.status == a2.status && a1.duration == a2.duration && a1.vulnerabilities == a2.vulnerabilities
    requires a1.succeeded == a2.succeeded && a1.reason == a2.reason && a1.detailsUri == a2.detailsUri
    ensures Merge(s1, a1) == Merge(s2, a2)
  {
    assert s1.(succeeded := a1.succeeded) == s1.(succeeded := None).(succeeded := a1.succeeded);
    assert s2.(succeeded := a2.succeeded) == s2.(succeeded := None).(succeeded := a2.succeeded);
  }
}

=== FILE: tool_differences.dfy ===
/** Where the two command-line tools treat the same input differently: the wave
    cli trims before testing for emptiness and counts only inline layers
    against the aggregate budget; wavelit tests for "" and counts every layer.
 */
module ToolDifferences {

  import opened Wrappers
  import opened Strings
  import opened ContainerConfigs
  import App
  import LitApp

  /** A context directory named by blanks is no context for the wave cli, but
      wavelit packs it, once its argument check has found that such a
      directory exists. */
  lemma BlankContextDir(dir: string, pack: string -> Option<Layer>)
    requires dir != "" && AllTrimmable(dir)
    ensures App.PrepareContext(Some(dir), pack) == Success(None)
    ensures LitApp.PrepareContext(Some(dir), pack) != Success(None)
    ensures pack(dir).None? ==> LitApp.PrepareContext(Some(dir), pack) == Failure(ContextPackFailed)
  {
  }

  /** A command of blanks is rejected by the wave cli and passed on by wavelit. */
  lemma BlankCommand(o: App.Options, lo: LitApp.LitOptions, cmd: string, readConfig: string -> Option<Config>)
    requires cmd != "" && AllTrimmable(cmd)
    requires o.configFile.None? && o.command == Some(cmd)
    requires lo.configFile.None? && lo.command == Some(cmd)
    ensures App.BaseConfig(o, readConfig) == Failure(CommandBlank)
    ensures LitApp.BaseConfig(lo, readConfig).Success?
    ensures LitApp.BaseConfig(lo, readConfig).value.cmd == Some([cmd])
  {
  }

  /** With no negative sizes, a layer list within wavelit's aggregate budget is
      within the wave cli's too. */
  lemma LitBudgetIsStricter(layers: seq<Layer>)
    requires forall i :: 0 <= i < |layers| ==> layers[i].gzipSize >= 0
    requires TotalSize(layers) < LayersBudget
    ensures InlineSize(layers) < LayersBudget
  {
    InlineSizeAtMostTotal(layers);
  }

  /** No layer in the list has a negative size. */
  predicate NoNegativeSize(layers: seq<Layer>) {
    forall i :: 0 <= i < |layers| ==> layers[i].gzipSize >= 0
  }

  /** For the same config file, entrypoint and layer directories, and no other
      field given, whatever configuration wavelit accepts the wave cli accepts
      too, and builds the same way. */
  lemma PrepareConfigLitImpliesApp(o: App.Options, lo: LitApp.LitOptions, readConfig: string -> Option<Config>,
                                   isDirectory: string -> bool, pack: string -> Option<Layer>)
    requires o.configFile == lo.configFile && o.entrypoint == lo.entrypoint && o.layerDirs == lo.layerDirs
    requires o.command.None? && o.environment.None? && o.workingDir.None? && lo.command.None?
    requires forall p :: readConfig(p).Some? ==> NoNegativeSize(readConfig(p).value.layers)
    requires forall d :: pack(d).Some? ==> pack(d).value.gzipSize >= 0
    ensures LitApp.PrepareConfig(lo, readConfig, isDirectory, pack).Success? ==>
              App.PrepareConfig(o, readConfig, isDirectory, pack) == LitApp.PrepareConfig(lo, readConfig, isDirectory, pack)
  {
    var lit := LitApp.BaseConfig(lo, readConfig);
    if LitApp.PrepareConfig(lo, readConfig, isDirectory, pack).Success? {
      var app := App.BaseConfig(o, readConfig);
      assert app.Success? && app.value == lit.value;
      var read := ReadConfigFile(o.configFile, readConfig).value;
      assert NoNegativeSize(read.layers);
      var dirs := o.layerDirs.GetOr([]);
      var all := AddLayers(dirs, read.layers, isDirectory, pack).value;
      assert NoNegativeSize(all) by {
        forall i | 0 <= i < |all|
          ensures all[i].gzipSize >= 0
        {
          if i < |read.layers| {
            assert all[i] == all[..|read.layers|][i];
          } else {
            assert all[|read.layers| + (i - |read.layers|)] == pack(dirs[i - |read.layers|]).value;
          }
        }
      }
      LitBudgetIsStricter(all);
    }
  }

  /** The converse fails: one layer of 10 MiB stored outside the request is
      within the wave cli's aggregate budget but not within wavelit's. */
  lemma ExternalLayerOnlyCountedByLit()
    ensures var layers := [Layer("https://example.com/layer.tar.gz", LayersBudget)];
            InlineSize(layers) < LayersBudget && TotalSize(layers) >= LayersBudget
  {
    var l := Layer("https://example.com/layer.tar.gz", LayersBudget);
    assert l.location[..5][0] == 'h';
    assert !IsInline(l);
    assert [l][1..] == [];
  }
}

=== FILE: wave_client.dfy ===
/** The wave cli's `Client`: the protocol of the endpoint, the registry-manifest
    URI, how a response of the retried call becomes a result or an exception,
    and the `awaitCompletion` polling loop.
 */
module WaveClient {

  import opened Wrappers
  import opened Strings
  import opened Durations
  import opened Retry
  import opened Endpoints
  import opened JsonDecoding

  /** The exceptions the client raises. */
  datatype ClientError =
    | ClientConnection(endpoint: string)       // `ClientConnectionException`
    | BadClientResponse(code: int, body: string) // `BadClientResponseException`, with the code in its message
    | InvalidEndpoint(endpoint: string)        // `RuntimeException` around `MalformedURLException`
    | InvalidContainerName(image: string)      // `IllegalArgumentException`
    | InvalidUri(uri: string)                  // `IllegalArgumentException` from `URI.create`
    | UndecodableResponse(body: string)        // Moshi's `JsonDataException`, which no `catch` handles
    | MillisOverflow                           // `ArithmeticException` from `Duration.toMillis`

  /** `protocol`: "https://" for an empty endpoint, else the protocol `new URL`
      finds followed by "://". `handlerAccepts(p, endpoint)` says whether a
      handler for protocol `p` is installed and parses the endpoint. */
  function Protocol(endpoint: string, handlerAccepts: (string, string) -> bool): (r: Result<string, ClientError>)
    ensures endpoint == "" ==> r == Success("https://")
    ensures endpoint != "" && r.Success? ==>
              UrlScheme(endpoint).Some? && r.value == UrlScheme(endpoint).value + "://"
    ensures endpoint != "" && UrlScheme(endpoint).None? ==> r == Failure(InvalidEndpoint(endpoint))
    ensures endpoint != "" ==>
              (r.Success? <==> UrlScheme(endpoint).Some? && handlerAccepts(UrlScheme(endpoint).value, endpoint))
    ensures r.Failure? ==> r.error == InvalidEndpoint(endpoint)
  {
    if endpoint == "" then Success("https://")
    else match UrlScheme(endpoint)
      case None => Failure(InvalidEndpoint(endpoint))
      case Some(p) =>
        if handlerAccepts(p, endpoint) then Success(p + "://") else Failure(InvalidEndpoint(endpoint))
  }

  /** The default endpoint and any `scheme:...` endpoint give their own
      lower-cased scheme back. */
  lemma ProtocolOfScheme(scheme: string, rest: string, handlerAccepts: (string, string) -> bool)
    requires IsValidScheme(scheme) && ToLower(scheme) != "url"
    requires rest == "" || !IsTrimmable(rest[|rest| - 1])
    requires handlerAccepts(ToLower(scheme), scheme + ":" + rest)
    ensures Protocol(scheme + ":" + rest, handlerAccepts) == Success(ToLower(scheme) + "://")
  {
    UrlSchemeOf(scheme, rest);
  }

  /** `imageToManifestUri`: a name without '/' is rejected before the protocol
      is looked at; otherwise the manifest URI after the endpoint's protocol,
      which `URI.create` must then parse. `uriAccepts(u)` says whether it does:
      URI syntax is not modelled, and a name with a space in it, for one, is
      rejected there. */
  function ImageToManifestUri(endpoint: string, image: string, handlerAccepts: (string, string) -> bool,
                              uriAccepts: string -> bool): (r: Result<string, ClientError>)
    ensures '/' !in image ==> r == Failure(InvalidContainerName(image))
    ensures '/' in image && Protocol(endpoint, handlerAccepts).Failure? ==>
              r == Failure(Protocol(endpoint, handlerAccepts).error)
    ensures r.Success? <==>
              '/' in image && Protocol(endpoint, handlerAccepts).Success?
              && uriAccepts(ManifestUri(Protocol(endpoint, handlerAccepts).value, image).value)
    ensures r.Success? ==> Some(r.value) == ManifestUri(Protocol(endpoint, handlerAccepts).value, image)
    ensures r.Failure? && r.error.InvalidUri? ==>
              Some(r.error.uri) == ManifestUri(Protocol(endpoint, handlerAccepts).value, image)
              && !uriAccepts(r.error.uri)
  {
    if '/' !in image then Failure(InvalidContainerName(image))
    else
      var protocol :- Protocol(endpoint, handlerAccepts);
      var uri := ManifestUri(protocol, image).value;
      if uriAccepts(uri) then Success(uri) else Failure(InvalidUri(uri))
  }

  /** For an endpoint `scheme:rest` a tagged name `registry/repository:tag`
      resolves to `scheme://registry/v2/repository/manifests/tag`, once that
      text parses as a URI. */
  lemma ManifestUnderEndpoint(scheme: string, rest: string, registry: string, repository: string, tag: string,
                              handlerAccepts: (string, string) -> bool, uriAccepts: string -> bool)
    requires IsValidScheme(scheme) && ToLower(scheme) != "url"
    requires rest == "" || !IsTrimmable(rest[|rest| - 1])
    requires handlerAccepts(ToLower(scheme), scheme + ":" + rest)
    requires '/' !in registry && ':' !in repository && ':' !in tag
    requires uriAccepts(ToLower(scheme) + "://" + registry + "/v2/" + repository + "/manifests/" + tag)
    ensures ImageToManifestUri(scheme + ":" + rest, registry + "/" + repository + ":" + tag, handlerAccepts, uriAccepts)
         == Success(ToLower(scheme) + "://" + registry + "/v2/" + repository + "/manifests/" + tag)
  {
    var image := registry + "/" + repository + ":" + tag;
    assert image[|registry|] == '/';
    ProtocolOfScheme(scheme, rest, handlerAccepts);
    ManifestOfTaggedName(ToLower(scheme) + "://", registry, repository, tag);
  }

  /** The common shape of `inspect`, `submit` and `serviceInfo`: the retried
      call, then code 200 decodes the body, any other delivered code is a
      `BadClientResponseException`, and a failed call (a `FailsafeException`)
      or a body that is not JSON (an `IOException`) is a
      `ClientConnectionException`. JSON of the wrong shape raises a
      `JsonDataException`, which is not an `IOException` and escapes. */
  function Call<T>(endpoint: string, exchanges: nat -> Exchange, decode: string -> Decoded<T>)
    : (r: Result<T, ClientError>)
    ensures r.Success? <==>
              exists body :: HttpSend(exchanges).outcome == Delivered(200, body) && decode(body).Decoded?
    ensures r.Success? ==> decode(HttpSend(exchanges).outcome.body) == Decoded(r.value)
    ensures r.Failure? && r.error.BadClientResponse? <==>
              HttpSend(exchanges).outcome.Delivered? && HttpSend(exchanges).outcome.code != 200
    ensures r.Failure? && r.error.BadClientResponse? ==>
              HttpSend(exchanges).outcome == Delivered(r.error.code, r.error.body)
    ensures r.Failure? && r.error.UndecodableResponse? <==>
              exists body :: HttpSend(exchanges).outcome == Delivered(200, body) && decode(body).Mismatched?
    ensures r.Failure? ==>
              r.error.BadClientResponse? || r.error.UndecodableResponse? || r.error == ClientConnection(endpoint)
  {
    match HttpSend(exchanges).outcome
    case Delivered(code, body) =>
      if code == 200 then
        match decode(body)
        case Decoded(v) => Success(v)
        case Malformed => Failure(ClientConnection(endpoint))
        case Mismatched => Failure(UndecodableResponse(body))
      else Failure(BadClientResponse(code, body))
    case Exhausted => Failure(ClientConnection(endpoint))
    case Aborted => Failure(ClientConnection(endpoint))
  }

  /** A server-error code never reaches the caller as a bad response: it is
      retried, and when retries run out the caller sees a connection failure. */
  lemma ServerErrorsNeverReported<T>(endpoint: string, exchanges: nat -> Exchange, decode: string -> Decoded<T>)
    ensures var r := Call(endpoint, exchanges, decode);
            r.Failure? && r.error.BadClientResponse? ==> r.error.code !in ServerErrors
  {
  }

  /** When every attempt fails with a retryable condition the call ends in a
      `ClientConnectionException`. */
  lemma RetriesExhaustedIsConnectionError<T>(endpoint: string, exchanges: nat -> Exchange, decode: string -> Decoded<T>)
    requires forall i :: 0 <= i < MaxAttempts ==> Retryable(exchanges(i))
    ensures Call(endpoint, exchanges, decode) == Failure(ClientConnection(endpoint))
  {
    AllRetryableExhausts(exchanges);
  }

  /** A 200 answered first is decoded without retrying. */
  lemma FirstOkDecoded<T>(endpoint: string, exchanges: nat -> Exchange, decode: string -> Decoded<T>, body: string)
    requires exchanges(0) == Response(200, body) && decode(body).Decoded?
    ensures Call(endpoint, exchanges, decode) == Success(decode(body).value)
  {
    FirstResponseDelivered(exchanges);
  }

  /** A 200 whose body is JSON of the wrong shape is not reported as a
      connection failure: the `JsonDataException` escapes both `catch` clauses. */
  lemma MismatchedBodyEscapes<T>(endpoint: string, exchanges: nat -> Exchange, decode: string -> Decoded<T>, body: string)
    requires exchanges(0) == Response(200, body) && decode(body).Mismatched?
    ensures Call(endpoint, exchanges, decode) == Failure(UndecodableResponse(body))
  {
    FirstResponseDelivered(exchanges);
  }

  /** The build status the status endpoint reports. */
  datatype BuildStatus = Pending | Completed | Failed

  /** `isComplete`: sleep 10 s (an interruption is a connection failure), then
      the retried status call; the build is complete iff the decoded status is
      COMPLETED. */
  function IsComplete(endpoint: string, interrupted: bool, exchanges: nat -> Exchange,
                      decode: string -> Decoded<BuildStatus>): (r: Result<bool, ClientError>)
    ensures interrupted ==> r == Failure(ClientConnection(endpoint))
    ensures !interrupted ==>
              (r == Success(true) <==> Call(endpoint, exchanges, decode) == Success(Completed))
    ensures !interrupted ==>
              (r == Success(false) <==> Call(endpoint, exchanges, decode) in {Success(Pending), Success(Failed)})
    ensures !interrupted && r.Failure? ==> Call(endpoint, exchanges, decode) == Failure(r.error)
  {
    if interrupted then Failure(ClientConnection(endpoint))
    else
      var status :- Call(endpoint, exchanges, decode);
      Success(status == Completed)
  }

  /** A FAILED build is not complete: polling goes on. */
  lemma FailedIsNotComplete(endpoint: string, exchanges: nat -> Exchange,
                            decode: string -> Decoded<BuildStatus>, body: string)
    requires exchanges(0) == Response(200, body) && decode(body) == Decoded(Failed)
    ensures IsComplete(endpoint, false, exchanges, decode) == Success(false)
  {
    FirstOkDecoded(endpoint, exchanges, decode, body);
  }

  /** Each status check sleeps this long before sending. */
  const PollIntervalMs: int := 10_000

  /** The largest number of status checks a timeout allows. */
  function MaxChecks(timeoutMs: int): nat {
    (if timeoutMs < 0 then 0 else timeoutMs / PollIntervalMs) + 1
  }

  /** `awaitCompletion`: `start` is the clock when the loop begins, `checks(i)` what
      the `i`-th `isComplete` call gives and `clock(i)` the clock read right after
      it, at least one poll interval after the previous reading. The loop stops
      at the first complete build, at the first exception, or once more than the
      timeout has elapsed after a check; a timeout is not an error. The timeout
      is converted with `toMillis` after every incomplete check, and a timeout
      whose milliseconds do not fit a `long` makes that conversion throw. */
  method AwaitCompletion(timeout: Duration, start: int, checks: nat -> Result<bool, ClientError>, clock: nat -> int)
    returns (r: Outcome<ClientError>, calls: nat)
    requires clock(0) >= start + PollIntervalMs
    requires forall i: nat :: clock(i + 1) >= clock(i) + PollIntervalMs
    ensures 1 <= calls <= MaxChecks(ToMillis(timeout))
    ensures forall i :: 0 <= i < calls - 1 ==> checks(i) == Success(false) && clock(i) - start <= ToMillis(timeout)
    ensures checks(calls - 1).Failure? ==> r == Fail(checks(calls - 1).error)
    ensures checks(calls - 1) == Success(true) ==> r == Pass
    ensures checks(calls - 1) == Success(false) && MillisFit(timeout) ==>
              r == Pass && clock(calls - 1) - start > ToMillis(timeout)
    ensures checks(calls - 1) == Success(false) && !MillisFit(timeout) ==> r == Fail(MillisOverflow)
    ensures !MillisFit(timeout) ==> calls == 1
  {
    var limit := ToMillis(timeout);
    calls := 0;
    while true
      invariant forall i :: 0 <= i < calls ==> checks(i) == Success(false) && clock(i) - start <= limit
      invariant calls > 0 ==> clock(calls - 1) >= start + PollIntervalMs * calls
      invariant calls > 0 ==> MillisFit(timeout)
      invariant calls < MaxChecks(limit)
      decreases MaxChecks(limit) - calls
    {
      var done := checks(calls);
      if calls > 0 {
        assert clock(calls) >= clock(calls - 1) + PollIntervalMs;
      }
      calls := calls + 1;
      if done.Failure? {
        return Fail(done.error), calls;
      }
      if done.value {
        return Pass, calls;
      }
      if !MillisFit(timeout) {
        return Fail(MillisOverflow), calls;
      }
      if clock(calls - 1) - start > limit {
        return Pass, calls;
      }
      assert PollIntervalMs * calls <= limit;
    }
  }
}

=== FILE: wrappers.dfy ===
/** Failure-compatible result types used throughout the model.

    Java `null` is modelled as `None`; a thrown exception is modelled as a
    `Failure` (or `Fail`) carrying a value that names the exception and the
    condition that raised it.
 */
module Wrappers {

  /** A possibly absent value (a nullable Java reference). */
  datatype Option<+T> = None | Some(value: T) {

    predicate IsFailure() {
      None?
    }

    function PropagateFailure<U>(): Option<U>
      requires None?
    {
      None
    }

    function Extract(): T
      requires Some?
    {
      value
    }

    /** The value, or `default` when absent. */
    function GetOr(default: T): T {
      match this
      case Some(v) => v
      case None => default
    }
  }

  /** Either a value or the error that stopped the computation. */
  datatype Result<+T, +E> = Success(value: T) | Failure(error: E) {

    predicate IsFailure() {
      Failure?
    }

    function PropagateFailure<U>(): Result<U, E>
      requires Failure?
    {
      Failure(error)
    }

    function Extract(): T
      requires Success?
    {
      value
    }
  }

  /** The outcome of a check that produces no value: it passes or names its error. */
  datatype Outcome<+E> = Pass | Fail(error: E) {

    predicate IsFailure() {
      Fail?
    }

    function PropagateFailure<U>(): Result<U, E>
      requires Fail?
    {
      Failure(error)
    }
  }

  /** Fails with `error` unless `condition` holds. */
  function Need<E>(condition: bool, error: E): (o: Outcome<E>)
    ensures o.Pass? <==> condition
  {
    if condition then Pass else Fail(error)
  }
}
